=== FILE: README.md ===
# MRC page compression of the Internet Archive PDF recoder, in Dafny

This project models the core of the MRC (mixed raster content) compressor in
`internetarchivepdf`. It covers the following parts:

- **The decomposition** (`create_mrc_hocr_components` in mrc.py). A scanned page becomes three layers:
  - a bilevel mask, made from a per-word hOCR pass ORed with a page-wide threshold pass;
  - a foreground, where the mask's pixels are kept and the rest is filled;
  - a background, where the complement's pixels are kept and the rest is filled, optionally downsampled.
- **The encoders** (`encode_mrc_mask`, `encode_mrc_background`, `encode_mrc_foreground`, `encode_mrc_images`). These are modelled as a scratch-directory protocol: each temporary file created, written and removed, and the argument list of every external codec call.
- **The page loop** (`insert_images_mrc` in recode.py). It covers:
  - page selection under `skip_pages` and `stop_after`;
  - the per-page branches (bilevel, MRC, high quality);
  - the three `insert_image` calls;
  - the timing report cadence.
- **The supporting parts of recode.py:**
  - `guess_dpi`;
  - the page-width fix-up and font scaler of `create_tess_textonly_pdf`;
  - `get_timing_summary`;
  - the parsing of the high-quality page list;
  - the `stop_after - 1` adjustment in `recode`.

## Modules

| module | file | models |
|---|---|---|
| `Base` | base.dfy | the `Result`/`Option` wrappers, Python's `int()` of a quotient or a float, `str()` of an int, and the error codes |
| `Masks` | masks.dfy | 2-D grids, boolean mask algebra, numpy slicing and slice assignment |
| `Kernels` | kernels.dfy | image types; the numeric collaborators (`threshold_local`, `threshold_otsu`, `binarise_sauvola`, `mean_estimate_sigma`, `denoise_tv_bregman`, the fill and resample routines) as opaque per-pixel function values |
| `Threshold` | threshold.dfy | `threshold_image`, `threshold_image2`, `threshold_image3`, `denoise_bregman`, `np.invert` |
| `HocrMask` | hocr_mask.dfy | `create_hocr_mask`: which words are used, the normal/inverted decision tree, and the paste |
| `WordLoop` | hocr_mask_facts.dfy | which word decides each pixel of the mask |
| `ThresholdMask` | threshold_mask.dfy | `create_threshold_mask` |
| `Components` | components.dfy | `create_mrc_hocr_components` and the recomposition of its layers |
| `Encoder` | encoder.dfy | the four encode functions over a modelled scratch directory |
| `Geometry` | geometry.dfy | `guess_dpi`, the page-width fix-up, and the font scaler |
| `Timing` | timing.dfy | `get_timing_summary` |
| `HqPages` | hq_pages.dfy | the `HQ_PAGES` vector |
| `PageSelect` | page_select.dfy | the skip/stop logic of the page loops |
| `Cadence` | report_cadence.dfy | the chunk counter, report points and final report |
| `PageProcess` | page_process.dfy | the body of the page loop for one page |
| `MrcLoop` | mrc_loop.dfy | the whole page loop |

## How the model stands in for what cannot be seen

- **Opaque numeric kernels.** Each kernel is a field of `Kernels.Kernels` and is read at one pixel. The model builds every array from these values. This includes:
  - `threshold_local`, `threshold_otsu` (`None` where skimage raises `ValueError`);
  - `binarise_sauvola`, `mean_estimate_sigma`, `gaussian_filter`, `denoise_tv_bregman`;
  - `** 0.5`, PIL's `convert('L')`;
  - `optimise_gray2` and `optimise_rgb2`;
  - the thumbnail resample.
- **Content fill.** The fill routines are not part of this model. A filled layer keeps every pixel the mask keeps and takes the kernel's value elsewhere: `optimise_gray2` and `optimise_rgb2` are assumed to keep the pixels their mask selects.
- **External programs.** `jbig2`, `kdu_compress`, `opj_compress` and the reporter are not run. A `Runner` function value maps each argument list to an exit status. A successful call's output file holds `ProgramOutput(argv)`.
- **Scratch directory.** `mkstemp` is modelled as a counter that gives every new file a fresh id. Each external call records its argument list together with the directory contents at the time of the call.
- **Timing.** Clock readings are an input: each page's timing records are given per page.

## Quirks of the source the model keeps

The model follows the code as written.

- **Invalid word boxes.** A box that is empty or lies outside the image only prints to stderr (mrc.py:211-217). It adds nothing to the error set.
- **No cleanup after a codec failure.** `subprocess.check_call` raises before `remove`, so a failing codec leaves its intermediate file behind (mrc.py:489-501, 542-554). A failing `jbig2` leaves both mask files behind (mrc.py:443). No page loop removes them. `Encoder.EncodeLayer` and `Encoder.EncodeMask` state which files remain.
- **Denoising acts on the page pass alone, not on the ORed mask.** The noise estimate and the TV denoise are applied to the page-wide pass, before it is ORed into the word mask (mrc.py:300-315).
- **Otsu failure.** When `threshold_otsu` raises, the cut-off becomes 0 (mrc.py:56-58). The normal comparison then marks nothing, but the reversed one marks every non-zero pixel.
- **Inverted-crop distance.** The distance sum for the inverted crop uses `(center_x - y)` where `(center_x - x)` is evidently meant (mrc.py:250). The tie-break's `elif thres_i_sum > thres_sum` restates the `if` above it, so it never holds (mrc.py:257-263). The inverted mask is therefore never taken alone: whenever its mean distance is not larger, the union of both masks is used. Both are kept as written: `HocrMask.Disambiguate` states the two possible outcomes, and `HocrMask.DisambiguateTieBreak` states which one a given pair of mean distances picks.
- **Background downsample of 0.** `int(w / bg_downsample)` raises ZeroDivisionError (mrc.py:401-402), but only on a page that is neither bilevel nor HQ: HQ pages pass `None` (recode.py:452-453) and bilevel pages never call the generator. The generator has already yielded the mask and the foreground, so `encode_mrc_images` has encoded both before it asks for the background (mrc.py:562-570); their files stay behind. `Components.MrcComponents`, `Encoder.EncodeImagesBackgroundRaises` and `PageProcess.ZeroFactorPage` state this.
- **The image downsample happens once.** `downsampled` starts False (recode.py:337) and is set by the `kdu_expand -reduce` decode (recode.py:388) and by the thumbnail (recode.py:424); nothing resets it. So the thumbnail of recode.py:420-424 runs only on the first processed page, and not at all if that page went through `kdu_expand -reduce`. The OpenJPEG decode (recode.py:394-398) reduces by `-r downsample-1` but leaves the flag alone, so a first page read that way is reduced twice, once by the decoder and once by the thumbnail. Later pages from an input PDF or from files that are not JPEG 2000 arrive at full size, yet their word boxes are still divided by `downsample`. The model keeps this: the page it receives is taken as loaded, and the boxes are divided whenever `downsample` is given.
- **Clamped page height.** When the page width is forced to the minimum, the source also sets `page_height` (recode.py:244-245). Line 256 then overrides the height with `imheight * scaler`, so the model keeps the height proportional.

## Model

| member | source | states |
|---|---|---|
| Base.TruncDiv | internetarchivepdf/mrc.py:401-402 | Python's `int(w / f)` for any non-zero divisor: the real quotient truncated toward zero, and the floor quotient when both are non-negative |
| Base.TruncReal | internetarchivepdf/recode.py:313 | `int()` of a float: the integer next to the value on the side of zero |
| Base.IntToString | internetarchivepdf/mrc.py:492 | `str()` of an int spells it in decimal: for `i >= 0` digits whose value is `i`, for `i < 0` a minus sign followed by digits whose value is `-i`, and no leading zero |
| Threshold.ThresholdImage | internetarchivepdf/mrc.py:46-73 | a pixel is set exactly when it lies strictly below its cut-off (strictly above when reversed); the cut-off is the Otsu level or the pixel's local Gaussian threshold |
| Threshold.ReversalFlipsComparison | internetarchivepdf/mrc.py:60-71 | the normal and reversed masks never both hold at a pixel, and one of them holds exactly when the pixel differs from its cut-off |
| Threshold.OtsuFailureMarksNothing | internetarchivepdf/mrc.py:53-63 | when Otsu raises, the normal mask is empty and the reversed mask is exactly the non-zero pixels |
| Threshold.ThresholdImage2 | internetarchivepdf/mrc.py:76-80 | the crop threshold is the intersection of the local and the Otsu masks, pixel by pixel |
| Threshold.ThresholdImage2WithinParts | internetarchivepdf/mrc.py:76-80 | the crop threshold is contained in each of its two parts |
| Threshold.ThresholdImage3 | internetarchivepdf/mrc.py:83-97 | the page threshold is the complement of the Sauvola output (window 51, k 0.3, r 128) |
| Threshold.DenoiseBregman | internetarchivepdf/mrc.py:100-109 | a pixel survives denoising exactly when the TV-denoised value (weight 1) exceeds 0.4 |
| Threshold.InvertGray | internetarchivepdf/mrc.py:227 | `np.invert` of a uint8 pixel is 255 minus that pixel |
| Threshold.InvertGrayInvolutive | internetarchivepdf/mrc.py:227 | inverting a uint8 image twice gives the image back, and the inverted image is still uint8 |
| Masks.And | internetarchivepdf/mrc.py:80 | `a & b` sets a pixel exactly when both operands set it |
| Masks.Or | internetarchivepdf/mrc.py:315 | `mask_arr \|= thres_arr` sets a pixel exactly when either operand sets it |
| Masks.Not | internetarchivepdf/mrc.py:382 | XOR with an all-true array complements each pixel |
| Masks.Crop | internetarchivepdf/mrc.py:206-209 | `img[top:bottom, left:right]` has the slice's size and holds the image's pixels shifted by the slice origin |
| Masks.Paste | internetarchivepdf/mrc.py:265 | slice assignment overwrites exactly the pasted region and leaves every other pixel as it was |
| Masks.CropOfPaste | internetarchivepdf/mrc.py:265 | reading back the region just assigned gives the assigned block |
| Masks.PasteOfCrop | internetarchivepdf/mrc.py:265 | assigning a region its own contents changes nothing |
| Masks.NotInvolutive | internetarchivepdf/mrc.py:382 | complementing a mask twice gives the mask back |
| HocrMask.Classify | internetarchivepdf/mrc.py:197-217 | a word is used exactly when its text is not blank and its box, after integer downsampling, is non-empty and inside the image; the collapsed-box skip arises only with a downsample |
| HocrMask.ScaledBox | internetarchivepdf/mrc.py:200-208 | with a downsample each box coordinate is `int(x / downsample)`, the real quotient truncated toward zero; without one the box is unchanged |
| HocrMask.Disambiguate | internetarchivepdf/mrc.py:219-263 | a low-noise crop keeps the normal threshold without evaluating the inverted crop; otherwise the result is the normal threshold or the inverted one ORed with it, and it departs from the normal threshold only when the inverted crop is both less noisy and sparser |
| HocrMask.DisambiguateTieBreak | internetarchivepdf/mrc.py:233-263 | when the inverted crop is both less noisy and sparser, the normal threshold is kept exactly when its mean distance from the centre is smaller, and otherwise the union is taken; the inverted crop's distances use the `(y, y)` line as written |
| HocrMask.WordCrop | internetarchivepdf/mrc.py:206-263 | the mask chosen for a used word has the size of its scaled box |
| HocrMask.ApplyWord | internetarchivepdf/mrc.py:197-265 | a skipped word leaves the mask unchanged; a used word overwrites exactly its box with its crop |
| HocrMask.PasteBox | internetarchivepdf/mrc.py:265 | the crop lands at the box's position, and no pixel outside the box changes |
| HocrMask.MaskWords | internetarchivepdf/mrc.py:194-265 | the word loop keeps the mask's shape |
| HocrMask.CreateHocrMask | internetarchivepdf/mrc.py:189-268 | the word pass produces a mask of the page's shape |
| HocrMask.LastCover | internetarchivepdf/mrc.py:194-265 | the word that decides a pixel is a used word whose box contains the pixel |
| WordLoop.LastCoveringWordWins | internetarchivepdf/mrc.py:194-265 | after the loop, each pixel holds the value the last used word covering it pastes there, or its old value if no used word covers it |
| WordLoop.UncoveredPixelUntouched | internetarchivepdf/mrc.py:194-265 | a pixel outside every used word's box keeps its original value |
| WordLoop.SkippedWordLeavesMask | internetarchivepdf/mrc.py:197-217 | appending a skipped word (blank, collapsed or out of bounds) to the word list does not change the resulting mask |
| WordLoop.HocrMaskPixels | internetarchivepdf/mrc.py:189-265 | every pixel of `create_hocr_mask` is decided by the last used word of the page (over paragraphs, lines and words in order) whose box covers it |
| WordLoop.CropsAreWordCrops | internetarchivepdf/mrc.py:206-265 | what the loop pastes for a used word is the decision tree's mask of that word's crop of the image |
| ThresholdMask.ToFloat | internetarchivepdf/mrc.py:355 | the float32 copy of the gray image holds the same values |
| ThresholdMask.ByteCast | internetarchivepdf/mrc.py:296 | the uint8 cast gives a byte, and the floor of the value when the value is already in byte range |
| ThresholdMask.ToUint8 | internetarchivepdf/mrc.py:296 | `imgf.astype(np.uint8)` is a uint8 image of the same shape, cast pixel by pixel |
| ThresholdMask.PagePass | internetarchivepdf/mrc.py:271-313 | the page pass blurs only when the gray noise exceeds 1.0, denoises only when denoising is asked for and the mask noise exceeds 0.1; its pixels are the inverted Sauvola bits of the uint8 image, or the denoised bits when it denoised; its timing stages say which branches ran |
| ThresholdMask.CreateThresholdMask | internetarchivepdf/mrc.py:271-315 | the final mask is exactly the word mask ORed with the page pass: it keeps every word pixel and every page-pass pixel and adds nothing else |
| Components.GrayOf | internetarchivepdf/mrc.py:342-347 | the gray image has the page's shape and is the page itself for an 'L' page |
| Components.WordMask | internetarchivepdf/mrc.py:349-353 | the word pass has the page's size and, starting from the all-false mask, leaves every pixel no used word covers false |
| Components.FinalMask | internetarchivepdf/mrc.py:349-363 | the yielded mask has the page's shape and contains every pixel the word pass set |
| Components.FillLayer | internetarchivepdf/mrc.py:371-395 | a filled layer has the page's shape and keeps every pixel its mask keeps |
| Components.Resample | internetarchivepdf/mrc.py:403-405 | the downsampled background has the target size |
| Components.MrcComponents | internetarchivepdf/mrc.py:320-414 | the generator yields mask, foreground (mask kept, radius 3) and background (complement kept, radius 10) in that order; the background is downsampled to `int(w/f)` by `int(h/f)` unless a side would be zero, in which case only the too-small warning is added; a factor of 0 yields the mask and the foreground and then raises ZeroDivisionError instead of the background |
| Components.ComplementaryFillsRecompose | internetarchivepdf/mrc.py:365-395 | the foreground where the mask holds, otherwise the background, is exactly the source image, whatever the fills compute |
| Components.ComposeRestoresPage | internetarchivepdf/mrc.py:320-414 | without a background downsample the three yielded layers recompose to the original page |
| Components.FinalMaskPixels | internetarchivepdf/mrc.py:349-363 | a pixel of the final mask is set exactly when the last used word covering it set it, or the page pass did |
| Encoder.PathText | internetarchivepdf/mrc.py:434 | a temporary path names a file inside a directory, so its text contains a slash |
| Encoder.PathTextIsNoFlag | internetarchivepdf/mrc.py:489-553 | a file name passed to a codec is never one of the codec options |
| Encoder.MkTemp | internetarchivepdf/mrc.py:434-438 | `mkstemp` returns a path that did not exist, with the requested directory, prefix and suffix, and creates it empty |
| Encoder.Remove | internetarchivepdf/mrc.py:482 | `remove` deletes exactly that file |
| Encoder.Save | internetarchivepdf/mrc.py:440 | saving replaces exactly that file's contents |
| Encoder.Invoke | internetarchivepdf/mrc.py:489-493 | a codec call is recorded with the directory it saw; only a zero exit writes its output file |
| Encoder.SlopeText | internetarchivepdf/mrc.py:492 | `str(slope)` is `None` for a missing slope and the decimal text otherwise |
| Encoder.SlopeTextIsNoFlag | internetarchivepdf/mrc.py:492 | the slope text is never one of the codec options |
| Encoder.KakaduArgvOptions | internetarchivepdf/mrc.py:489-493 | the Kakadu call passes all threads, the input after `-i`, the output after `-o`, the slope last, and no OpenJPEG option |
| Encoder.OpjBackgroundArgvOptions | internetarchivepdf/mrc.py:495-500 | the OpenJPEG background call passes one thread, the input and output, and the constant ratio `-r 400`, and never `-q` |
| Encoder.OpjForegroundArgvOptions | internetarchivepdf/mrc.py:548-553 | the OpenJPEG foreground call passes one thread, the input and output, and the quality `-q 25`, and never `-r` |
| Encoder.LayerArgvOptions | internetarchivepdf/mrc.py:488-553 | under OpenJPEG the ratio flag appears exactly for backgrounds and the quality flag exactly for foregrounds; both codecs read the intermediate and write the `.jp2` |
| Encoder.KakaduArgv | internetarchivepdf/mrc.py:489-493 | the `kdu_compress` argument list; `Encoder.KakaduArgvOptions` states its options |
| Encoder.OpjBackgroundArgv | internetarchivepdf/mrc.py:495-500 | the OpenJPEG background argument list; `Encoder.OpjBackgroundArgvOptions` states its options |
| Encoder.OpjForegroundArgv | internetarchivepdf/mrc.py:548-553 | the OpenJPEG foreground argument list; `Encoder.OpjForegroundArgvOptions` states its options |
| Encoder.LayerArgv | internetarchivepdf/mrc.py:488-553 | the argument list of a layer encode for the chosen codec and layer; `Encoder.LayerArgvOptions` states its options |
| Encoder.EncodeLayer | internetarchivepdf/mrc.py:457-559 | a layer encode succeeds exactly when the codec exits 0; the codec sees its intermediate saved and its output absent; on success only the `.jp2` remains, on failure the intermediate stays behind |
| Encoder.EncodeMask | internetarchivepdf/mrc.py:417-454 | without JBIG2 no program runs and the PNG holds the mask; with JBIG2 exactly one `jbig2` call reads the PNG, and on success both files remain |
| Encoder.EncodeLayers | internetarchivepdf/mrc.py:567-576 | the foreground `.jp2` is named before the background one (ids one and three past the mask files), no existing file is lost, and a failure carries the exit status of the last codec run |
| Encoder.EncodeImages | internetarchivepdf/mrc.py:562-594 | a failure is the exit status of the last program run |
| Encoder.EncodedPaths | internetarchivepdf/mrc.py:562-594 | on success the mask path is the JBIG2 file with JBIG2 and the PNG without it, followed by the two `.jp2` paths and the two layer sizes |
| Encoder.EncodeImagesSteps | internetarchivepdf/mrc.py:562-586 | a successful encode is the mask, then the foreground, then the background, each succeeding, with only the PNG removed at the end under JBIG2 |
| Encoder.EncodedFiles | internetarchivepdf/mrc.py:562-594 | after a successful encode the directory is the one before plus exactly the mask, foreground and background outputs; the PNG remains exactly when JBIG2 is off |
| Encoder.EncodedCalls | internetarchivepdf/mrc.py:562-577 | a successful encode runs exactly `jbig2` (only with JBIG2), then the foreground codec, then the background codec, on the expected files |
| Encoder.EncodeImagesBackgroundRaises | internetarchivepdf/mrc.py:562-570 | when the generator raises on the background, the result is always an exception; any other exception than ZeroDivisionError comes from the last program run, which failed |
| Encoder.BackgroundRaisesWhen | internetarchivepdf/mrc.py:562-570 | ZeroDivisionError escapes exactly when `jbig2` (with JBIG2) and the foreground codec succeed |
| Encoder.BackgroundRaisesFiles | internetarchivepdf/mrc.py:562-570 | after that ZeroDivisionError the mask files and the foreground `.jp2` are left next to every earlier file |
| Encoder.BackgroundRaisesCalls | internetarchivepdf/mrc.py:562-570 | before that ZeroDivisionError exactly `jbig2` (only with JBIG2) and the foreground codec have run |
| Geometry.BestIndex | internetarchivepdf/recode.py:65-70 | the stable sort's first entry has the least distance, and no earlier candidate is as close |
| Geometry.GuessDpi | internetarchivepdf/recode.py:48-70 | the guess is a candidate of least summed width/height distance, the first such in list order; a zero format side raises ZeroDivisionError, and an empty candidate list is an error (the IndexError of `sorted_diffs[0]`) |
| Geometry.DefaultGuess | internetarchivepdf/recode.py:212-215 | the A4 guess always succeeds and is one of 72, 96, 150, 300, 600 |
| Geometry.FixPageWidth | internetarchivepdf/recode.py:198-256 | the width ends strictly between the PDF/A bounds; an in-bounds first width is kept; the invalid-page-size warning is added exactly when the first width is out of bounds; the height and ppi stay proportional; a zero resolution or image width raises |
| Geometry.FixPageWidthAttempts | internetarchivepdf/recode.py:217-249 | the resolutions tried are the first one, the document one only after a per-page one when it is truthy, then the A4 guess; the width is forced to the minimum plus one exactly when the guess also fails |
| Geometry.Scale | internetarchivepdf/recode.py:251-256 | height and ppi follow the width in the image's proportions; a zero image width raises |
| Geometry.FontScalerMapsPixelsToPoints | internetarchivepdf/recode.py:251-262 | the font scaler maps the image width to the page width in points, or to `hocr_dpi / 72` of it when an hOCR resolution is given |
| Geometry.FontScaler | internetarchivepdf/recode.py:258-262 | the scaler times the page's ppi is the hOCR page's resolution, or 72 when it has none |
| Timing.GetTimingSummary | internetarchivepdf/recode.py:290-315 | the summary has one entry per stage recorded; each entry is the stage's total divided by the number of `image_load` records, in whole milliseconds; no records give an empty map, and records without `image_load` raise ZeroDivisionError |
| Timing.PagesDivide | internetarchivepdf/recode.py:293-301 | when every page records one `image_load`, the divisor is the page count |
| HqPages.HqIndex | internetarchivepdf/recode.py:977-991 | a number that is accepted marks an index within the vector |
| HqPages.Mark | internetarchivepdf/recode.py:976-991 | marking a number keeps the vector's length |
| HqPages.MarkAll | internetarchivepdf/recode.py:974-991 | the loop over the numbers keeps the vector's length |
| HqPages.HqVector | internetarchivepdf/recode.py:973-991 | the vector has one entry per page of the text-only PDF |
| HqPages.MarkAllCharacterised | internetarchivepdf/recode.py:974-991 | an entry is set exactly when it was already set or some number of the list marks it |
| HqPages.HqVectorCharacterised | internetarchivepdf/recode.py:973-991 | a page is high quality exactly when some number of the list marks it; nothing else is set |
| HqPages.HqIndexCases | internetarchivepdf/recode.py:979-988 | positive numbers are 1-indexed; 0 and 1 both mark the first page; negative numbers count from the end; `-pages` and anything beyond `pages` are silently ignored |
| HqPages.HqVectorIgnoresOrder | internetarchivepdf/recode.py:973-991 | the vector depends only on the set of numbers, not on their order or repetition |
| HqPages.HqVectorRepeatIdempotent | internetarchivepdf/recode.py:973-991 | listing a number twice marks the same pages as listing it once |
| PageSelect.KeptMembers | internetarchivepdf/recode.py:340-343 | the reference page list is exactly the non-skipped hOCR indices, strictly increasing |
| PageSelect.SelectPagesCharacterised | internetarchivepdf/recode.py:340-350 | the loop processes, in order, the first `stop` non-skipped hOCR pages; the k-th becomes PDF page k and reads the image at its hOCR index |
| PageSelect.SelectedPages | internetarchivepdf/recode.py:340-373 | no skipped page is processed, PDF indices run from 0 without gaps, the image index skips nothing, hOCR order is kept, and at most `stop` pages are processed |
| PageSelect.RecodeStopsOnePageEarly | internetarchivepdf/recode.py:919-921 | with `recode`'s adjustment, asking for `s` pages processes `s - 1` of them when there are enough, and none for `s <= 1` |
| PageSelect.NoStopProcessesAllKept | internetarchivepdf/recode.py:340-350 | without a stop every non-skipped page is processed |
| Cadence.AfterPage | internetarchivepdf/recode.py:493-514 | after each page the counter grows by one; at a multiple of `report_every` the chunk's records are summarised and cleared, and only with a reporter is a report sent and the counter reset; `report_every == 0` raises ZeroDivisionError |
| Cadence.FinalReport | internetarchivepdf/recode.py:517-526 | the final report is sent exactly when there is a reporter and the last chunk is not empty, and it carries that chunk's count and summary |
| Cadence.Run | internetarchivepdf/recode.py:493-514 | over a run of pages at most one report goes out per page and none without a reporter; without `report_every` nothing fails, nothing is reported and the counter grows by the number of pages; `report_every == 0` raises ZeroDivisionError on the first page |
| Cadence.AfterPageInStep | internetarchivepdf/recode.py:493-514 | one page keeps the loops with and without a reporter in step: same records, counter equal modulo `abs(report_every)`, report on the same page |
| Cadence.CadenceIndependentOfReporter | internetarchivepdf/recode.py:493-514 | over any run of pages the reporter changes nothing but the counter's reset: the loops fail alike, keep the same records, and each report covers exactly `abs(report_every)` pages |
| PageProcess.BilevelMask | internetarchivepdf/recode.py:430 | `np.array` of a mode '1' page is a mask of the page's shape |
| PageProcess.PageProfile | internetarchivepdf/recode.py:451-466 | an HQ page takes the HQ slopes and no background downsample; any other page the normal slopes and `bg_downsample`; `PageProcess.MrcPageInserts` and `PageProcess.LayerSizes` state the effect |
| PageProcess.PageComponents | internetarchivepdf/recode.py:450-454 | the generator call of the MRC branch under the page's profile; `PageProcess.LayerSizes` states what it yields |
| PageProcess.BilevelPage | internetarchivepdf/recode.py:428-448 | a bilevel page runs only the mask encoder, fails exactly when `jbig2` fails, removes every file it created on success, and inserts one overlay image, the JBIG2 stream or the PNG, at the page's size |
| PageProcess.RemoveEncoded | internetarchivepdf/recode.py:473-489 | the background insert (no mask, underlay) comes before the foreground insert (with the mask, overlay); all three files are read and then removed |
| PageProcess.InsertLayers | internetarchivepdf/recode.py:462-491 | the MRC branch fails exactly when the encoders fail, runs exactly their calls, and on success leaves the directory as it found it |
| PageProcess.MrcPage | internetarchivepdf/recode.py:450-491 | a successful MRC page leaves no file behind; a page that is not HQ fails when the background downsample is 0 |
| PageProcess.ZeroFactorPage | internetarchivepdf/mrc.py:401-402 | a colour or gray page that is not HQ under a background downsample of 0 always fails; it fails with ZeroDivisionError exactly when `jbig2` and the foreground codec succeeded, after running them as `encode_mrc_images` does |
| PageProcess.MrcPageInserts | internetarchivepdf/recode.py:418-491 | an MRC page inserts the background at its possibly downsampled size, then the foreground with the JBIG2 or PNG mask at full size; high quality uses the HQ slopes and never downsamples; the too-small warning is added exactly when the downsample is skipped |
| PageProcess.LayerSizes | internetarchivepdf/recode.py:451-454 | the mask and the full-size foreground are always yielded; the generator raises ZeroDivisionError exactly for a page that is not HQ under a factor of 0; otherwise the background follows, smaller only for a page that is not HQ with a factor it can divide by and a large enough page |
| PageProcess.MrcPageCalls | internetarchivepdf/recode.py:462-466 | an MRC page runs `jbig2` only with JBIG2, then the foreground codec and then the background codec, with the slopes the page's quality selects |
| PageProcess.ProcessPage | internetarchivepdf/recode.py:428-491 | a page that succeeds leaves the scratch directory as it found it |
| PageProcess.ProcessPageLayout | internetarchivepdf/recode.py:428-491 | whatever the temporary files are called, a bilevel page inserts one overlay of its own size (the page itself without JBIG2), and any other page inserts the background (no mask, underlay, downsampled when asked and not too small) and then the full-size foreground under the final mask |
| MrcLoop.Step | internetarchivepdf/recode.py:350-514 | a page whose PDF page, image or HQ flag is missing raises IndexError; otherwise it adds one page of inserts, keeps the directory, and advances the report cadence by that page's records |
| MrcLoop.Pages | internetarchivepdf/recode.py:340-514 | the loop adds one page of inserts per processed page, extends the reports, and leaves the directory as it found it |
| MrcLoop.Timings | internetarchivepdf/recode.py:493-499 | the records the cadence sees for each page are that page's records |
| MrcLoop.PagesLaidOut | internetarchivepdf/recode.py:340-491 | every page the loop adds is laid out as its own image, HQ flag and hOCR words require |
| MrcLoop.PagesReport | internetarchivepdf/recode.py:493-514 | the reports the loop sends are those of the cadence run over the processed pages' records |
| MrcLoop.StepLaidOut | internetarchivepdf/recode.py:350-491 | the page a step adds is laid out as that page requires |
| MrcLoop.InsertImagesMrcCharacterised | internetarchivepdf/recode.py:319-527 | a successful run processes exactly the selected pages, lays each out correctly, leaves the scratch directory as it found it, and sends exactly the cadence's reports followed by the final report |
| MrcLoop.SelectedPagesInBounds | internetarchivepdf/recode.py:350-418 | when the text-only PDF has one page per selected page (it is built under the same skip and stop), the HQ vector is as long as the PDF and the images cover the pages, no selected page indexes outside them |
| MrcLoop.HqVectorInBounds | internetarchivepdf/recode.py:418 | with the HQ vector parsed against the text-only PDF's page count, each selected page is in bounds and is high quality exactly when the list asked for it |
| MrcLoop.InsertImagesMrc | internetarchivepdf/recode.py:319-527 | the loop over the selected pages and the final report; what it computes is stated by `MrcLoop.InsertImagesMrcCharacterised` |

## Left out

- The numeric kernels are opaque fields of `Kernels.Kernels`: `threshold_local`, `threshold_otsu`, `binarise_sauvola`, `mean_estimate_sigma`, `gaussian_filter`, `denoise_tv_bregman`, `optimise_gray2`/`optimise_rgb2`, PIL's `convert('L')` and `thumbnail`. They are third-party array code, and the model states what the pipeline does with their results. The unused `partial_blur`/`partial_boxblur` and the helpers `level_arr` and `rgb2hsv` are not part of this model.
- Floating point: Python floats and float32 arrays are modelled as exact reals. Rounding of `w / format`, `imwidth / (dpi / 72)` and the scaler is not modelled.
- Components.Resample: PIL's `thumbnail` keeps the aspect ratio and may give a side one pixel smaller than asked. The model resamples to exactly `(int(w/f), int(h/f))`.
- PIL and numpy file I/O: reading a file back is the stored content, and PNG, TIFF, PNM and JPEG 2000 formats are not modelled.
- The clock: timing records are an input per page. The `time-per` milliseconds of a report and the `last_time` reset that goes with the counter reset are not modelled, because they come from wall-clock readings.
- The reporter's JSON payload and its subprocess call: a report is modelled as its page count and breakdown.
- Verbose and progress printing to stdout or stderr: it has no effect on the output.
- Loading the page image: decoding from the input PDF's first image or from image files, the `kdu_expand`/`opj_decompress` calls for JPEG 2000 input, and the `grayscale_pdf` special gray conversion (recode.py:351-416). The loaded page is an input.
- The image `downsample` thumbnail of recode.py:420-424: the page is an input as `create_mrc_hocr_components` receives it, at whatever size the loop left it; the word boxes are scaled by the `downsample` factor as `create_hocr_mask` does (see the quirk about the once-only downsample above).
- The `img_dir` copies of the encoded files (recode.py:468-471): debugging output only.
- The `in_pdf` branch of the page-geometry code, and parsing of `dpi_pages`: the model takes the per-page resolution as an already parsed value.
- Splitting the `hq_pages` string on commas and `int()`: the model takes the list of integers, so a malformed string's ValueError is not modelled.
- PDF assembly (`write_pdfa`, `write_page_labels`, `write_basic_ua`, `write_metadata`, `insert_images`, the text-only renderer) and `page.insert_image` beyond its arguments: these are string templates and library calls into the PDF object tree.
- The hOCR and scandata parsers: a page's words and the skip set are inputs.
- Timing records: the records of the encoders (`mask_jbig2`, `fg_jp2`, `bg_jp2`) and of the page loop (`image_load`, `page_image_insertion`) are not modelled; the loop is given each page's records. The component generator's stage names are built in `Components.StageNames` and `Components.Assemble` (`grey_conversion`, `hocr_mask_gen`, the `create_threshold_mask` stages, `fg_partial_blur`, `bg_partial_blur`, `bg_downsample`), but only the `create_threshold_mask` stages are stated by a contract.
- Compression-ratio reporting and the other loops of recode.py (`insert_images`, `create_tess_textonly_pdf` beyond its geometry) are not part of this model.
- Encoder.EncodeImages: its own contract states only the failure case. Its success paths, files and calls are stated by `Encoder.EncodedPaths`, `Encoder.EncodedFiles` and `Encoder.EncodedCalls`.
- Components.Mode: modes whose samples are not 8-bit ('I', 'I;16', 'F') are not modelled. A page's pixels are byte channels; the 32-bit, 16-bit and float arrays of those modes, and what `convert('L')` and the threshold kernels make of them, are third-party behaviour. Every other mode is `Other(channels)` and takes the colour path, as the source does for any mode but '1' and 'L' (mrc.py:342-347, 371-376, 386-391).
- PageProcess.ValidSettings: a `downsample` of 0 is excluded, and so is every member that requires it. In the source it raises ZeroDivisionError in the thumbnail of recode.py:422 or, once a word has text, in the box scaling of mrc.py:201; the model's box scaling (`HocrMask.ScaledBox`) is defined only for a factor it can divide by.

=== FILE: base.dfy ===
/**
 Shared vocabulary of the MRC model: optional values, results carrying the
 Python exception that would have been raised, the run-scoped warning codes,
 and the integer conversions Python performs implicitly (`int()` on a float,
 `str()` on an int).
 */
module Base {

  datatype Option<+T> = None | Some(value: T)

  /** The exceptions of the modelled code that abort the current page or run. */
  datatype Fault =
    | ZeroDivision              // Python ZeroDivisionError
    | CodecExit(status: int)    // subprocess.CalledProcessError from check_call / check_output
    | EmptyCandidates           // IndexError on sorted([])[0]
    | IndexOutOfRange           // IndexError on a page, image or HQ list index

  datatype Result<+T> = Ok(value: T) | Err(fault: Fault)

  /** Warning codes accumulated in the run-scoped error set (internetarchivepdf.const). */
  datatype Code =
    | TooSmallToDownsample
    | InvalidPageSize
    | InvalidPageNumbers
    | InvalidJp2Headers

  function Abs(r: real): (a: real)
    ensures a >= 0.0
    ensures a == r || a == -r
  {
    if r < 0.0 then -r else r
  }

  /** Python `int(r)` for a float: truncation toward zero. */
  function TruncReal(r: real): (n: int)
    ensures 0.0 <= r ==> n as real <= r < n as real + 1.0
    ensures r < 0.0 ==> n as real - 1.0 < r <= n as real
  {
    if r >= 0.0 then r.Floor else -((-r).Floor)
  }

  /** Python `int(a / d)` for integers: the true quotient `a / d`, truncated toward zero. */
  function TruncDiv(a: int, d: int): (q: int)
    requires d != 0
    ensures q == TruncReal(a as real / d as real)
    ensures 0 <= a && 0 < d ==> q == a / d
  {
    var n := if a < 0 then -a else a;
    var m := if d < 0 then -d else d;
    QuotientFloor(n, m);
    assert a as real / d as real == (if (a < 0) == (d < 0) then n as real / m as real else -(n as real / m as real));
    if (a < 0) == (d < 0) then n / m else -(n / m)
  }

  /** The real quotient of two naturals floors to their integer quotient. */
  lemma QuotientFloor(n: nat, m: nat)
    requires m > 0
    ensures (n as real / m as real).Floor == n / m
    ensures TruncReal(n as real / m as real) == n / m
  {
    var q, r := n / m, n % m;
    assert n == m * q + r;
    assert n as real / m as real == q as real + r as real / m as real;
    assert 0.0 <= r as real / m as real < 1.0;
  }

  function DigitChar(d: int): (c: char)
    requires 0 <= d < 10
    ensures '0' <= c <= '9' && c as int - '0' as int == d
  {
    ('0' as int + d) as char
  }

  /** The number a string of decimal digits spells, most significant digit first. */
  function DigitsValue(s: string): int {
    if |s| == 0 then 0 else DigitsValue(s[..|s| - 1]) * 10 + (s[|s| - 1] as int - '0' as int)
  }

  /** Decimal rendering of a natural number, as Python's `str`: digits spelling `n`, without a leading zero. */
  function NatToString(n: nat): (s: string)
    ensures |s| > 0
    ensures forall i :: 0 <= i < |s| ==> '0' <= s[i] <= '9'
    ensures DigitsValue(s) == n
    ensures s[0] != '0' || n == 0
  {
    if n < 10 then
      assert [DigitChar(n)][..0] == [];
      [DigitChar(n)]
    else
      var front := NatToString(n / 10);
      var s := front + [DigitChar(n % 10)];
      assert s[..|s| - 1] == front;
      s
  }

  /** Python's `str` on an int: a minus sign for a negative number, then the digits of its magnitude. */
  function IntToString(i: int): (s: string)
    ensures |s| > 0
    ensures forall k :: 0 <= k < |s| ==> s[k] == '-' || '0' <= s[k] <= '9'
    ensures 0 <= i ==> DigitsValue(s) == i && forall k :: 0 <= k < |s| ==> '0' <= s[k] <= '9'
    ensures i < 0 ==> s[0] == '-' && |s| > 1 && DigitsValue(s[1..]) == -i && forall k :: 1 <= k < |s| ==> '0' <= s[k] <= '9'
    ensures |s| > 1 && s[0] != '-' ==> s[0] != '0'
    ensures i < 0 ==> |s| > 1 && s[1] != '0'
  {
    if i < 0 then
      var digits := NatToString(-i);
      assert ("-" + digits)[1..] == digits;
      "-" + digits
    else NatToString(i)
  }
}

=== FILE: components.dfy ===
/**
 `create_mrc_hocr_components` of mrc.py: the mask (word pass ORed with page
 pass, starting from an all-false mask), then the foreground filled around
 the mask with radius 3, then the background filled around the complement
 of the mask with radius 10 and optionally downsampled.
 */
module Components {
  import opened Base
  import opened Masks
  import opened Kernels
  import opened Threshold
  import opened HocrMask
  import opened ThresholdMask
  import WordLoop

  /**
   PIL image modes: '1', 'L', 'RGB', 'RGBA', and any other mode with 8-bit
   samples ('P', 'LA', 'CMYK', ...) by its number of channels. Only '1' and
   'L' are told apart by the pipeline; every other mode takes the colour path.
   */
  datatype Mode = Bilevel | Luminance | Rgb | Rgba | Other(channels: nat)

  function Channels(mode: Mode): nat {
    match mode
    case Bilevel => 1
    case Luminance => 1
    case Rgb => 3
    case Rgba => 4
    case Other(n) => n
  }

  datatype Page = Page(mode: Mode, pixels: Image)

  /** A decoded PIL image: rectangular, with the mode's number of 8-bit channels per pixel. */
  predicate WellFormedPage(p: Page) {
    && Rect(p.pixels) && Channels(p.mode) > 0
    && forall y, x :: 0 <= y < |p.pixels| && 0 <= x < Width(p.pixels) ==> IsPixel(p.mode, p.pixels[y][x])
  }

  /** One pixel of a decoded image: the mode's number of 8-bit channels. */
  predicate IsPixel(mode: Mode, v: seq<int>) {
    |v| == Channels(mode) && forall c :: 0 <= c < |v| ==> IsByte(v[c])
  }

  /** `image` itself when its mode is 'L', otherwise `image.convert('L')`. */
  function GrayOf(k: Kernels, p: Page): (g: Gray)
    requires WellFormedPage(p)
    ensures SameShape(p.pixels, g)
    ensures p.mode == Luminance ==>
      forall y, x :: 0 <= y < |g| && 0 <= x < Width(g) ==> g[y][x] == p.pixels[y][x][0]
  {
    seq(|p.pixels|, y requires 0 <= y < |p.pixels| =>
      seq(|p.pixels[y]|, x requires 0 <= x < |p.pixels[y]| =>
        if p.mode == Luminance then p.pixels[y][x][0] else k.luma(p.pixels[y][x])))
  }

  /** Fill radii of the two `optimise_*2` calls. */
  const ForegroundRadius: nat := 3
  const BackgroundRadius: nat := 10

  /**
   A content-fill layer: every pixel `keep` keeps is the source pixel, every
   other pixel is the fill kernel's value for it. `gray` selects
   `optimise_gray2` (mode 'L') over `optimise_rgb2`.
   */
  function FillLayer(k: Kernels, gray: bool, keep: Mask, img: Image, radius: nat): (r: Image)
    requires SameShape(img, keep)
    ensures SameShape(img, r)
    ensures forall y, x :: 0 <= y < |img| && 0 <= x < Width(img) ==>
      keep[y][x] ==> r[y][x] == img[y][x]
  {
    seq(|img|, y requires 0 <= y < |img| =>
      seq(|img[y]|, x requires 0 <= x < |img[y]| =>
        if keep[y][x] then img[y][x] else k.fill(gray, keep, img, radius, y, x)))
  }

  /** `image2.thumbnail((w, h))`, modelled as a resample to exactly `w` by `h`. */
  function Resample(k: Kernels, img: Image, w: nat, h: nat): (r: Image)
    ensures IsGrid(r, w, h)
  {
    seq(h, y requires 0 <= y < h => seq(w, x requires 0 <= x < w => k.resample(img, w, h, y, x)))
  }

  /** The three arrays the generator yields, tagged by what they are. */
  datatype Layer = MaskLayer(mask: Mask) | ForegroundLayer(pixels: Image) | BackgroundLayer(pixels: Image)

  /**
   What the generator yields, the exception it raises instead of its last
   layer (if any), the error set after it, and the timing stages it logs.
   */
  datatype Components = Components(layers: seq<Layer>, fault: Option<Fault>, errors: set<Code>, stages: seq<string>)

  /** A background downsample of 0: `int(w / bg_downsample)` raises once the background is asked for. */
  predicate ZeroFactor(f: Option<int>) {
    f == Some(0)
  }

  /** The target size of the background downsample, `(int(w / f), int(h / f))`. */
  function DownsampleTarget(w: nat, h: nat, f: int): (int, int)
    requires f != 0
  {
    (TruncDiv(w, f), TruncDiv(h, f))
  }

  /** Whether the background downsample is skipped with a warning. */
  predicate TooSmall(w: nat, h: nat, f: int)
    requires f != 0
  {
    var (wd, hd) := DownsampleTarget(w, h, f);
    !(wd > 0 && hd > 0)
  }

  /**
   The word pass over an all-false mask the size of the page: a pixel no
   accepted word covers stays false.
   */
  function WordMask(k: Kernels, p: Page, paras: seq<Paragraph>, ds: Option<int>): (m: Mask)
    requires WellFormedPage(p) && ValidDownsample(ds)
    ensures SameShape(p.pixels, m)
    ensures forall y, x ::
      0 <= y < |p.pixels| && 0 <= x < Width(p.pixels) && LastCover(Words(paras), ds, Width(p.pixels), |p.pixels|, y, x).None?
      ==> !m[y][x]
  {
    var gray := GrayOf(k, p);
    var empty := Filled(Width(p.pixels), |p.pixels|, false);
    WordLoop.HocrMaskUncovered(k, gray, empty, paras, ds);
    CreateHocrMask(k, gray, empty, paras, ds)
  }

  /** The final mask: the word pass ORed with the page pass. */
  function FinalMask(k: Kernels, p: Page, paras: seq<Paragraph>, ds: Option<int>, denoise: bool): (m: Mask)
    requires WellFormedPage(p) && ValidDownsample(ds)
    ensures SameShape(p.pixels, m)
    ensures Subset(WordMask(k, p, paras, ds), m)
  {
    var gray := GrayOf(k, p);
    CreateThresholdMask(k, WordMask(k, p, paras, ds), ToFloat(gray), denoise).bits
  }

  /** The timing records the generator appends before the background downsample. */
  function StageNames(k: Kernels, p: Page, denoise: bool): seq<string>
    requires WellFormedPage(p)
  {
    var stages := PagePass(k, ToFloat(GrayOf(k, p)), denoise).stages;
    (if p.mode != Luminance then ["grey_conversion"] else []) + ["hocr_mask_gen"] + stages
    + ["fg_partial_blur", "bg_partial_blur"]
  }

  /**
   `create_mrc_hocr_components(image, hocr_word_data, downsample, bg_downsample, denoise_mask, errors=errors)`.
   With a background downsample of 0 the generator yields the mask and the
   foreground and then raises `ZeroDivisionError` instead of the background.
   */
  function MrcComponents(k: Kernels, p: Page, paras: seq<Paragraph>, ds: Option<int>, bgDs: Option<int>,
                         denoise: bool, errors: set<Code>): (c: Components)
    requires WellFormedPage(p) && ValidDownsample(ds)
    ensures |c.layers| == (if ZeroFactor(bgDs) then 2 else 3)
    ensures c.fault == (if ZeroFactor(bgDs) then Some(ZeroDivision) else None)
    ensures c.layers[0] == MaskLayer(FinalMask(k, p, paras, ds, denoise))
    ensures c.layers[1] == ForegroundLayer(
      FillLayer(k, p.mode == Luminance, FinalMask(k, p, paras, ds, denoise), p.pixels, ForegroundRadius))
    ensures !ZeroFactor(bgDs) ==> c.layers[2].BackgroundLayer?
    ensures bgDs.None? || (!ZeroFactor(bgDs) && TooSmall(Width(p.pixels), |p.pixels|, bgDs.value)) ==>
      c.layers[2].pixels == FillLayer(k, p.mode == Luminance, Not(FinalMask(k, p, paras, ds, denoise)), p.pixels, BackgroundRadius)
    ensures bgDs.Some? && !ZeroFactor(bgDs) && !TooSmall(Width(p.pixels), |p.pixels|, bgDs.value) ==>
      IsGrid(c.layers[2].pixels, TruncDiv(Width(p.pixels), bgDs.value), TruncDiv(|p.pixels|, bgDs.value))
    ensures c.errors == if bgDs.Some? && !ZeroFactor(bgDs) && TooSmall(Width(p.pixels), |p.pixels|, bgDs.value)
                        then errors + {TooSmallToDownsample} else errors
  {
    Assemble(k, p.mode == Luminance, FinalMask(k, p, paras, ds, denoise), p.pixels, bgDs, errors,
             StageNames(k, p, denoise))
  }

  /** The layers the generator builds around a final mask `mask` of the page pixels `img`. */
  function Assemble(k: Kernels, grayMode: bool, mask: Mask, img: Image, bgDs: Option<int>, errors: set<Code>,
                    front: seq<string>): (c: Components)
    requires SameShape(img, mask)
    ensures |c.layers| == (if ZeroFactor(bgDs) then 2 else 3)
    ensures c.fault == (if ZeroFactor(bgDs) then Some(ZeroDivision) else None)
    ensures c.layers[0] == MaskLayer(mask)
    ensures c.layers[1] == ForegroundLayer(FillLayer(k, grayMode, mask, img, ForegroundRadius))
    ensures !ZeroFactor(bgDs) ==> c.layers[2].BackgroundLayer?
    ensures bgDs.None? || (!ZeroFactor(bgDs) && TooSmall(Width(img), |img|, bgDs.value)) ==>
      c.layers[2].pixels == FillLayer(k, grayMode, Not(mask), img, BackgroundRadius)
    ensures bgDs.Some? && !ZeroFactor(bgDs) && !TooSmall(Width(img), |img|, bgDs.value) ==>
      IsGrid(c.layers[2].pixels, TruncDiv(Width(img), bgDs.value), TruncDiv(|img|, bgDs.value))
    ensures c.errors == if bgDs.Some? && !ZeroFactor(bgDs) && TooSmall(Width(img), |img|, bgDs.value)
                        then errors + {TooSmallToDownsample} else errors
  {
    var w := Width(img);
    var h := |img|;
    var fg := FillLayer(k, grayMode, mask, img, ForegroundRadius);
    var bg := FillLayer(k, grayMode, Not(mask), img, BackgroundRadius);
    if ZeroFactor(bgDs) then
      Components([MaskLayer(mask), ForegroundLayer(fg)], Some(ZeroDivision), errors, front)
    else if bgDs.None? then
      Components([MaskLayer(mask), ForegroundLayer(fg), BackgroundLayer(bg)], None, errors, front)
    else
      var f := bgDs.value;
      var small := TooSmall(w, h, f);
      var back := if small then bg else Resample(k, bg, TruncDiv(w, f), TruncDiv(h, f));
      Components([MaskLayer(mask), ForegroundLayer(fg), BackgroundLayer(back)], None,
                 if small then errors + {TooSmallToDownsample} else errors, front + ["bg_downsample"])
  }

  /** Decoding an MRC page: the foreground where the mask is set, the background elsewhere. */
  function Compose(mask: Mask, fg: Image, bg: Image): (r: Image)
    requires SameShape(mask, fg) && SameShape(mask, bg)
    ensures SameShape(mask, r)
  {
    seq(|mask|, y requires 0 <= y < |mask| =>
      seq(|mask[y]|, x requires 0 <= x < |mask[y]| => if mask[y][x] then fg[y][x] else bg[y][x]))
  }

  /**
   The two fills are complementary: composing the fill around a mask with
   the fill around its complement gives back the source image, whatever
   values the fill kernel invents.
   */
  lemma ComplementaryFillsRecompose(k: Kernels, gray: bool, m: Mask, img: Image, r1: nat, r2: nat)
    requires SameShape(img, m)
    ensures Compose(m, FillLayer(k, gray, m, img, r1), FillLayer(k, gray, Not(m), img, r2)) == img
  {
    var fg := FillLayer(k, gray, m, img, r1);
    var bg := FillLayer(k, gray, Not(m), img, r2);
    var r := Compose(m, fg, bg);
    forall y | 0 <= y < |img|
      ensures r[y] == img[y]
    {
      assert |r[y]| == |img[y]| == Width(img);
      forall x | 0 <= x < Width(img)
        ensures r[y][x] == img[y][x]
      {
        if !m[y][x] {
          assert Not(m)[y][x];
        }
      }
    }
  }

  /**
   Without a background downsample the decomposition loses nothing: composing
   the three yielded layers gives back the page image.
   */
  lemma ComposeRestoresPage(k: Kernels, p: Page, paras: seq<Paragraph>, ds: Option<int>, denoise: bool, errors: set<Code>)
    requires WellFormedPage(p) && ValidDownsample(ds)
    ensures var c := MrcComponents(k, p, paras, ds, None, denoise, errors);
      Compose(c.layers[0].mask, c.layers[1].pixels, c.layers[2].pixels) == p.pixels
  {
    var m := FinalMask(k, p, paras, ds, denoise);
    ComplementaryFillsRecompose(k, p.mode == Luminance, m, p.pixels, ForegroundRadius, BackgroundRadius);
  }

  /**
   The final mask, pixel by pixel: set exactly where the last accepted word
   covering the pixel set it, or where the page pass set it; a pixel no word
   covers starts false.
   */
  lemma FinalMaskPixels(k: Kernels, p: Page, paras: seq<Paragraph>, ds: Option<int>, denoise: bool, y: nat, x: nat)
    requires WellFormedPage(p) && ValidDownsample(ds)
    requires y < |p.pixels| && x < Width(p.pixels)
    ensures var gray := GrayOf(k, p);
      var empty := Filled(Width(p.pixels), |p.pixels|, false);
      && CropsFit(Width(empty), |empty|, Words(paras), ds, Crops(k, gray, Words(paras), ds))
      && (FinalMask(k, p, paras, ds, denoise)[y][x] <==>
           CoveredValue(empty, Words(paras), ds, Crops(k, gray, Words(paras), ds), y, x)
           || PagePass(k, ToFloat(gray), denoise).bits[y][x])
  {
    var gray := GrayOf(k, p);
    var empty := Filled(Width(p.pixels), |p.pixels|, false);
    WordLoop.HocrMaskPixels(k, gray, empty, paras, ds, y, x);
  }
}

=== FILE: encoder.dfy ===
/**
 The file and process protocol of the MRC encoders of mrc.py
 (`encode_mrc_mask`, `encode_mrc_background`, `encode_mrc_foreground`,
 `encode_mrc_images`). Temporary files are a map from paths to what was
 written into them; `mkstemp` hands out paths with a fresh id, and every
 external program is a call recorded together with the files present when
 it ran. The programs themselves are a function from argument list to exit
 status.
 */
module Encoder {
  import opened Base
  import opened Masks
  import opened Kernels

  /** The programs the encoders run (`KDU_COMPRESS`, `OPJ_COMPRESS`, and the JBIG2 encoder). */
  const KduCompress: string := "kdu_compress"
  const OpjCompress: string := "opj_compress"
  const Jbig2Tool: string := "jbig2"

  /** A file `mkstemp(prefix=…, suffix=…, dir=…)` created: its directory, prefix, unique id and suffix. */
  datatype Path = Path(dir: string, prefix: string, id: nat, suffix: string)

  /** The file name as passed on a command line. */
  function PathText(p: Path): (t: string)
    ensures '/' in t
  {
    var t := p.dir + "/" + p.prefix + NatToString(p.id) + p.suffix;
    assert t[|p.dir|] == '/';
    t
  }

  /** What a temporary file holds. */
  datatype Content =
    | Empty                        // just created by mkstemp
    | MaskFile(mask: Mask)         // a mask saved by PIL (PNG)
    | RasterFile(pixels: Image)    // a layer saved by PIL (TIFF or PNM)
    | ProgramOutput(argv: seq<string>)  // what the program run with `argv` wrote

  /** One external program run: its argument list and the files present when it started. */
  datatype Call = Call(argv: seq<string>, files: map<Path, Content>)

  /** The temporary files, the next id `mkstemp` hands out, and the programs run so far. */
  datatype Scratch = Scratch(files: map<Path, Content>, next: nat, calls: seq<Call>)

  /** Every existing file has an id below the next one handed out. */
  predicate Valid(s: Scratch) {
    forall p :: p in s.files ==> p.id < s.next
  }

  /** Adding a fresh key and removing it again leaves the map as it was. */
  lemma AddThenRemove<K, V>(m: map<K, V>, k: K, v: V)
    requires k !in m
    ensures m[k := v] - {k} == m
  {
  }

  /** Removing a key other than the one just updated commutes with the update. */
  lemma RemoveOther<K, V>(m: map<K, V>, k: K, v: V, j: K)
    requires j != k
    ensures m[k := v] - {j} == (m - {j})[k := v]
  {
  }

  /** A program run: exit status of the program given its argument list. */
  type Runner = seq<string> -> int

  /** A step that may raise: the files and calls after it, and its value or exception. */
  datatype Outcome<T> = Outcome(scratch: Scratch, result: Result<T>)

  /**
   A failed step ends with the program that failed: at least one call was
   made after the first `before`, the last one exited non-zero, and its exit
   status is the fault.
   */
  predicate Failed<T>(r: Outcome<T>, run: Runner, before: nat) {
    r.result.Err? ==>
      && |r.scratch.calls| > before
      && r.result.fault == CodecExit(run(r.scratch.calls[|r.scratch.calls| - 1].argv))
      && run(r.scratch.calls[|r.scratch.calls| - 1].argv) != 0
  }

  /** `fd, path = mkstemp(prefix=prefix, suffix=suffix, dir=dir); close(fd)`. */
  function MkTemp(s: Scratch, dir: string, prefix: string, suffix: string): (r: (Path, Scratch))
    requires Valid(s)
    ensures r.0 !in s.files && r.0.dir == dir && r.0.prefix == prefix && r.0.suffix == suffix
    ensures r.0.id == s.next && r.1.next == s.next + 1 && Valid(r.1)
    ensures r.1.files == s.files[r.0 := Empty] && r.1.calls == s.calls
  {
    var p := Path(dir, prefix, s.next, suffix);
    (p, Scratch(s.files[p := Empty], s.next + 1, s.calls))
  }

  /** `os.remove(path)`. */
  function Remove(s: Scratch, p: Path): (r: Scratch)
    requires Valid(s) && p in s.files
    ensures Valid(r) && r.files == s.files - {p} && r.next == s.next && r.calls == s.calls
  {
    Scratch(s.files - {p}, s.next, s.calls)
  }

  /** `Image.fromarray(arr).save(path)` into an existing temporary file. */
  function Save(s: Scratch, p: Path, c: Content): (r: Scratch)
    requires Valid(s) && p in s.files
    ensures Valid(r) && r.files == s.files[p := c] && r.next == s.next && r.calls == s.calls
  {
    Scratch(s.files[p := c], s.next, s.calls)
  }

  /**
   `subprocess.check_call(argv)` (or `check_output` whose output is written to
   `out`): the call is recorded with the files present when it started; on
   exit status 0 the program's output is in `out`.
   */
  function Invoke(s: Scratch, run: Runner, argv: seq<string>, out: Path): (r: (int, Scratch))
    requires Valid(s) && out.id < s.next
    ensures r.0 == run(argv) && Valid(r.1) && r.1.next == s.next
    ensures r.1.calls == s.calls + [Call(argv, s.files)]
    ensures r.1.files == if r.0 == 0 then s.files[out := ProgramOutput(argv)] else s.files
  {
    var status := run(argv);
    (status, Scratch(if status == 0 then s.files[out := ProgramOutput(argv)] else s.files, s.next, s.calls + [Call(argv, s.files)]))
  }

  /** The JPEG 2000 encoder: Kakadu (`use_kdu`) or OpenJPEG. */
  datatype Codec = Kakadu | OpenJpeg

  /** Which layer an encoder call is for. */
  datatype LayerKind = Background | Foreground

  /** The `mkstemp` prefix of a layer's files. */
  function Prefix(kind: LayerKind): string {
    match kind
    case Background => "bg"
    case Foreground => "fg"
  }

  /** The intermediate raster format each codec reads. */
  function IntermediateSuffix(codec: Codec): string {
    match codec
    case Kakadu => ".tiff"
    case OpenJpeg => ".pnm"
  }

  /** Python `str(slope)`: the slope is an int, or `None` when the caller passed none. */
  function SlopeText(slope: Option<int>): (t: string)
    ensures slope.None? ==> t == "None"
    ensures slope.Some? ==> t == IntToString(slope.value)
    ensures t == "None" || forall k :: 0 <= k < |t| ==> t[k] == '-' || '0' <= t[k] <= '9'
  {
    match slope
    case None => "None"
    case Some(n) => IntToString(n)
  }

  /** The option names a layer encode may pass. */
  const Flags: set<string> := {"-i", "-o", "-num_threads", "-slope", "-threads", "-r", "-q"}

  /** A file name is never mistaken for an option: it contains a slash, no option does. */
  lemma PathTextIsNoFlag(p: Path)
    ensures PathText(p) !in Flags
  {
    var t := PathText(p);
    assert '/' in t;
    forall f | f in Flags
      ensures f != t
    {
      assert '/' !in f;
    }
  }

  /** Neither is the slope: its text has no option letter. */
  lemma SlopeTextIsNoFlag(slope: Option<int>)
    ensures SlopeText(slope) !in Flags
  {
    var t := SlopeText(slope);
    if t != "None" {
      NumericIsNoFlag(t);
    }
  }

  /** A word of digits and minus signs is no option: every option has a letter second. */
  lemma NumericIsNoFlag(t: string)
    requires forall k :: 0 <= k < |t| ==> t[k] == '-' || '0' <= t[k] <= '9'
    ensures t !in Flags
  {
    forall f | f in Flags
      ensures f != t
    {
      assert |f| >= 2 && 'a' <= f[1] <= 'z';
      if |t| >= 2 {
        assert t[1] == '-' || '0' <= t[1] <= '9';
      }
    }
  }

  /** Whether option `flag` is immediately followed by `value`. */
  predicate Passes(a: seq<string>, flag: string, value: string) {
    exists i :: 0 <= i < |a| - 1 && a[i] == flag && a[i + 1] == value
  }

  /** `kdu_compress -num_threads 0 -i src -o out -slope str(slope)`, for either layer. */
  function KakaduArgv(slope: Option<int>, src: Path, out: Path): seq<string> {
    [KduCompress, "-num_threads", "0", "-i", PathText(src), "-o", PathText(out), "-slope", SlopeText(slope)]
  }

  /** `opj_compress -i src -o out -threads 1 -r 400`: a constant compression rate for the background. */
  function OpjBackgroundArgv(src: Path, out: Path): seq<string> {
    [OpjCompress, "-i", PathText(src), "-o", PathText(out), "-threads", "1", "-r", "400"]
  }

  /** `opj_compress -threads 1 -i src -o out -q 25`: a PSNR target for the foreground. */
  function OpjForegroundArgv(src: Path, out: Path): seq<string> {
    [OpjCompress, "-threads", "1", "-i", PathText(src), "-o", PathText(out), "-q", "25"]
  }

  /** The argument list of a layer encode. */
  function LayerArgv(codec: Codec, kind: LayerKind, slope: Option<int>, src: Path, out: Path): seq<string> {
    match codec
    case Kakadu => KakaduArgv(slope, src, out)
    case OpenJpeg =>
      match kind
      case Background => OpjBackgroundArgv(src, out)
      case Foreground => OpjForegroundArgv(src, out)
  }

  /** Kakadu: every thread, input after `-i`, output after `-o`, the slope last; no OpenJPEG option. */
  lemma KakaduArgvOptions(slope: Option<int>, src: Path, out: Path)
    ensures var a := KakaduArgv(slope, src, out);
      && |a| == 9 && a[0] == KduCompress
      && Passes(a, "-i", PathText(src)) && Passes(a, "-o", PathText(out))
      && Passes(a, "-num_threads", "0") && a[7..] == ["-slope", SlopeText(slope)]
      && "-r" !in a && "-q" !in a && "-threads" !in a
  {
    PathTextIsNoFlag(src);
    PathTextIsNoFlag(out);
    SlopeTextIsNoFlag(slope);
    KakaduWords(KakaduArgv(slope, src, out), PathText(src), PathText(out), SlopeText(slope));
  }

  /** The Kakadu argument list over any three words that are not options. */
  lemma KakaduWords(a: seq<string>, src: string, out: string, slope: string)
    requires a == [KduCompress, "-num_threads", "0", "-i", src, "-o", out, "-slope", slope]
    requires src !in Flags && out !in Flags && slope !in Flags
    ensures && Passes(a, "-i", src) && Passes(a, "-o", out)
            && Passes(a, "-num_threads", "0") && a[7..] == ["-slope", slope]
            && "-r" !in a && "-q" !in a && "-threads" !in a
  {
    assert a[3] == "-i" && a[3 + 1] == src && a[5] == "-o" && a[5 + 1] == out;
    assert a[1] == "-num_threads" && a[1 + 1] == "0";
  }

  /** OpenJPEG on the background: one thread, the rate option `-r 400` last; no slope, no `-q`. */
  lemma OpjBackgroundArgvOptions(src: Path, out: Path)
    ensures var a := OpjBackgroundArgv(src, out);
      && |a| == 9 && a[0] == OpjCompress
      && Passes(a, "-i", PathText(src)) && Passes(a, "-o", PathText(out))
      && Passes(a, "-threads", "1") && a[7..] == ["-r", "400"]
      && "-slope" !in a && "-num_threads" !in a && "-q" !in a
  {
    var a := OpjBackgroundArgv(src, out);
    PathTextIsNoFlag(src);
    PathTextIsNoFlag(out);
    assert a[1] == "-i" && a[1 + 1] == PathText(src) && a[3] == "-o" && a[3 + 1] == PathText(out);
    assert a[5] == "-threads" && a[5 + 1] == "1";
  }

  /** OpenJPEG on the foreground: one thread, the PSNR option `-q 25` last; no slope, no `-r`. */
  lemma OpjForegroundArgvOptions(src: Path, out: Path)
    ensures var a := OpjForegroundArgv(src, out);
      && |a| == 9 && a[0] == OpjCompress
      && Passes(a, "-i", PathText(src)) && Passes(a, "-o", PathText(out))
      && Passes(a, "-threads", "1") && a[7..] == ["-q", "25"]
      && "-slope" !in a && "-num_threads" !in a && "-r" !in a
  {
    var a := OpjForegroundArgv(src, out);
    PathTextIsNoFlag(src);
    PathTextIsNoFlag(out);
    assert a[3] == "-i" && a[3 + 1] == PathText(src) && a[5] == "-o" && a[5 + 1] == PathText(out);
    assert a[1] == "-threads" && a[1 + 1] == "1";
  }

  /**
   What a layer encode passes. Every encode names its input after `-i` and
   its output after `-o`. Kakadu runs on every thread with the caller's slope
   as the last option, the same way for both layers. OpenJPEG runs on one
   thread and never sees the slope; the background gets the rate option
   `-r 400` and the foreground the PSNR option `-q 25`, and neither gets the
   other's.
   */
  lemma LayerArgvOptions(codec: Codec, kind: LayerKind, slope: Option<int>, src: Path, out: Path)
    ensures var a := LayerArgv(codec, kind, slope, src, out);
      && |a| == 9 && a[0] == (if codec == Kakadu then KduCompress else OpjCompress)
      && Passes(a, "-i", PathText(src)) && Passes(a, "-o", PathText(out))
    ensures var a := LayerArgv(codec, kind, slope, src, out);
      codec == Kakadu ==>
        && Passes(a, "-num_threads", "0") && a[7..] == ["-slope", SlopeText(slope)]
        && "-r" !in a && "-q" !in a && "-threads" !in a
    ensures var a := LayerArgv(codec, kind, slope, src, out);
      codec == OpenJpeg ==>
        && Passes(a, "-threads", "1") && "-slope" !in a && "-num_threads" !in a
        && a[7..] == if kind == Background then ["-r", "400"] else ["-q", "25"]
    ensures var a := LayerArgv(codec, kind, slope, src, out);
      codec == OpenJpeg ==> ("-r" in a <==> kind == Background) && ("-q" in a <==> kind == Foreground)
  {
    match codec
    case Kakadu => KakaduArgvOptions(slope, src, out);
    case OpenJpeg =>
      match kind
      case Background =>
        OpjBackgroundArgvOptions(src, out);
        assert OpjBackgroundArgv(src, out)[7] == "-r";
      case Foreground =>
        OpjForegroundArgvOptions(src, out);
        assert OpjForegroundArgv(src, out)[7] == "-q";
  }

  /** The intermediate raster file of a layer encode starting from `s`. */
  function LayerSource(s: Scratch, dir: string, kind: LayerKind, codec: Codec): Path {
    Path(dir, Prefix(kind), s.next, IntermediateSuffix(codec))
  }

  /** The `.jp2` file of a layer encode starting from `s`. */
  function LayerOutput(s: Scratch, dir: string, kind: LayerKind): Path {
    Path(dir, Prefix(kind), s.next + 1, ".jp2")
  }

  /**
   `encode_mrc_background` / `encode_mrc_foreground`: the layer is saved to a
   fresh intermediate, the `.jp2` name is reserved and then removed so that it
   does not exist when the codec runs, and the intermediate is removed only
   after the codec succeeded: a failing codec leaves it behind.
   */
  function EncodeLayer(run: Runner, s: Scratch, dir: string, kind: LayerKind, codec: Codec,
                       slope: Option<int>, pixels: Image): (r: Outcome<Path>)
    requires Valid(s)
    ensures Valid(r.scratch) && r.scratch.next == s.next + 2 && Failed(r, run, |s.calls|)
    ensures var src := LayerSource(s, dir, kind, codec);
      var out := LayerOutput(s, dir, kind);
      var argv := LayerArgv(codec, kind, slope, src, out);
      && src !in s.files && out !in s.files && src != out
      && r.scratch.calls == s.calls + [Call(argv, s.files[src := RasterFile(pixels)])]
      && (r.result.Ok? <==> run(argv) == 0)
      && (r.result.Ok? ==> r.result.value == out && r.scratch.files == s.files[out := ProgramOutput(argv)])
      && (r.result.Err? ==> r.result.fault == CodecExit(run(argv))
                            && r.scratch.files == s.files[src := RasterFile(pixels)])
  {
    var src := LayerSource(s, dir, kind, codec);
    var out := LayerOutput(s, dir, kind);
    var s1 := MkTemp(s, dir, Prefix(kind), IntermediateSuffix(codec)).1;
    var s2 := MkTemp(s1, dir, Prefix(kind), ".jp2").1;
    assert s2.files == s.files[src := Empty][out := Empty];
    var s3 := Remove(s2, out);
    AddThenRemove(s.files[src := Empty], out, Empty);
    var s4 := Save(s3, src, RasterFile(pixels));
    assert s4.files == s.files[src := RasterFile(pixels)];
    var argv := LayerArgv(codec, kind, slope, src, out);
    var s5 := Invoke(s4, run, argv, out).1;
    if run(argv) != 0 then Outcome(s5, Err(CodecExit(run(argv))))
    else
      RemoveOther(s.files[src := RasterFile(pixels)], out, ProgramOutput(argv), src);
      AddThenRemove(s.files, src, RasterFile(pixels));
      Outcome(Remove(s5, src), Ok(out))
  }

  /** The PNG and the JBIG2 file of a mask encode starting from `s`. */
  function MaskPng(s: Scratch, dir: string): Path {
    Path(dir, "mask", s.next, ".png")
  }

  function MaskJbig2(s: Scratch, dir: string): Path {
    Path(dir, "mask", s.next + 1, ".jbig2")
  }

  /** The argument list of the JBIG2 encode of a PNG. */
  function Jbig2Argv(png: Path): seq<string> {
    [Jbig2Tool, PathText(png)]
  }

  /**
   `encode_mrc_mask`: the mask always goes to a PNG; only with `jbig2` is the
   encoder run, on that PNG, and its output kept in a second file. The value
   is `(jbig2 path or None, png path)`.
   */
  function EncodeMask(run: Runner, s: Scratch, dir: string, mask: Mask, jbig2: bool): (r: Outcome<(Option<Path>, Path)>)
    requires Valid(s)
    ensures Valid(r.scratch) && r.scratch.next == s.next + (if jbig2 then 2 else 1)
    ensures |r.scratch.calls| >= |s.calls| && Failed(r, run, |s.calls|)
    ensures var png := MaskPng(s, dir);
      && png !in s.files
      && (!jbig2 ==> && r.scratch.calls == s.calls
                     && r.result == Ok((None, png))
                     && r.scratch.files == s.files[png := MaskFile(mask)])
    ensures jbig2 ==>
      var png := MaskPng(s, dir);
      var jb := MaskJbig2(s, dir);
      var argv := Jbig2Argv(png);
      var saved := s.files[png := MaskFile(mask)][jb := Empty];
      && jb !in s.files && jb != png
      && r.scratch.calls == s.calls + [Call(argv, saved)]
      && (r.result.Ok? <==> run(argv) == 0)
      && (r.result.Ok? ==> r.result.value == (Some(jb), png) && r.scratch.files == saved[jb := ProgramOutput(argv)])
      && (r.result.Err? ==> r.result.fault == CodecExit(run(argv)) && r.scratch.files == saved)
  {
    var (png, s1) := MkTemp(s, dir, "mask", ".png");
    if jbig2 then
      var (jb, s2) := MkTemp(s1, dir, "mask", ".jbig2");
      var s3 := Save(s2, png, MaskFile(mask));
      assert s3.files == s.files[png := MaskFile(mask)][jb := Empty];
      var argv := Jbig2Argv(png);
      var (status, s4) := Invoke(s3, run, argv, jb);
      if status != 0 then Outcome(s4, Err(CodecExit(status)))
      else Outcome(s4, Ok((Some(jb), png)))
    else
      Outcome(Save(s1, png, MaskFile(mask)), Ok((None, png)))
  }

  /** The argument lists of a run of calls. */
  function Argvs(cs: seq<Call>): (a: seq<seq<string>>)
    ensures |a| == |cs| && forall i :: 0 <= i < |cs| ==> a[i] == cs[i].argv
  {
    seq(|cs|, i requires 0 <= i < |cs| => cs[i].argv)
  }

  /** What `encode_mrc_images` returns: mask file, background file and size, foreground file and size. */
  datatype Encoded = Encoded(mask: Path, bg: Path, bgSize: (nat, nat), fg: Path, fgSize: (nat, nat))

  /** The ids the mask encode uses up: the PNG, and the JBIG2 file when there is one. */
  function MaskIds(jbig2: bool): nat {
    if jbig2 then 2 else 1
  }

  /** The foreground and then the background encode of `encode_mrc_images`; a failing foreground skips the background. */
  function EncodeLayers(run: Runner, t: Scratch, dir: string, fg: Image, bg: Image,
                        bgSlope: Option<int>, fgSlope: Option<int>, codec: Codec): (r: Outcome<(Path, Path)>)
    requires Valid(t)
    ensures Valid(r.scratch) && t.files.Keys <= r.scratch.files.Keys && Failed(r, run, |t.calls|)
    ensures r.result.Ok? ==> r.result.value == (Path(dir, "fg", t.next + 1, ".jp2"), Path(dir, "bg", t.next + 3, ".jp2"))
  {
    var f := EncodeLayer(run, t, dir, Foreground, codec, fgSlope, fg);
    if f.result.Err? then Outcome(f.scratch, Err(f.result.fault))
    else
      var b := EncodeLayer(run, f.scratch, dir, Background, codec, bgSlope, bg);
      if b.result.Err? then Outcome(b.scratch, Err(b.result.fault))
      else Outcome(b.scratch, Ok((f.result.value, b.result.value)))
  }

  /**
   `encode_mrc_images`: the mask, then the foreground, then the background are
   encoded, and the PNG of the mask is removed exactly when the JBIG2 file is
   returned instead. Sizes are `(width, height)` of the layer arrays. The first
   failing program aborts the rest.
   */
  function EncodeImages(run: Runner, s: Scratch, dir: string, mask: Mask, fg: Image, bg: Image,
                        bgSlope: Option<int>, fgSlope: Option<int>, jbig2: bool, codec: Codec): (r: Outcome<Encoded>)
    requires Valid(s)
    ensures Valid(r.scratch) && Failed(r, run, |s.calls|)
  {
    var m := EncodeMask(run, s, dir, mask, jbig2);
    if m.result.Err? then Outcome(m.scratch, Err(m.result.fault))
    else
      var jb := m.result.value.0;
      var png := m.result.value.1;
      assert png in m.scratch.files;
      var l := EncodeLayers(run, m.scratch, dir, fg, bg, bgSlope, fgSlope, codec);
      if l.result.Err? then Outcome(l.scratch, Err(l.result.fault))
      else
        var final := if jbig2 then Remove(l.scratch, png) else l.scratch;
        var maskPath := if jbig2 then jb.value else png;
        Outcome(final, Ok(Encoded(maskPath, l.result.value.1, (Width(bg), |bg|), l.result.value.0, (Width(fg), |fg|))))
  }

  /**
   What a successful `encode_mrc_images` returns: the JBIG2 file or the PNG as
   mask, the two `.jp2` outputs, and the `(width, height)` of each layer.
   */
  lemma EncodedPaths(run: Runner, s: Scratch, dir: string, mask: Mask, fg: Image, bg: Image,
                     bgSlope: Option<int>, fgSlope: Option<int>, jbig2: bool, codec: Codec)
    requires Valid(s)
    ensures var r := EncodeImages(run, s, dir, mask, fg, bg, bgSlope, fgSlope, jbig2, codec);
      r.result.Ok? ==>
      var v := r.result.value;
      var n := s.next + MaskIds(jbig2);
      && v.mask == (if jbig2 then MaskJbig2(s, dir) else MaskPng(s, dir))
      && v.fg == Path(dir, "fg", n + 1, ".jp2") && v.bg == Path(dir, "bg", n + 3, ".jp2")
      && v.fgSize == (Width(fg), |fg|) && v.bgSize == (Width(bg), |bg|)
  {
    var r := EncodeImages(run, s, dir, mask, fg, bg, bgSlope, fgSlope, jbig2, codec);
    var m := EncodeMask(run, s, dir, mask, jbig2);
    if r.result.Ok? {
      assert m.result.Ok? && m.scratch.next == s.next + MaskIds(jbig2);
      var l := EncodeLayers(run, m.scratch, dir, fg, bg, bgSlope, fgSlope, codec);
      assert l.result.Ok?;
      var jb := m.result.value.0;
      var png := m.result.value.1;
      assert r.result.value == Encoded(if jbig2 then jb.value else png, l.result.value.1, (Width(bg), |bg|),
                                       l.result.value.0, (Width(fg), |fg|));
    }
  }

  /** The argument lists of the two layer encodes of `encode_mrc_images`. */
  function ForegroundArgv(s: Scratch, dir: string, jbig2: bool, codec: Codec, fgSlope: Option<int>): seq<string> {
    var n := s.next + MaskIds(jbig2);
    LayerArgv(codec, Foreground, fgSlope, Path(dir, "fg", n, IntermediateSuffix(codec)), Path(dir, "fg", n + 1, ".jp2"))
  }

  function BackgroundArgv(s: Scratch, dir: string, jbig2: bool, codec: Codec, bgSlope: Option<int>): seq<string> {
    var n := s.next + MaskIds(jbig2);
    LayerArgv(codec, Background, bgSlope, Path(dir, "bg", n + 2, IntermediateSuffix(codec)), Path(dir, "bg", n + 3, ".jp2"))
  }

  /** The intermediate outcomes of a successful `encode_mrc_images`, step by step. */
  lemma EncodeImagesSteps(run: Runner, s: Scratch, dir: string, mask: Mask, fg: Image, bg: Image,
                          bgSlope: Option<int>, fgSlope: Option<int>, jbig2: bool, codec: Codec)
    requires Valid(s)
    ensures var r := EncodeImages(run, s, dir, mask, fg, bg, bgSlope, fgSlope, jbig2, codec);
      var m := EncodeMask(run, s, dir, mask, jbig2);
      r.result.Ok? ==>
      && m.result.Ok?
      && var f := EncodeLayer(run, m.scratch, dir, Foreground, codec, fgSlope, fg);
      && f.result.Ok?
      && var b := EncodeLayer(run, f.scratch, dir, Background, codec, bgSlope, bg);
      && b.result.Ok?
      && r.scratch.calls == b.scratch.calls
      && r.scratch.files == if jbig2 then b.scratch.files - {MaskPng(s, dir)} else b.scratch.files
  {
  }

  /** Map algebra for the files of a successful `encode_mrc_images` with JBIG2. */
  lemma Jbig2Files(files: map<Path, Content>, png: Path, jb: Path, fgPath: Path, bgPath: Path,
                   mc: Content, jc: Content, fc: Content, bc: Content)
    requires png !in files && png != jb && png != fgPath && png != bgPath
    ensures files[png := mc][jb := Empty][jb := jc][fgPath := fc][bgPath := bc] - {png}
            == files[jb := jc][fgPath := fc][bgPath := bc]
  {
  }

  /**
   After a successful `encode_mrc_images` exactly three files are new: the
   returned mask (the JBIG2 output, or the PNG holding the mask), and the
   two codec outputs. Every file that existed before is untouched, and the
   PNG of the mask is left behind exactly when it is the returned mask.
   */
  lemma EncodedFiles(run: Runner, s: Scratch, dir: string, mask: Mask, fg: Image, bg: Image,
                     bgSlope: Option<int>, fgSlope: Option<int>, jbig2: bool, codec: Codec)
    requires Valid(s)
    ensures var r := EncodeImages(run, s, dir, mask, fg, bg, bgSlope, fgSlope, jbig2, codec);
      r.result.Ok? ==>
      var v := r.result.value;
      var maskContent := if jbig2 then ProgramOutput(Jbig2Argv(MaskPng(s, dir))) else MaskFile(mask);
      r.scratch.files == s.files[v.mask := maskContent]
                                [v.fg := ProgramOutput(ForegroundArgv(s, dir, jbig2, codec, fgSlope))]
                                [v.bg := ProgramOutput(BackgroundArgv(s, dir, jbig2, codec, bgSlope))]
    ensures var r := EncodeImages(run, s, dir, mask, fg, bg, bgSlope, fgSlope, jbig2, codec);
      r.result.Ok? ==> (MaskPng(s, dir) in r.scratch.files <==> !jbig2)
  {
    var r := EncodeImages(run, s, dir, mask, fg, bg, bgSlope, fgSlope, jbig2, codec);
    EncodeImagesSteps(run, s, dir, mask, fg, bg, bgSlope, fgSlope, jbig2, codec);
    EncodedPaths(run, s, dir, mask, fg, bg, bgSlope, fgSlope, jbig2, codec);
    if r.result.Ok? {
      var m := EncodeMask(run, s, dir, mask, jbig2);
      var f := EncodeLayer(run, m.scratch, dir, Foreground, codec, fgSlope, fg);
      var b := EncodeLayer(run, f.scratch, dir, Background, codec, bgSlope, bg);
      var png := MaskPng(s, dir);
      var fgOut := ProgramOutput(ForegroundArgv(s, dir, jbig2, codec, fgSlope));
      var bgOut := ProgramOutput(BackgroundArgv(s, dir, jbig2, codec, bgSlope));
      var v := r.result.value;
      if jbig2 {
        var jbOut := ProgramOutput(Jbig2Argv(png));
        assert b.scratch.files == s.files[png := MaskFile(mask)][v.mask := Empty][v.mask := jbOut][v.fg := fgOut][v.bg := bgOut];
        Jbig2Files(s.files, png, v.mask, v.fg, v.bg, MaskFile(mask), jbOut, fgOut, bgOut);
      } else {
        assert b.scratch.files == s.files[png := MaskFile(mask)][v.fg := fgOut][v.bg := bgOut];
      }
    }
  }

  /**
   After a successful `encode_mrc_images` the programs run are, in order, the
   JBIG2 encoder on the PNG (only with `jbig2`), the foreground encode and the
   background encode.
   */
  lemma EncodedCalls(run: Runner, s: Scratch, dir: string, mask: Mask, fg: Image, bg: Image,
                     bgSlope: Option<int>, fgSlope: Option<int>, jbig2: bool, codec: Codec)
    requires Valid(s)
    ensures var r := EncodeImages(run, s, dir, mask, fg, bg, bgSlope, fgSlope, jbig2, codec);
      r.result.Ok? ==>
      && |r.scratch.calls| >= |s.calls| && r.scratch.calls[..|s.calls|] == s.calls
      && Argvs(r.scratch.calls[|s.calls|..])
         == (if jbig2 then [Jbig2Argv(MaskPng(s, dir))] else [])
            + [ForegroundArgv(s, dir, jbig2, codec, fgSlope), BackgroundArgv(s, dir, jbig2, codec, bgSlope)]
  {
    var r := EncodeImages(run, s, dir, mask, fg, bg, bgSlope, fgSlope, jbig2, codec);
    EncodeImagesSteps(run, s, dir, mask, fg, bg, bgSlope, fgSlope, jbig2, codec);
    if r.result.Ok? {
      var m := EncodeMask(run, s, dir, mask, jbig2);
      var f := EncodeLayer(run, m.scratch, dir, Foreground, codec, fgSlope, fg);
      var b := EncodeLayer(run, f.scratch, dir, Background, codec, bgSlope, bg);
      var maskCalls := MaskCallsOf(run, s, dir, mask, jbig2);
      var n := s.next + MaskIds(jbig2);
      assert m.scratch.next == n && f.scratch.next == n + 2;
      LayerCallOf(run, m.scratch, dir, Foreground, codec, fgSlope, fg);
      LayerCallOf(run, f.scratch, dir, Background, codec, bgSlope, bg);
      AppendedArgvs(s.calls, maskCalls, f.scratch.calls[|f.scratch.calls| - 1], b.scratch.calls[|b.scratch.calls| - 1],
                    m.scratch.calls, f.scratch.calls, b.scratch.calls);
    }
  }

  /**
   `encode_mrc_images` over a generator that raises `ZeroDivisionError` when
   asked for the background: the mask and the foreground are encoded first,
   and nothing is cleaned up, so the mask files and the foreground output
   stay behind. A failing program before that raises its own exception.
   */
  function EncodeImagesBackgroundRaises(run: Runner, s: Scratch, dir: string, mask: Mask, fg: Image,
                                        fgSlope: Option<int>, jbig2: bool, codec: Codec): (r: Outcome<Encoded>)
    requires Valid(s)
    ensures Valid(r.scratch) && r.result.Err?
    ensures r.result.fault != ZeroDivision ==> Failed(r, run, |s.calls|)
  {
    var m := EncodeMask(run, s, dir, mask, jbig2);
    if m.result.Err? then Outcome(m.scratch, Err(m.result.fault))
    else
      var f := EncodeLayer(run, m.scratch, dir, Foreground, codec, fgSlope, fg);
      if f.result.Err? then Outcome(f.scratch, Err(f.result.fault))
      else Outcome(f.scratch, Err(ZeroDivision))
  }

  /** A file reserved empty and then written holds what was written. */
  lemma OverwriteReserved(files: map<Path, Content>, p: Path, c: Content)
    ensures files[p := Empty][p := c] == files[p := c]
  {
  }

  /**
   When the background raises, `ZeroDivisionError` is what escapes exactly
   when the JBIG2 encoder (with `jbig2`) and the foreground encode succeed.
   */
  lemma BackgroundRaisesWhen(run: Runner, s: Scratch, dir: string, mask: Mask, fg: Image,
                             fgSlope: Option<int>, jbig2: bool, codec: Codec)
    requires Valid(s)
    ensures var r := EncodeImagesBackgroundRaises(run, s, dir, mask, fg, fgSlope, jbig2, codec);
      r.result.fault == ZeroDivision <==>
        (!jbig2 || run(Jbig2Argv(MaskPng(s, dir))) == 0) && run(ForegroundArgv(s, dir, jbig2, codec, fgSlope)) == 0
  {
    var r := EncodeImagesBackgroundRaises(run, s, dir, mask, fg, fgSlope, jbig2, codec);
    var m := EncodeMask(run, s, dir, mask, jbig2);
    if m.result.Ok? {
      assert m.scratch.next == s.next + MaskIds(jbig2);
      var f := EncodeLayer(run, m.scratch, dir, Foreground, codec, fgSlope, fg);
      ForegroundAfterMask(s, m.scratch, dir, jbig2, codec, fgSlope);
      assert r == (if f.result.Err? then Outcome(f.scratch, Err(f.result.fault)) else Outcome(f.scratch, Err(ZeroDivision)));
    } else {
      assert r == Outcome(m.scratch, Err(m.result.fault));
    }
  }

  /** The foreground encode that follows the mask encode runs `ForegroundArgv`. */
  lemma ForegroundAfterMask(s: Scratch, m: Scratch, dir: string, jbig2: bool, codec: Codec, fgSlope: Option<int>)
    requires m.next == s.next + MaskIds(jbig2)
    ensures LayerArgv(codec, Foreground, fgSlope, LayerSource(m, dir, Foreground, codec), LayerOutput(m, dir, Foreground))
            == ForegroundArgv(s, dir, jbig2, codec, fgSlope)
  {
    var n := s.next + MaskIds(jbig2);
    assert LayerSource(m, dir, Foreground, codec) == Path(dir, "fg", n, IntermediateSuffix(codec));
    assert LayerOutput(m, dir, Foreground) == Path(dir, "fg", n + 1, ".jp2");
  }

  /**
   When the background raises `ZeroDivisionError`, the mask files and the
   foreground output are left behind, next to every file that was there
   before.
   */
  lemma BackgroundRaisesFiles(run: Runner, s: Scratch, dir: string, mask: Mask, fg: Image,
                              fgSlope: Option<int>, jbig2: bool, codec: Codec)
    requires Valid(s)
    ensures var r := EncodeImagesBackgroundRaises(run, s, dir, mask, fg, fgSlope, jbig2, codec);
      r.result.fault == ZeroDivision ==>
      var png := MaskPng(s, dir);
      var masked := if jbig2 then s.files[png := MaskFile(mask)][MaskJbig2(s, dir) := ProgramOutput(Jbig2Argv(png))]
                    else s.files[png := MaskFile(mask)];
      r.scratch.files == masked[Path(dir, "fg", s.next + MaskIds(jbig2) + 1, ".jp2") := ProgramOutput(ForegroundArgv(s, dir, jbig2, codec, fgSlope))]
  {
    var r := EncodeImagesBackgroundRaises(run, s, dir, mask, fg, fgSlope, jbig2, codec);
    var m := EncodeMask(run, s, dir, mask, jbig2);
    if m.result.Ok? {
      MaskFilesOf(run, s, dir, mask, jbig2);
      assert m.scratch.next == s.next + MaskIds(jbig2);
      var f := EncodeLayer(run, m.scratch, dir, Foreground, codec, fgSlope, fg);
      ForegroundAfterMask(s, m.scratch, dir, jbig2, codec, fgSlope);
      assert LayerOutput(m.scratch, dir, Foreground) == Path(dir, "fg", s.next + MaskIds(jbig2) + 1, ".jp2");
      assert r == (if f.result.Err? then Outcome(f.scratch, Err(f.result.fault)) else Outcome(f.scratch, Err(ZeroDivision)));
    } else {
      assert r == Outcome(m.scratch, Err(m.result.fault));
    }
  }

  /** The files after a successful mask encode: the PNG, and with `jbig2` the JBIG2 output next to it. */
  lemma MaskFilesOf(run: Runner, s: Scratch, dir: string, mask: Mask, jbig2: bool)
    requires Valid(s) && EncodeMask(run, s, dir, mask, jbig2).result.Ok?
    ensures var png := MaskPng(s, dir);
      EncodeMask(run, s, dir, mask, jbig2).scratch.files
      == if jbig2 then s.files[png := MaskFile(mask)][MaskJbig2(s, dir) := ProgramOutput(Jbig2Argv(png))]
         else s.files[png := MaskFile(mask)]
  {
    if jbig2 {
      var png := MaskPng(s, dir);
      OverwriteReserved(s.files[png := MaskFile(mask)], MaskJbig2(s, dir), ProgramOutput(Jbig2Argv(png)));
    }
  }

  /**
   The programs an `encode_mrc_images` whose background raises has run when
   it raises `ZeroDivisionError`: the JBIG2 encoder (with `jbig2`), then the
   foreground encode.
   */
  lemma BackgroundRaisesCalls(run: Runner, s: Scratch, dir: string, mask: Mask, fg: Image,
                              fgSlope: Option<int>, jbig2: bool, codec: Codec)
    requires Valid(s)
    ensures var r := EncodeImagesBackgroundRaises(run, s, dir, mask, fg, fgSlope, jbig2, codec);
      r.result.fault == ZeroDivision ==>
      && |r.scratch.calls| >= |s.calls| && r.scratch.calls[..|s.calls|] == s.calls
      && Argvs(r.scratch.calls[|s.calls|..])
         == (if jbig2 then [Jbig2Argv(MaskPng(s, dir))] else []) + [ForegroundArgv(s, dir, jbig2, codec, fgSlope)]
  {
    var r := EncodeImagesBackgroundRaises(run, s, dir, mask, fg, fgSlope, jbig2, codec);
    var m := EncodeMask(run, s, dir, mask, jbig2);
    if m.result.Ok? {
      var f := EncodeLayer(run, m.scratch, dir, Foreground, codec, fgSlope, fg);
      assert r.scratch == f.scratch;
      var maskCalls := MaskCallsOf(run, s, dir, mask, jbig2);
      assert m.scratch.next == s.next + MaskIds(jbig2);
      LayerCallOf(run, m.scratch, dir, Foreground, codec, fgSlope, fg);
      AppendedArgv(s.calls, maskCalls, f.scratch.calls[|f.scratch.calls| - 1], m.scratch.calls, f.scratch.calls);
    }
  }

  /** The argument lists of the calls appended after `base`, ending in one more call. */
  lemma AppendedArgv(base: seq<Call>, first: seq<Call>, c1: Call, mid: seq<Call>, all: seq<Call>)
    requires mid == base + first && all == mid + [c1]
    ensures |all| >= |base| && all[..|base|] == base
    ensures Argvs(all[|base|..]) == Argvs(first) + [c1.argv]
  {
    assert all[|base|..] == first + [c1];
    var got := Argvs(all[|base|..]);
    var expected := Argvs(first) + [c1.argv];
    forall i | 0 <= i < |got|
      ensures got[i] == expected[i]
    {
      if i < |first| {
        assert all[|base| + i] == first[i];
      }
    }
  }

  /** The calls of the mask encode: the JBIG2 encoder on the PNG, or none. */
  lemma MaskCallsOf(run: Runner, s: Scratch, dir: string, mask: Mask, jbig2: bool) returns (maskCalls: seq<Call>)
    requires Valid(s)
    ensures EncodeMask(run, s, dir, mask, jbig2).scratch.calls == s.calls + maskCalls
    ensures Argvs(maskCalls) == if jbig2 then [Jbig2Argv(MaskPng(s, dir))] else []
  {
    var png := MaskPng(s, dir);
    maskCalls := if jbig2 then [Call(Jbig2Argv(png), s.files[png := MaskFile(mask)][MaskJbig2(s, dir) := Empty])] else [];
    assert Argvs(maskCalls) == if jbig2 then [Jbig2Argv(png)] else [];
  }

  /** A layer encode appends exactly its own call. */
  lemma LayerCallOf(run: Runner, t: Scratch, dir: string, kind: LayerKind, codec: Codec, slope: Option<int>, pixels: Image)
    requires Valid(t)
    ensures var c := EncodeLayer(run, t, dir, kind, codec, slope, pixels).scratch.calls;
      && |c| > 0 && c == t.calls + [c[|c| - 1]]
      && c[|c| - 1].argv == LayerArgv(codec, kind, slope, LayerSource(t, dir, kind, codec), LayerOutput(t, dir, kind))
  {
  }

  /** The argument lists of the calls appended after `base`. */
  lemma AppendedArgvs(base: seq<Call>, first: seq<Call>, c1: Call, c2: Call, mid: seq<Call>, mid2: seq<Call>, all: seq<Call>)
    requires mid == base + first && mid2 == mid + [c1] && all == mid2 + [c2]
    ensures |all| >= |base| && all[..|base|] == base
    ensures Argvs(all[|base|..]) == Argvs(first) + [c1.argv, c2.argv]
  {
    var got := Argvs(all[|base|..]);
    var expected := Argvs(first) + [c1.argv, c2.argv];
    assert |got| == |expected|;
    forall i | 0 <= i < |got|
      ensures got[i] == expected[i]
    {
      if i < |first| {
        assert all[|base| + i] == mid[|base| + i] == first[i];
      } else if i == |first| {
        assert all[|base| + i] == mid2[|mid|] == c1;
      }
    }
  }
}

=== FILE: geometry.dfy ===
/**
 Page geometry of the text-only PDF pass of recode.py: `guess_dpi`, the fix-up
 that keeps the page width inside the PDF/A bounds, and the font scaler that
 maps hOCR pixel coordinates to PDF points. Python floats are modelled as
 exact reals.
 */
module Geometry {
  import opened Base

  /** `PDFA_MIN_UNITS` and `PDFA_MAX_UNITS`: the page width must lie strictly between them. */
  const PdfaMinUnits: int := 3
  const PdfaMaxUnits: int := 14400

  /** The expected format passed at every call site: European A4 in inches. */
  const A4Width: real := 8.27
  const A4Height: real := 11.69

  /** The candidate resolutions passed at every call site. */
  const DpiCandidates: seq<int> := [72, 96, 150, 300, 600]

  /** How far candidate `d` is from the resolution the image would have at the expected format. */
  function Distance(wDpi: real, hDpi: real, d: int): real {
    Abs(wDpi - d as real) + Abs(hDpi - d as real)
  }

  /**
   The index a stable sort by distance puts first: an index of minimal
   distance, and the earliest such.
   */
  function BestIndex(wDpi: real, hDpi: real, ds: seq<int>): (i: nat)
    requires |ds| > 0
    ensures i < |ds|
    ensures forall j :: 0 <= j < |ds| ==> Distance(wDpi, hDpi, ds[i]) <= Distance(wDpi, hDpi, ds[j])
    ensures forall j :: 0 <= j < i ==> Distance(wDpi, hDpi, ds[j]) > Distance(wDpi, hDpi, ds[i])
  {
    if |ds| == 1 then 0
    else
      var k := BestIndex(wDpi, hDpi, ds[..|ds| - 1]);
      assert forall j :: 0 <= j < |ds| - 1 ==> ds[..|ds| - 1][j] == ds[j];
      if Distance(wDpi, hDpi, ds[|ds| - 1]) < Distance(wDpi, hDpi, ds[k]) then |ds| - 1 else k
  }

  /**
   `guess_dpi(w, h, expected_format, round_to)`: the candidate closest to the
   image's resolution at the expected format, the earliest on ties. An empty
   candidate list raises IndexError, a zero format dimension ZeroDivisionError.
   */
  function GuessDpi(w: nat, h: nat, format: (real, real), roundTo: seq<int>): (r: Result<int>)
    ensures (format.0 == 0.0 || format.1 == 0.0) ==> r == Err(ZeroDivision)
    ensures format.0 != 0.0 && format.1 != 0.0 && |roundTo| == 0 ==> r == Err(EmptyCandidates)
    ensures format.0 != 0.0 && format.1 != 0.0 && |roundTo| > 0 ==>
      var wDpi := w as real / format.0;
      var hDpi := h as real / format.1;
      && r.Ok? && r.value in roundTo
      && (forall d :: d in roundTo ==> Distance(wDpi, hDpi, r.value) <= Distance(wDpi, hDpi, d))
      && (exists i :: 0 <= i < |roundTo| && roundTo[i] == r.value
                      && forall j :: 0 <= j < i ==> Distance(wDpi, hDpi, roundTo[j]) > Distance(wDpi, hDpi, r.value))
  {
    if format.0 == 0.0 || format.1 == 0.0 then Err(ZeroDivision)
    else if |roundTo| == 0 then Err(EmptyCandidates)
    else
      var wDpi := w as real / format.0;
      var hDpi := h as real / format.1;
      Ok(roundTo[BestIndex(wDpi, hDpi, roundTo)])
  }

  /** The guess made at every call site, which cannot fail. */
  function DefaultGuess(w: nat, h: nat): (d: int)
    ensures d in DpiCandidates && d > 0
    ensures GuessDpi(w, h, (A4Width, A4Height), DpiCandidates) == Ok(d)
  {
    GuessDpi(w, h, (A4Width, A4Height), DpiCandidates).value
  }

  /** `imwidth / (dpi / 72)`: the page width in points at resolution `dpi`. */
  function WidthAt(imw: nat, dpi: int): real
    requires dpi != 0
  {
    (imw as real) * 72.0 / (dpi as real)
  }

  /** `page_width <= PDFA_MIN_UNITS or page_width >= PDFA_MAX_UNITS`. */
  predicate OutOfBounds(width: real) {
    width <= PdfaMinUnits as real || width >= PdfaMaxUnits as real
  }

  /** Python truthiness of the document dpi: neither None nor 0. */
  predicate Truthy(dpi: Option<int>) {
    dpi.Some? && dpi.value != 0
  }

  /** The resolution the page starts with: the per-page one, else the document's, else the guess. */
  function InitialDpi(imw: nat, imh: nat, dpi: Option<int>, perPage: Option<int>): int {
    if perPage.Some? then perPage.value else if dpi.Some? then dpi.value else DefaultGuess(imw, imh)
  }

  /**
   The outcome of the fix-up: page width and height in points, the `ppi`
   handed to the renderer, the resolutions whose widths were tried in order,
   and whether the width was finally forced to the minimum.
   */
  datatype Geometry = Geometry(width: real, height: real, ppi: real, tried: seq<int>, clamped: bool, errors: set<Code>)

  /**
   The width fix-up of `create_tess_textonly_pdf` for a page read from an
   image. The document resolution is retried only when a per-page one was
   used and the document one is truthy; then the guess is tried; then the
   width is forced to `PDFA_MIN_UNITS + 1`. A zero resolution or a zero image
   width raises ZeroDivisionError.
   */
  function FixPageWidth(imw: nat, imh: nat, dpi: Option<int>, perPage: Option<int>, errors: set<Code>): (r: Result<Geometry>)
    ensures r.Err? <==> InitialDpi(imw, imh, dpi, perPage) == 0 || imw == 0
    ensures r.Err? ==> r.fault == ZeroDivision
    ensures r.Ok? ==>
      var g := r.value;
      var first := InitialDpi(imw, imh, dpi, perPage);
      // the PDF/A bounds hold afterwards
      && PdfaMinUnits as real < g.width < PdfaMaxUnits as real
      // the warning is added exactly when the first width was out of bounds
      && g.errors == errors + (if OutOfBounds(WidthAt(imw, first)) then {InvalidPageSize} else {})
      // a first width in bounds is kept
      && (!OutOfBounds(WidthAt(imw, first)) ==> g.width == WidthAt(imw, first))
      && Proportional(g, imw, imh)
  {
    var first := InitialDpi(imw, imh, dpi, perPage);
    if first == 0 then Err(ZeroDivision)
    else
      var w0 := WidthAt(imw, first);
      if !OutOfBounds(w0) then
        Scale(imw, imh, w0, [first], false, errors)
      else
        var retry := perPage.Some? && Truthy(dpi);
        var w1 := if retry then WidthAt(imw, dpi.value) else w0;
        var tried1 := if retry then [first, dpi.value] else [first];
        var errs := errors + {InvalidPageSize};
        if !OutOfBounds(w1) then
          Scale(imw, imh, w1, tried1, false, errs)
        else
          var guess := DefaultGuess(imw, imh);
          var w2 := WidthAt(imw, guess);
          if !OutOfBounds(w2) then Scale(imw, imh, w2, tried1 + [guess], false, errs)
          else Scale(imw, imh, (PdfaMinUnits + 1) as real, tried1 + [guess], true, errs)
  }

  /**
   The page keeps the image's aspect ratio, and `ppi` is the resolution at
   which the image width fills the page width.
   */
  predicate Proportional(g: Geometry, imw: nat, imh: nat) {
    && g.width > 0.0 && imw > 0 && g.ppi > 0.0
    && g.height / g.width == imh as real / imw as real
    && g.ppi * g.width == 72.0 * imw as real
  }

  /**
   The order of the attempts: the first resolution; after an out-of-bounds
   width, the document resolution (only when a per-page one was used and the
   document one is truthy); then the guess; the width is forced to the
   minimum exactly when every attempt was out of bounds.
   */
  lemma FixPageWidthAttempts(imw: nat, imh: nat, dpi: Option<int>, perPage: Option<int>, errors: set<Code>)
    requires FixPageWidth(imw, imh, dpi, perPage, errors).Ok?
    ensures var g := FixPageWidth(imw, imh, dpi, perPage, errors).value;
      var first := InitialDpi(imw, imh, dpi, perPage);
      var retry := perPage.Some? && Truthy(dpi);
      && first != 0
      && (!OutOfBounds(WidthAt(imw, first)) ==> g.tried == [first] && !g.clamped)
      && (OutOfBounds(WidthAt(imw, first)) && retry && !OutOfBounds(WidthAt(imw, dpi.value)) ==>
            g.tried == [first, dpi.value] && !g.clamped && g.width == WidthAt(imw, dpi.value))
      && (OutOfBounds(WidthAt(imw, first)) && retry && OutOfBounds(WidthAt(imw, dpi.value)) ==>
            g.tried == [first, dpi.value, DefaultGuess(imw, imh)])
      && (OutOfBounds(WidthAt(imw, first)) && !retry ==> g.tried == [first, DefaultGuess(imw, imh)])
      && (g.clamped <==> |g.tried| > 1 && OutOfBounds(WidthAt(imw, DefaultGuess(imw, imh)))
                         && g.tried[|g.tried| - 1] == DefaultGuess(imw, imh))
      && (g.clamped ==> g.width == (PdfaMinUnits + 1) as real)
      && (|g.tried| > 1 && !g.clamped && g.tried[|g.tried| - 1] == DefaultGuess(imw, imh) ==>
            g.width == WidthAt(imw, DefaultGuess(imw, imh)))
  {
  }

  /** `scaler = page_width / imwidth; ppi = 72. / scaler; height = imheight * scaler`. */
  function Scale(imw: nat, imh: nat, width: real, tried: seq<int>, clamped: bool, errors: set<Code>): (r: Result<Geometry>)
    requires width > 0.0
    ensures r.Err? <==> imw == 0
    ensures r.Ok? ==> && r.value.width == width && r.value.tried == tried && r.value.clamped == clamped
                      && r.value.errors == errors
                      && Proportional(r.value, imw, imh)
  {
    if imw == 0 then Err(ZeroDivision)
    else
      var scaler := width / imw as real;
      ScaleFacts(imw as real, imh as real, width);
      Ok(Geometry(width, imh as real * scaler, 72.0 / scaler, tried, clamped, errors))
  }

  lemma ScaleFacts(imw: real, imh: real, width: real)
    requires imw > 0.0 && width > 0.0
    ensures var scaler := width / imw;
      && scaler > 0.0
      && (imh * scaler) / width == imh / imw
      && (72.0 / scaler) * width == 72.0 * imw
  {
    var scaler := width / imw;
    assert scaler * imw == width;
    assert (imh * scaler) / width == imh * scaler / (scaler * imw);
  }

  /**
   `font_scaler`: `hocr_dpi / ppi`, or `72 / ppi` when the hOCR page has no
   scan resolution.
   */
  function FontScaler(hocrDpi: Option<int>, ppi: real): (f: real)
    requires ppi != 0.0
    ensures f * ppi == if hocrDpi.Some? then hocrDpi.value as real else 72.0
  {
    match hocrDpi
    case Some(d) => d as real / ppi
    case None => 72.0 / ppi
  }

  /**
   For any page geometry the fix-up yields: without a scan resolution in the
   hOCR the font scaler maps the image width in pixels onto the page width in
   points; with one, it is that resolution's share of 72 points per inch.
   */
  lemma FontScalerMapsPixelsToPoints(g: Geometry, imw: nat, imh: nat, hocrDpi: Option<int>)
    requires Proportional(g, imw, imh)
    ensures hocrDpi.None? ==> FontScaler(hocrDpi, g.ppi) * imw as real == g.width
    ensures hocrDpi.Some? ==> FontScaler(hocrDpi, g.ppi) * imw as real * 72.0 == hocrDpi.value as real * g.width
  {
    assert g.ppi == 72.0 * imw as real / g.width;
  }
}

=== FILE: hocr_mask.dfy ===
/**
 `create_hocr_mask` of mrc.py: every OCR word either leaves the mask alone
 (blank text, a box that collapses when scaled, an inverted box, a box
 outside the image) or overwrites its box with a thresholded crop, choosing
 between the normal and the inverted crop by the noise/centroid decision tree.
 */
module HocrMask {
  import opened Base
  import opened Masks
  import opened Kernels
  import opened Threshold

  datatype Box = Box(left: int, top: int, right: int, bottom: int)
  datatype Word = Word(text: string, bbox: Box)
  datatype Line = Line(words: seq<Word>)
  datatype Paragraph = Paragraph(lines: seq<Line>)

  /** The words of a page in reading order: paragraphs, then lines, then words. */
  function LineWords(lines: seq<Line>): seq<Word> {
    if |lines| == 0 then [] else LineWords(lines[..|lines| - 1]) + lines[|lines| - 1].words
  }

  function Words(paras: seq<Paragraph>): seq<Word> {
    if |paras| == 0 then [] else Words(paras[..|paras| - 1]) + LineWords(paras[|paras| - 1].lines)
  }

  /** The characters Python's `str.strip()` removes (those for which `str.isspace()` holds). */
  predicate IsSpace(c: char) {
    var n := c as int;
    (9 <= n <= 13) || (28 <= n <= 32) || n == 0x85 || n == 0xA0 || n == 0x1680
    || (0x2000 <= n <= 0x200A) || n == 0x2028 || n == 0x2029 || n == 0x202F || n == 0x205F || n == 0x3000
  }

  /** `not text.strip()`. */
  predicate Blank(s: string) {
    forall i :: 0 <= i < |s| ==> IsSpace(s[i])
  }

  /** A downsample factor `create_hocr_mask` can divide by. */
  predicate ValidDownsample(ds: Option<int>) {
    ds.Some? ==> ds.value != 0
  }

  /** `[int(x / downsample) for x in bbox]`, or the box itself without a downsample. */
  function ScaledBox(b: Box, ds: Option<int>): (r: Box)
    requires ValidDownsample(ds)
    ensures ds.None? ==> r == b
    ensures ds.Some? ==>
      && r.left == TruncReal(b.left as real / ds.value as real) && r.top == TruncReal(b.top as real / ds.value as real)
      && r.right == TruncReal(b.right as real / ds.value as real) && r.bottom == TruncReal(b.bottom as real / ds.value as real)
  {
    match ds
    case None => b
    case Some(d) => Box(TruncDiv(b.left, d), TruncDiv(b.top, d), TruncDiv(b.right, d), TruncDiv(b.bottom, d))
  }

  /** What `create_hocr_mask` does with one word, in the order of its checks. */
  datatype Verdict = SkipBlank | SkipCollapsed | SkipInverted | SkipOutside | Accept

  function Classify(w: Word, ds: Option<int>, width: nat, height: nat): (v: Verdict)
    requires ValidDownsample(ds)
    ensures v == Accept <==>
      var b := ScaledBox(w.bbox, ds);
      !Blank(w.text) && 0 <= b.left < b.right <= width && 0 <= b.top < b.bottom <= height
    ensures v == SkipCollapsed ==> ds.Some?
  {
    var b := ScaledBox(w.bbox, ds);
    if Blank(w.text) then SkipBlank
    else if ds.Some? && (b.left == b.right || b.top == b.bottom) then SkipCollapsed
    else if b.left >= b.right || b.top >= b.bottom then SkipInverted
    else if b.left < 0 || b.right > width || b.top < 0 || b.bottom > height then SkipOutside
    else Accept
  }

  /** Below this noise estimate the normal crop is taken without looking at the inverted one. */
  const NoiseFloor: real := 0.1

  /** The crop a word writes, and whether the inverted crop was thresholded at all. */
  datatype Choice = Choice(crop: Mask, invertedEvaluated: bool)

  /** `((cx - px)**2 + (cy - py)**2)**0.5`. */
  function Distance(k: Kernels, cx: real, cy: real, px: real, py: real): real {
    k.sqrt((cx - px) * (cx - px) + (cy - py) * (cy - py))
  }

  /**
   The distance term of the centroid loop for the set pixel at row `x`, column `y`.
   The normal crop uses `(x, y)`; the inverted crop's line uses `(y, y)`.
   */
  function Term(k: Kernels, cx: real, cy: real, x: nat, y: nat, inverted: bool): real {
    if inverted then Distance(k, cx, cy, y as real, y as real) else Distance(k, cx, cy, x as real, y as real)
  }

  /** The inner loop `for y in range(n)` over row `x`. */
  function ColumnSum(k: Kernels, row: seq<bool>, x: nat, n: nat, cx: real, cy: real, inverted: bool): real
    requires n <= |row|
  {
    if n == 0 then 0.0
    else ColumnSum(k, row, x, n - 1, cx, cy, inverted) + (if row[n - 1] then Term(k, cx, cy, x, n - 1, inverted) else 0.0)
  }

  /** The outer loop `for x in range(n)`. */
  function RowSum(k: Kernels, m: Mask, n: nat, cx: real, cy: real, inverted: bool): real
    requires n <= |m|
  {
    if n == 0 then 0.0
    else RowSum(k, m, n - 1, cx, cy, inverted) + ColumnSum(k, m[n - 1], n - 1, |m[n - 1]|, cx, cy, inverted)
  }

  /** `s /= ones` only when `ones > 0`. */
  function Mean(s: real, ones: nat): real {
    if ones > 0 then s / ones as real else s
  }

  /** The mean distance of a crop's set pixels from the centre `(cx, cy)`. */
  function MeanDistance(k: Kernels, m: Mask, cx: real, cy: real, inverted: bool): real {
    Mean(RowSum(k, m, |m|, cx, cy, inverted), Count(m))
  }

  /** The decision tree of `create_hocr_mask`, as written (mrc.py:219-263). */
  function Disambiguate(k: Kernels, crop: Gray): (c: Choice)
    requires Rect(crop)
    ensures SameShape(crop, c.crop)
    ensures var t := ThresholdImage2(k, crop);
      var ti := ThresholdImage2(k, InvertGray(crop));
      var cx := |t| as real / 2.0;
      var cy := Width(t) as real / 2.0;
      var tSum := MeanDistance(k, t, cx, cy, false);
      var tiSum := MeanDistance(k, ti, cx, cy, true);
      && (k.maskSigma(t) <= NoiseFloor ==> c.crop == t && !c.invertedEvaluated)
      && (c.crop == t || c.crop == Or(ti, t))
      && (c.crop != t ==> c.invertedEvaluated && k.maskSigma(ti) < k.maskSigma(t) && Count(ti) < Count(t))
  {
    var t := ThresholdImage2(k, crop);
    var ti := ThresholdImage2(k, InvertGray(crop));
    var cx := |t| as real / 2.0;
    var cy := Width(t) as real / 2.0;
    var tSum := MeanDistance(k, t, cx, cy, false);
    var tiSum := MeanDistance(k, ti, cx, cy, true);
    Decide(k, t, ti, tSum, tiSum)
  }

  /**
   When the noise and density tests favour the inverted crop, the crop whose
   set pixels lie nearer the centre wins, and a tie (or the unreachable
   second test) takes the union.
   */
  lemma DisambiguateTieBreak(k: Kernels, crop: Gray)
    requires Rect(crop)
    ensures var t := ThresholdImage2(k, crop);
      var ti := ThresholdImage2(k, InvertGray(crop));
      var cx := |t| as real / 2.0;
      var cy := Width(t) as real / 2.0;
      k.maskSigma(t) > NoiseFloor && k.maskSigma(ti) < k.maskSigma(t) && Count(ti) < Count(t) ==>
        Disambiguate(k, crop).crop
        == (if MeanDistance(k, t, cx, cy, false) < MeanDistance(k, ti, cx, cy, true) then t else Or(ti, t))
  {
  }

  /** The branches of the decision tree, given both thresholds and their mean distances. */
  function Decide(k: Kernels, t: Mask, ti: Mask, tSum: real, tiSum: real): (c: Choice)
    requires SameShape(t, ti)
    ensures SameShape(t, c.crop)
    ensures k.maskSigma(t) <= NoiseFloor ==> c.crop == t && !c.invertedEvaluated
    ensures c.crop == t || c.crop == Or(ti, t)
    ensures c.crop != t ==> c.invertedEvaluated && k.maskSigma(ti) < k.maskSigma(t) && Count(ti) < Count(t)
    ensures k.maskSigma(t) > NoiseFloor && k.maskSigma(ti) < k.maskSigma(t) && Count(ti) < Count(t) ==>
      c.crop == (if tSum < tiSum then t else Or(ti, t))
  {
    var sigma := k.maskSigma(t);
    var ones := Count(t);
    if sigma <= NoiseFloor then Choice(t, false)
    else
      var sigmaI := k.maskSigma(ti);
      var onesI := Count(ti);
      if sigma < sigmaI then Choice(t, true)
      else if sigmaI < sigma && onesI < ones then
        if tSum < tiSum then Choice(t, true)
        else if tiSum > tSum then Choice(ti, true)
        else Choice(Or(ti, t), true)
      else Choice(t, true)
  }

  /** Whether pixel `(y, x)` lies in `mask_arr[top:bottom, left:right]`. */
  predicate InBox(b: Box, y: int, x: int) {
    b.top <= y < b.bottom && b.left <= x < b.right
  }

  /** The crop an accepted word writes into its (scaled) box. */
  function WordCrop(k: Kernels, img: Gray, w: Word, ds: Option<int>): (c: Mask)
    requires Rect(img) && ValidDownsample(ds) && Classify(w, ds, Width(img), |img|) == Accept
    ensures var b := ScaledBox(w.bbox, ds); IsGrid(c, b.right - b.left, b.bottom - b.top)
  {
    var b := ScaledBox(w.bbox, ds);
    Disambiguate(k, Crop(img, b.top, b.bottom, b.left, b.right)).crop
  }

  /** The crop word `w` writes if the loop accepts it, and nothing otherwise. */
  function CropOf(k: Kernels, img: Gray, w: Word, ds: Option<int>): Mask
    requires Rect(img) && ValidDownsample(ds)
  {
    if Classify(w, ds, Width(img), |img|) == Accept then WordCrop(k, img, w, ds) else []
  }

  /**
   The crops of the words `ws`, in order. A word's crop is taken from the
   image, never from the mask being built, so computing them ahead of the
   pasting changes nothing.
   */
  function Crops(k: Kernels, img: Gray, ws: seq<Word>, ds: Option<int>): (cs: seq<Mask>)
    requires Rect(img) && ValidDownsample(ds)
    ensures |cs| == |ws|
  {
    if |ws| == 0 then [] else Crops(k, img, ws[..|ws| - 1], ds) + [CropOf(k, img, ws[|ws| - 1], ds)]
  }

  lemma {:induction false} CropsElements(k: Kernels, img: Gray, ws: seq<Word>, ds: Option<int>, j: nat)
    requires Rect(img) && ValidDownsample(ds) && j < |ws|
    ensures Crops(k, img, ws, ds)[j] == CropOf(k, img, ws[j], ds)
  {
    if j < |ws| - 1 {
      CropsElements(k, img, ws[..|ws| - 1], ds, j);
    }
  }

  /** Every accepted word's crop has the shape of its scaled box. */
  predicate CropsFit(width: nat, height: nat, ws: seq<Word>, ds: Option<int>, cs: seq<Mask>)
    requires ValidDownsample(ds) && |cs| == |ws|
  {
    forall j :: 0 <= j < |ws| && Classify(ws[j], ds, width, height) == Accept ==>
      var b := ScaledBox(ws[j].bbox, ds);
      IsGrid(cs[j], b.right - b.left, b.bottom - b.top)
  }

  lemma CropsFitImage(k: Kernels, img: Gray, ws: seq<Word>, ds: Option<int>)
    requires Rect(img) && ValidDownsample(ds)
    ensures CropsFit(Width(img), |img|, ws, ds, Crops(k, img, ws, ds))
  {
    var cs := Crops(k, img, ws, ds);
    forall j | 0 <= j < |ws| && Classify(ws[j], ds, Width(img), |img|) == Accept
      ensures var b := ScaledBox(ws[j].bbox, ds); IsGrid(cs[j], b.right - b.left, b.bottom - b.top)
    {
      CropsElements(k, img, ws, ds, j);
    }
  }

  lemma CropsFitPrefix(width: nat, height: nat, ws: seq<Word>, ds: Option<int>, cs: seq<Mask>)
    requires ValidDownsample(ds) && |cs| == |ws| && |ws| > 0 && CropsFit(width, height, ws, ds, cs)
    ensures CropsFit(width, height, ws[..|ws| - 1], ds, cs[..|cs| - 1])
  {
    var init := ws[..|ws| - 1];
    forall j | 0 <= j < |init| && Classify(init[j], ds, width, height) == Accept
      ensures var b := ScaledBox(init[j].bbox, ds); IsGrid(cs[..|cs| - 1][j], b.right - b.left, b.bottom - b.top)
    {
      assert init[j] == ws[j] && cs[..|cs| - 1][j] == cs[j];
    }
  }

  /**
   One iteration of the word loop: an accepted word pastes its crop into
   its box, any other word leaves the mask alone.
   */
  function ApplyWord(m: Mask, w: Word, ds: Option<int>, c: Mask): (r: Mask)
    requires Rect(m) && ValidDownsample(ds)
    requires Classify(w, ds, Width(m), |m|) == Accept ==>
      var b := ScaledBox(w.bbox, ds); IsGrid(c, b.right - b.left, b.bottom - b.top)
    ensures SameShape(m, r)
    ensures Classify(w, ds, Width(m), |m|) != Accept ==> r == m
    ensures Classify(w, ds, Width(m), |m|) == Accept ==>
      var b := ScaledBox(w.bbox, ds);
      forall y, x :: 0 <= y < |m| && 0 <= x < Width(m) ==>
        r[y][x] == if InBox(b, y, x) then c[y - b.top][x - b.left] else m[y][x]
  {
    if Classify(w, ds, Width(m), |m|) == Accept then PasteBox(m, ScaledBox(w.bbox, ds), c) else m
  }

  /** `mask[top:bottom, left:right] = crop` for a crop the size of the box. */
  function PasteBox(m: Mask, b: Box, c: Mask): (r: Mask)
    requires Rect(m) && 0 <= b.left < b.right <= Width(m) && 0 <= b.top < b.bottom <= |m|
    requires IsGrid(c, b.right - b.left, b.bottom - b.top)
    ensures SameShape(m, r)
    ensures forall y, x :: 0 <= y < |m| && 0 <= x < Width(m) ==>
      r[y][x] == if InBox(b, y, x) then c[y - b.top][x - b.left] else m[y][x]
  {
    assert forall y, x :: InRegion(c, b.top, b.left, y, x) <==> InBox(b, y, x);
    Paste(m, b.top, b.left, c)
  }

  /** The word loop over `ws`, in order, pasting the crops `cs`. */
  function MaskWords(m: Mask, ws: seq<Word>, ds: Option<int>, cs: seq<Mask>): (r: Mask)
    requires Rect(m) && ValidDownsample(ds) && |cs| == |ws| && CropsFit(Width(m), |m|, ws, ds, cs)
    ensures SameShape(m, r)
  {
    if |ws| == 0 then m
    else
      CropsFitPrefix(Width(m), |m|, ws, ds, cs);
      ApplyWord(MaskWords(m, ws[..|ws| - 1], ds, cs[..|cs| - 1]), ws[|ws| - 1], ds, cs[|cs| - 1])
  }

  /** `create_hocr_mask(img, mask_arr, hocr_word_data, downsample)`. */
  function CreateHocrMask(k: Kernels, img: Gray, m: Mask, paras: seq<Paragraph>, ds: Option<int>): (r: Mask)
    requires SameShape(img, m) && ValidDownsample(ds)
    ensures SameShape(img, r)
  {
    CropsFitImage(k, img, Words(paras), ds);
    MaskWords(m, Words(paras), ds, Crops(k, img, Words(paras), ds))
  }

  /** The index of the last accepted word whose box holds pixel `(y, x)`. */
  function LastCover(ws: seq<Word>, ds: Option<int>, width: nat, height: nat, y: int, x: int): (j: Option<nat>)
    requires ValidDownsample(ds)
    ensures j.Some? ==> j.value < |ws| && Classify(ws[j.value], ds, width, height) == Accept
                        && InBox(ScaledBox(ws[j.value].bbox, ds), y, x)
  {
    if |ws| == 0 then None
    else if Classify(ws[|ws| - 1], ds, width, height) == Accept && InBox(ScaledBox(ws[|ws| - 1].bbox, ds), y, x)
    then Some(|ws| - 1)
    else LastCover(ws[..|ws| - 1], ds, width, height, y, x)
  }

  /**
   The value the word loop leaves at pixel `(y, x)`, read off the word list:
   the crop of the last accepted word covering it, or the initial value.
   */
  function CoveredValue(m: Mask, ws: seq<Word>, ds: Option<int>, cs: seq<Mask>, y: nat, x: nat): bool
    requires Rect(m) && ValidDownsample(ds) && |cs| == |ws| && CropsFit(Width(m), |m|, ws, ds, cs)
    requires y < |m| && x < Width(m)
  {
    match LastCover(ws, ds, Width(m), |m|, y, x)
    case None => m[y][x]
    case Some(j) =>
      var b := ScaledBox(ws[j].bbox, ds);
      cs[j][y - b.top][x - b.left]
  }
}

=== FILE: hocr_mask_facts.dfy ===
/**
 Properties of the word loop of `create_hocr_mask`: which word decides each
 pixel, and which words leave the mask alone.
 */
module WordLoop {
  import opened Base
  import opened Masks
  import opened Kernels
  import opened HocrMask

  /** The last word of the list decides a pixel it accepts and covers. */
  lemma CoveredByLast(m: Mask, ws: seq<Word>, ds: Option<int>, cs: seq<Mask>, y: nat, x: nat)
    requires Rect(m) && ValidDownsample(ds) && |cs| == |ws| && CropsFit(Width(m), |m|, ws, ds, cs)
    requires y < |m| && x < Width(m) && |ws| > 0
    requires Classify(ws[|ws| - 1], ds, Width(m), |m|) == Accept && InBox(ScaledBox(ws[|ws| - 1].bbox, ds), y, x)
    ensures var b := ScaledBox(ws[|ws| - 1].bbox, ds);
      CoveredValue(m, ws, ds, cs, y, x) == cs[|cs| - 1][y - b.top][x - b.left]
  {
    assert LastCover(ws, ds, Width(m), |m|, y, x) == Some(|ws| - 1);
  }

  /** A last word that does not cover a pixel leaves it to the words before. */
  lemma CoveredBeforeLast(m: Mask, ws: seq<Word>, ds: Option<int>, cs: seq<Mask>, y: nat, x: nat)
    requires Rect(m) && ValidDownsample(ds) && |cs| == |ws| && CropsFit(Width(m), |m|, ws, ds, cs)
    requires y < |m| && x < Width(m) && |ws| > 0
    requires !(Classify(ws[|ws| - 1], ds, Width(m), |m|) == Accept && InBox(ScaledBox(ws[|ws| - 1].bbox, ds), y, x))
    ensures CropsFit(Width(m), |m|, ws[..|ws| - 1], ds, cs[..|cs| - 1])
    ensures CoveredValue(m, ws, ds, cs, y, x) == CoveredValue(m, ws[..|ws| - 1], ds, cs[..|cs| - 1], y, x)
  {
    CropsFitPrefix(Width(m), |m|, ws, ds, cs);
    var init := ws[..|ws| - 1];
    assert LastCover(ws, ds, Width(m), |m|, y, x) == LastCover(init, ds, Width(m), |m|, y, x);
    match LastCover(init, ds, Width(m), |m|, y, x)
    case None =>
    case Some(j) =>
      assert ws[j] == init[j] && cs[j] == cs[..|cs| - 1][j];
  }

  /**
   Later words win: after the loop, a pixel holds the crop of the last
   accepted word whose box covers it, and a pixel no accepted word covers is
   exactly as it was before the loop.
   */
  lemma {:induction false} LastCoveringWordWins(m: Mask, ws: seq<Word>, ds: Option<int>, cs: seq<Mask>, y: nat, x: nat)
    requires Rect(m) && ValidDownsample(ds) && |cs| == |ws| && CropsFit(Width(m), |m|, ws, ds, cs)
    requires y < |m| && x < Width(m)
    ensures MaskWords(m, ws, ds, cs)[y][x] == CoveredValue(m, ws, ds, cs, y, x)
  {
    if |ws| > 0 {
      var init := ws[..|ws| - 1];
      var w := ws[|ws| - 1];
      CropsFitPrefix(Width(m), |m|, ws, ds, cs);
      LastCoveringWordWins(m, init, ds, cs[..|cs| - 1], y, x);
      if Classify(w, ds, Width(m), |m|) == Accept && InBox(ScaledBox(w.bbox, ds), y, x) {
        CoveredByLast(m, ws, ds, cs, y, x);
      } else {
        CoveredBeforeLast(m, ws, ds, cs, y, x);
      }
    }
  }

  /** A pixel that no accepted word covers keeps its value through the loop. */
  lemma UncoveredPixelUntouched(m: Mask, ws: seq<Word>, ds: Option<int>, cs: seq<Mask>, y: nat, x: nat)
    requires Rect(m) && ValidDownsample(ds) && |cs| == |ws| && CropsFit(Width(m), |m|, ws, ds, cs)
    requires y < |m| && x < Width(m)
    requires forall j :: 0 <= j < |ws| && Classify(ws[j], ds, Width(m), |m|) == Accept ==>
      !InBox(ScaledBox(ws[j].bbox, ds), y, x)
    ensures MaskWords(m, ws, ds, cs)[y][x] == m[y][x]
  {
    LastCoveringWordWins(m, ws, ds, cs, y, x);
  }

  /** A word the loop skips leaves the whole mask untouched. */
  lemma SkippedWordLeavesMask(k: Kernels, img: Gray, m: Mask, ws: seq<Word>, w: Word, ds: Option<int>)
    requires SameShape(img, m) && ValidDownsample(ds)
    requires Classify(w, ds, Width(img), |img|) != Accept
    ensures CropsFit(Width(m), |m|, ws + [w], ds, Crops(k, img, ws + [w], ds))
    ensures CropsFit(Width(m), |m|, ws, ds, Crops(k, img, ws, ds))
    ensures MaskWords(m, ws + [w], ds, Crops(k, img, ws + [w], ds)) == MaskWords(m, ws, ds, Crops(k, img, ws, ds))
  {
    CropsFitImage(k, img, ws + [w], ds);
    CropsFitImage(k, img, ws, ds);
    assert (ws + [w])[..|ws|] == ws;
  }

  /**
   `create_hocr_mask` pixel by pixel: a pixel covered by an accepted word
   holds the last such word's crop at that position (CropsAreWordCrops says
   which crop that is); any other pixel keeps the initial mask's value.
   */
  lemma HocrMaskPixels(k: Kernels, img: Gray, m: Mask, paras: seq<Paragraph>, ds: Option<int>, y: nat, x: nat)
    requires SameShape(img, m) && ValidDownsample(ds) && y < |img| && x < Width(img)
    ensures CropsFit(Width(m), |m|, Words(paras), ds, Crops(k, img, Words(paras), ds))
    ensures CreateHocrMask(k, img, m, paras, ds)[y][x] == CoveredValue(m, Words(paras), ds, Crops(k, img, Words(paras), ds), y, x)
  {
    var ws := Words(paras);
    CropsFitImage(k, img, ws, ds);
    LastCoveringWordWins(m, ws, ds, Crops(k, img, ws, ds), y, x);
  }

  /** `create_hocr_mask` leaves every pixel no accepted word covers as the incoming mask had it. */
  lemma HocrMaskUncovered(k: Kernels, img: Gray, m: Mask, paras: seq<Paragraph>, ds: Option<int>)
    requires SameShape(img, m) && ValidDownsample(ds)
    ensures forall y, x :: 0 <= y < |img| && 0 <= x < Width(img) && LastCover(Words(paras), ds, Width(img), |img|, y, x).None? ==>
      CreateHocrMask(k, img, m, paras, ds)[y][x] == m[y][x]
  {
    forall y, x | 0 <= y < |img| && 0 <= x < Width(img) && LastCover(Words(paras), ds, Width(img), |img|, y, x).None?
      ensures CreateHocrMask(k, img, m, paras, ds)[y][x] == m[y][x]
    {
      HocrMaskPixels(k, img, m, paras, ds, y, x);
    }
  }

  /** The crop the loop pastes for an accepted word is that word's thresholded crop of the image. */
  lemma CropsAreWordCrops(k: Kernels, img: Gray, ws: seq<Word>, ds: Option<int>, j: nat)
    requires Rect(img) && ValidDownsample(ds) && j < |ws| && Classify(ws[j], ds, Width(img), |img|) == Accept
    ensures Crops(k, img, ws, ds)[j] == WordCrop(k, img, ws[j], ds)
  {
    CropsElements(k, img, ws, ds, j);
  }
}

=== FILE: hq_pages.dfy ===
/**
 The high-quality page list of `recode`: a comma-separated list of page
 numbers, 1-indexed when positive and counted from the end when negative,
 becomes a boolean vector with one entry per page of the text-only PDF.
 Numbers out of range are ignored silently.
 */
module HqPages {
  import opened Base

  /**
   The vector index page number `n` marks: `n - 1` when positive, `n`
   itself otherwise, taken from the end when negative; nothing when the
   adjusted number's absolute value reaches the page count.
   */
  function HqIndex(n: int, pages: nat): (r: Option<nat>)
    ensures r.Some? ==> r.value < pages
  {
    var i := if n > 0 then n - 1 else n;
    if (if i < 0 then -i else i) >= pages then None
    else if i < 0 then Some(pages + i)
    else Some(i)
  }

  /** `HQ_PAGES[i] = True` for the index `n` marks, if any. */
  function Mark(v: seq<bool>, n: int): (r: seq<bool>)
    ensures |r| == |v|
  {
    match HqIndex(n, |v|)
    case None => v
    case Some(i) => v[i := true]
  }

  /** The loop over the parsed numbers, in order, starting from all-false. */
  function MarkAll(v: seq<bool>, ns: seq<int>): (r: seq<bool>)
    ensures |r| == |v|
  {
    if |ns| == 0 then v else Mark(MarkAll(v, ns[..|ns| - 1]), ns[|ns| - 1])
  }

  /** `HQ_PAGES` for `pages` pages and the parsed list `ns`. */
  function HqVector(pages: nat, ns: seq<int>): (r: seq<bool>)
    ensures |r| == pages
  {
    MarkAll(seq(pages, _ => false), ns)
  }

  /** Whether some number of the list marks page index `p`. */
  predicate Requested(p: nat, pages: nat, ns: seq<int>) {
    exists k :: 0 <= k < |ns| && HqIndex(ns[k], pages) == Some(p)
  }

  /** An entry is set exactly when it was set before or some number of the list marks it. */
  lemma {:induction false} MarkAllCharacterised(v: seq<bool>, ns: seq<int>, p: nat)
    requires p < |v|
    ensures MarkAll(v, ns)[p] <==> v[p] || Requested(p, |v|, ns)
  {
    if |ns| > 0 {
      var init := ns[..|ns| - 1];
      var last := ns[|ns| - 1];
      MarkAllCharacterised(v, init, p);
      if Requested(p, |v|, ns) && !v[p] && HqIndex(last, |v|) != Some(p) {
        var k :| 0 <= k < |ns| && HqIndex(ns[k], |v|) == Some(p);
        assert k < |init| && init[k] == ns[k];
      }
      if Requested(p, |v|, init) {
        var k :| 0 <= k < |init| && HqIndex(init[k], |v|) == Some(p);
        assert ns[k] == init[k];
      }
      if HqIndex(last, |v|) == Some(p) {
        assert HqIndex(ns[|ns| - 1], |v|) == Some(p);
      }
    }
  }

  /** The vector marks exactly the requested pages: no other entry is set. */
  lemma HqVectorCharacterised(pages: nat, ns: seq<int>, p: nat)
    requires p < pages
    ensures HqVector(pages, ns)[p] <==> Requested(p, pages, ns)
  {
    MarkAllCharacterised(seq(pages, _ => false), ns, p);
  }

  /**
   How the numbers are read: positive `n` in range marks `n - 1`; `0` and
   `1` both mark the first page; negative `n` with `|n| < pages` marks
   `pages + n`; `-pages` and `pages + 1` are ignored.
   */
  lemma HqIndexCases(n: int, pages: nat)
    ensures 0 < n <= pages ==> HqIndex(n, pages) == Some(n - 1)
    ensures pages > 0 ==> HqIndex(0, pages) == Some(0) && HqIndex(1, pages) == Some(0)
    ensures -(pages as int) < n < 0 ==> HqIndex(n, pages) == Some(pages + n)
    ensures HqIndex(-(pages as int), pages) == None && HqIndex(pages + 1, pages) == None
    ensures n > pages || n <= -(pages as int) ==> HqIndex(n, pages) == None
  {
  }

  /** Order and repetition in the list do not matter. */
  lemma HqVectorIgnoresOrder(pages: nat, a: seq<int>, b: seq<int>)
    requires forall n :: n in a <==> n in b
    ensures HqVector(pages, a) == HqVector(pages, b)
  {
    var va := HqVector(pages, a);
    var vb := HqVector(pages, b);
    forall p | 0 <= p < pages
      ensures va[p] == vb[p]
    {
      HqVectorCharacterised(pages, a, p);
      HqVectorCharacterised(pages, b, p);
      if Requested(p, pages, a) {
        var k :| 0 <= k < |a| && HqIndex(a[k], pages) == Some(p);
        assert a[k] in b;
        var j :| 0 <= j < |b| && b[j] == a[k];
      }
      if Requested(p, pages, b) {
        var k :| 0 <= k < |b| && HqIndex(b[k], pages) == Some(p);
        assert b[k] in a;
        var j :| 0 <= j < |a| && a[j] == b[k];
      }
    }
  }

  /** Repeating a number changes nothing. */
  lemma HqVectorRepeatIdempotent(pages: nat, ns: seq<int>, n: int)
    ensures HqVector(pages, ns + [n, n]) == HqVector(pages, ns + [n])
  {
    HqVectorIgnoresOrder(pages, ns + [n, n], ns + [n]);
  }
}

=== FILE: kernels.dfy ===
/**
 Image types and the numeric kernels the MRC pipeline calls but does not
 define. Each kernel is a total function value, evaluated at one pixel where
 the library returns a whole array, so that the model needs no assumption
 about the shape of a kernel's output: the caller builds the array.
 */
module Kernels {
  import opened Base
  import opened Masks

  /** An 8-bit grayscale image, `np.array(img)` of a PIL mode 'L' image. */
  type Gray = Grid<int>

  /** A float32 grayscale image, `np.array(img, dtype=np.float32)`. */
  type FloatGray = Grid<real>

  /** One pixel: its channel values (one for 'L' and '1', three for 'RGB', four for 'RGBA'). */
  type Pixel = seq<int>

  /** A decoded page image, `np.array(image)`. */
  type Image = Grid<Pixel>

  /**
   The opaque numeric collaborators:
   - localThreshold(img, blockSize, y, x): `threshold_local(img, blockSize, method='gaussian')[y, x]`;
   - otsu(img): `threshold_otsu(img)`, None where skimage raises ValueError;
   - sauvola(img, window, k, r, y, x): the output bit of `binarise_sauvola`;
   - maskSigma / graySigma: `mean_estimate_sigma` of a boolean or float array;
   - gaussian(img, sigma, y, x): `ndimage.gaussian_filter(img, sigma)[y, x]`;
   - tvBregman(m, weight, y, x): `denoise_tv_bregman(m as float32, weight)[y, x]`;
   - sqrt: the float power `** 0.5`;
   - luma(p): PIL `convert('L')` of one pixel;
   - fill(gray, keep, img, radius, y, x): the value `optimise_gray2` (gray) or
     `optimise_rgb2` gives a pixel that `keep` does not keep;
   - resample(img, w, h, y, x): pixel `(y, x)` of `img` reduced to `w` by `h`.
   */
  datatype Kernels = Kernels(
    localThreshold: (Gray, nat, nat, nat) -> real,
    otsu: Gray -> Option<real>,
    sauvola: (Gray, nat, real, int, nat, nat) -> bool,
    maskSigma: Mask -> real,
    graySigma: FloatGray -> real,
    gaussian: (FloatGray, real, nat, nat) -> real,
    tvBregman: (Mask, real, nat, nat) -> real,
    sqrt: real -> real,
    luma: Pixel -> int,
    fill: (bool, Mask, Image, nat, nat, nat) -> Pixel,
    resample: (Image, nat, nat, nat, nat) -> Pixel
  )

  predicate IsByte(v: int) {
    0 <= v < 256
  }

  /** A rectangular array of uint8 values. */
  predicate ByteImage(g: Gray) {
    Rect(g) && forall y, x :: 0 <= y < |g| && 0 <= x < Width(g) ==> IsByte(g[y][x])
  }
}

=== FILE: masks.dfy ===
/**
 Two-dimensional arrays as rows of columns (numpy's `(h, w)` shape), boolean
 masks, and the named boolean operations that combine them. Keeping AND, OR
 and NOT as separate named operations makes the order in which masks are
 combined visible in every caller.
 */
module Masks {

  type Grid<T> = seq<seq<T>>
  type Mask = Grid<bool>

  /** `g` has `h` rows of `w` cells each. */
  predicate IsGrid<T>(g: Grid<T>, w: nat, h: nat) {
    |g| == h && forall y :: 0 <= y < h ==> |g[y]| == w
  }

  /** The width numpy reports as `shape[1]` (zero for an array without rows). */
  function Width<T>(g: Grid<T>): nat {
    if |g| == 0 then 0 else |g[0]|
  }

  predicate Rect<T>(g: Grid<T>) {
    IsGrid(g, Width(g), |g|)
  }

  predicate SameShape<T, U>(a: Grid<T>, b: Grid<U>) {
    Rect(a) && IsGrid(b, Width(a), |a|)
  }

  /** `np.array(Image.new('1', (w, h)))`, or any other constant `(h, w)` array. */
  function Filled<T>(w: nat, h: nat, v: T): (g: Grid<T>)
    ensures IsGrid(g, w, h)
    ensures forall y, x :: 0 <= y < h && 0 <= x < w ==> g[y][x] == v
  {
    seq(h, _ => seq(w, _ => v))
  }

  /** Pixelwise `a & b`. */
  function And(a: Mask, b: Mask): (r: Mask)
    requires SameShape(a, b)
    ensures SameShape(a, r)
    ensures forall y, x {:trigger r[y][x]} :: 0 <= y < |a| && 0 <= x < Width(a) ==> (r[y][x] <==> a[y][x] && b[y][x])
  {
    seq(|a|, y requires 0 <= y < |a| => seq(|a[y]|, x requires 0 <= x < |a[y]| => a[y][x] && b[y][x]))
  }

  /** Pixelwise `a | b`. */
  function Or(a: Mask, b: Mask): (r: Mask)
    requires SameShape(a, b)
    ensures SameShape(a, r)
    ensures forall y, x {:trigger r[y][x]} :: 0 <= y < |a| && 0 <= x < Width(a) ==> (r[y][x] <==> a[y][x] || b[y][x])
  {
    seq(|a|, y requires 0 <= y < |a| => seq(|a[y]|, x requires 0 <= x < |a[y]| => a[y][x] || b[y][x]))
  }

  /** Pixelwise complement: `np.invert(m)` and `m ^ np.ones(m.shape, dtype=bool)` alike. */
  function Not(m: Mask): (r: Mask)
    requires Rect(m)
    ensures SameShape(m, r)
    ensures forall y, x {:trigger r[y][x]} :: 0 <= y < |m| && 0 <= x < Width(m) ==> r[y][x] == !m[y][x]
  {
    seq(|m|, y requires 0 <= y < |m| => seq(|m[y]|, x requires 0 <= x < |m[y]| => !m[y][x]))
  }

  /** Every pixel set in `a` is set in `b`. */
  predicate Subset(a: Mask, b: Mask)
    requires SameShape(a, b)
  {
    forall y, x :: 0 <= y < |a| && 0 <= x < Width(a) ==> a[y][x] ==> b[y][x]
  }

  lemma NotInvolutive(m: Mask)
    requires Rect(m)
    ensures Not(Not(m)) == m
  {
    var n := Not(Not(m));
    assert |n| == |m|;
    forall y | 0 <= y < |m|
      ensures n[y] == m[y]
    {
      assert |n[y]| == |m[y]| == Width(m);
    }
  }

  /** `count_nonzero` of one row. */
  function CountRow(row: seq<bool>): (c: nat)
    ensures c <= |row|
  {
    if |row| == 0 then 0 else CountRow(row[..|row| - 1]) + (if row[|row| - 1] then 1 else 0)
  }

  /** `np.count_nonzero(m)`. */
  function Count(m: Mask): nat {
    if |m| == 0 then 0 else Count(m[..|m| - 1]) + CountRow(m[|m| - 1])
  }

  /** `g[top:bottom, left:right]` for a range that lies inside `g`. */
  function Crop<T>(g: Grid<T>, top: nat, bottom: nat, left: nat, right: nat): (c: Grid<T>)
    requires Rect(g) && top <= bottom <= |g| && left <= right <= Width(g)
    ensures IsGrid(c, right - left, bottom - top)
    ensures forall y, x {:trigger c[y][x]} :: 0 <= y < bottom - top && 0 <= x < right - left ==> c[y][x] == g[top + y][left + x]
  {
    seq(bottom - top, y requires 0 <= y < bottom - top => g[top + y][left..right])
  }

  /** Whether pixel `(y, x)` lies in the rectangle with corner `(top, left)` and the shape of `c`. */
  predicate InRegion<T>(c: Grid<T>, top: nat, left: nat, y: int, x: int) {
    top <= y < top + |c| && left <= x < left + Width(c)
  }

  /** `g[top:top+h, left:left+w] = c`: an in-place slice assignment, as a new array. */
  function Paste<T>(g: Grid<T>, top: nat, left: nat, c: Grid<T>): (r: Grid<T>)
    requires Rect(g) && Rect(c) && top + |c| <= |g| && left + Width(c) <= Width(g)
    ensures SameShape(g, r)
    ensures forall y, x :: 0 <= y < |g| && 0 <= x < Width(g) ==>
      r[y][x] == if InRegion(c, top, left, y, x) then c[y - top][x - left] else g[y][x]
  {
    seq(|g|, y requires 0 <= y < |g| =>
      seq(|g[y]|, x requires 0 <= x < |g[y]| =>
        if InRegion(c, top, left, y, x) then c[y - top][x - left] else g[y][x]))
  }

  /** Reading back the pasted rectangle gives exactly the pasted array. */
  lemma CropOfPaste<T>(g: Grid<T>, top: nat, left: nat, c: Grid<T>)
    requires Rect(g) && Rect(c) && top + |c| <= |g| && left + Width(c) <= Width(g)
    ensures Crop(Paste(g, top, left, c), top, top + |c|, left, left + Width(c)) == c
  {
    var r := Crop(Paste(g, top, left, c), top, top + |c|, left, left + Width(c));
    assert |r| == |c|;
    forall y | 0 <= y < |c|
      ensures r[y] == c[y]
    {
      assert |r[y]| == |c[y]| == Width(c);
      forall x | 0 <= x < Width(c)
        ensures r[y][x] == c[y][x]
      {
        assert InRegion(c, top, left, top + y, left + x);
      }
    }
  }

  /** Pasting back what was already there changes nothing. */
  lemma PasteOfCrop<T>(g: Grid<T>, top: nat, bottom: nat, left: nat, right: nat)
    requires Rect(g) && top <= bottom <= |g| && left <= right <= Width(g)
    ensures Paste(g, top, left, Crop(g, top, bottom, left, right)) == g
  {
    var c := Crop(g, top, bottom, left, right);
    var r := Paste(g, top, left, c);
    assert |r| == |g|;
    forall y | 0 <= y < |g|
      ensures r[y] == g[y]
    {
      assert |r[y]| == |g[y]| == Width(g);
      forall x | 0 <= x < Width(g)
        ensures r[y][x] == g[y][x]
      {
        if InRegion(c, top, left, y, x) {
          assert |c[0]| == right - left;
        }
      }
    }
  }
}

=== FILE: mrc_loop.dfy ===
/**
 The page loop of `insert_images_mrc` as a whole: the selected pages are
 processed in order, each against its PDF page, its image and its HQ flag,
 and the report cadence runs after every page. The hOCR word data, the
 loaded images and the timing records of each page are inputs.
 */
module MrcLoop {
  import opened Base
  import opened Kernels
  import opened Components
  import opened HocrMask
  import opened Encoder
  import opened Timing
  import opened Cadence
  import opened PageSelect
  import opened PageProcess
  import HqPages

  /** Where the page images come from: the input PDF (by PDF index) or the image stack (by hOCR index). */
  datatype ImageSource = FromPdf | FromFiles

  /** What the loop reads: the word data of every hOCR page, the loaded images, and the page count of the text-only PDF. */
  datatype Sources = Sources(words: seq<seq<Paragraph>>, images: seq<Page>, from: ImageSource, pdfPages: nat)

  predicate ValidSources(src: Sources) {
    forall i :: 0 <= i < |src.images| ==> WellFormedPage(src.images[i])
  }

  /** `from_pdf[idx]` or `image_files[idx + skipped_pages]`. */
  function ImageIndex(src: Sources, r: PageRef): nat {
    match src.from
    case FromPdf => r.pdf
    case FromFiles => r.image
  }

  /** The loop state between pages. */
  datatype State = State(scratch: Scratch, chunk: Chunk, reports: seq<Report>, errors: set<Code>, pages: seq<seq<Insertion>>)

  /** Everything the page loop is called with besides its inputs. */
  datatype Loop = Loop(k: Kernels, run: Runner, cfg: Settings, hq: seq<bool>, every: Option<int>, reporter: bool,
                       clock: PageRef -> seq<Record>)

  /** `to_pdf[idx]`, the page image and `hq_pages[idx]` exist. */
  predicate InBounds(l: Loop, src: Sources, r: PageRef) {
    r.pdf < src.pdfPages && ImageIndex(src, r) < |src.images| && r.pdf < |l.hq|
  }

  /**
   One page: `to_pdf[idx]`, the image and `hq_pages[idx]` must exist (an
   IndexError otherwise); then the page body, then the report cadence.
   */
  function Step(l: Loop, src: Sources, st: State, r: PageRef): (res: Result<State>)
    requires Valid(st.scratch) && ValidSettings(l.cfg) && ValidSources(src) && r.hocr < |src.words|
    ensures !InBounds(l, src, r) ==> res == Err(IndexOutOfRange)
    ensures res.Ok? ==> Valid(res.value.scratch) && res.value.scratch.files == st.scratch.files
    ensures res.Ok? ==> |res.value.pages| == |st.pages| + 1 && res.value.pages[..|st.pages|] == st.pages
    ensures res.Ok? ==> var a := AfterPage(st.chunk, l.clock(r), l.every, l.reporter);
      && a.Ok? && res.value.chunk == a.value.0
      && res.value.reports == st.reports + (if a.value.1.Some? then [a.value.1.value] else [])
  {
    if !InBounds(l, src, r) then Err(IndexOutOfRange)
    else
      var out := ProcessPage(l.k, l.run, st.scratch, l.cfg, src.images[ImageIndex(src, r)], src.words[r.hocr], l.hq[r.pdf], st.errors);
      match out.result
      case Err(f) => Err(f)
      case Ok(page) =>
        match AfterPage(st.chunk, l.clock(r), l.every, l.reporter)
        case Err(f) => Err(f)
        case Ok(next) =>
          Ok(State(out.scratch, next.0, st.reports + (if next.1.Some? then [next.1.value] else []), page.errors,
                   st.pages + [page.inserts]))
  }

  /** The pages the loop is well defined on: their hOCR indices exist. */
  predicate InWords(src: Sources, refs: seq<PageRef>) {
    forall j :: 0 <= j < |refs| ==> refs[j].hocr < |src.words|
  }

  /** The loop over `refs`, in order, aborting on the first exception. */
  function Pages(l: Loop, src: Sources, st: State, refs: seq<PageRef>): (res: Result<State>)
    requires Valid(st.scratch) && ValidSettings(l.cfg) && ValidSources(src) && InWords(src, refs)
    ensures res.Ok? ==> Valid(res.value.scratch) && res.value.scratch.files == st.scratch.files
    ensures res.Ok? ==> |res.value.pages| == |st.pages| + |refs| && res.value.pages[..|st.pages|] == st.pages
    ensures res.Ok? ==> |res.value.reports| >= |st.reports| && res.value.reports[..|st.reports|] == st.reports
  {
    if |refs| == 0 then Ok(st)
    else
      var init := refs[..|refs| - 1];
      InitInWords(src, refs);
      match Pages(l, src, st, init)
      case Err(f) => Err(f)
      case Ok(mid) =>
        var res := Step(l, src, mid, refs[|refs| - 1]);
        if res.Ok? then
          PrefixOfPrefix(st.pages, mid.pages, res.value.pages);
          PrefixOfPrefix(st.reports, mid.reports, res.value.reports);
          res
        else res
  }

  /** A prefix of a prefix is a prefix. */
  lemma PrefixOfPrefix<T>(a: seq<T>, b: seq<T>, c: seq<T>)
    requires |a| <= |b| <= |c| && b[..|a|] == a && c[..|b|] == b
    ensures c[..|a|] == a
  {
    assert c[..|a|] == c[..|b|][..|a|];
  }

  /** The timing records of each page, in order. */
  function Timings(l: Loop, refs: seq<PageRef>): (t: seq<seq<Record>>)
    ensures |t| == |refs| && forall j :: 0 <= j < |refs| ==> t[j] == l.clock(refs[j])
  {
    seq(|refs|, j requires 0 <= j < |refs| => l.clock(refs[j]))
  }

  /** The page `r` inserted `inserts` as laid out for its image, its word data and its HQ flag. */
  predicate LaidOut(l: Loop, src: Sources, r: PageRef, inserts: seq<Insertion>)
    requires ValidSettings(l.cfg) && ValidSources(src) && r.hocr < |src.words|
  {
    && InBounds(l, src, r)
    && Layout(l.k, l.cfg, src.images[ImageIndex(src, r)], src.words[r.hocr], l.hq[r.pdf], inserts)
  }

  /** The prefix of the loop over `refs` without its last page. */
  lemma InitInWords(src: Sources, refs: seq<PageRef>)
    requires InWords(src, refs) && |refs| > 0
    ensures InWords(src, refs[..|refs| - 1])
  {
    var init := refs[..|refs| - 1];
    forall j | 0 <= j < |init| ensures init[j].hocr < |src.words| {
      assert init[j] == refs[j];
    }
  }

  /**
   On success every processed page inserts the layout of that page's
   image, word data and HQ flag, in the order of the pages.
   */
  lemma {:induction false} PagesLaidOut(l: Loop, src: Sources, st: State, refs: seq<PageRef>)
    requires Valid(st.scratch) && ValidSettings(l.cfg) && ValidSources(src) && InWords(src, refs)
    ensures var res := Pages(l, src, st, refs);
      res.Ok? ==> AllLaidOut(l, src, refs, res.value.pages, |st.pages|)
  {
    if |refs| > 0 {
      var init := refs[..|refs| - 1];
      var last := refs[|refs| - 1];
      InitInWords(src, refs);
      PagesLaidOut(l, src, st, init);
      var res := Pages(l, src, st, refs);
      if res.Ok? {
        var mid := Pages(l, src, st, init).value;
        assert res == Step(l, src, mid, last);
        StepLaidOut(l, src, mid, last);
        AllLaidOutSnoc(l, src, refs, mid.pages, res.value.pages, |st.pages|);
      }
    }
  }

  /** Pages `base` on of `pages` are laid out for `refs`, one each. */
  predicate AllLaidOut(l: Loop, src: Sources, refs: seq<PageRef>, pages: seq<seq<Insertion>>, base: nat)
    requires ValidSettings(l.cfg) && ValidSources(src) && InWords(src, refs)
  {
    base + |refs| <= |pages| && forall j :: 0 <= j < |refs| ==> LaidOut(l, src, refs[j], pages[base + j])
  }

  lemma AllLaidOutSnoc(l: Loop, src: Sources, refs: seq<PageRef>, before: seq<seq<Insertion>>, after: seq<seq<Insertion>>, base: nat)
    requires ValidSettings(l.cfg) && ValidSources(src) && InWords(src, refs) && |refs| > 0
    requires InWords(src, refs[..|refs| - 1]) && AllLaidOut(l, src, refs[..|refs| - 1], before, base)
    requires |after| == |before| + 1 && after[..|before|] == before && |before| == base + |refs| - 1
    requires LaidOut(l, src, refs[|refs| - 1], after[|before|])
    ensures AllLaidOut(l, src, refs, after, base)
  {
    var init := refs[..|refs| - 1];
    forall j | 0 <= j < |refs| ensures LaidOut(l, src, refs[j], after[base + j]) {
      if j < |init| {
        assert refs[j] == init[j] && after[base + j] == before[base + j];
      }
    }
  }

  /**
   On success the chunk and the reports sent are those of the report
   cadence run over the pages' timing records.
   */
  lemma {:induction false} PagesReport(l: Loop, src: Sources, st: State, refs: seq<PageRef>)
    requires Valid(st.scratch) && ValidSettings(l.cfg) && ValidSources(src) && InWords(src, refs)
    ensures var res := Pages(l, src, st, refs);
      res.Ok? ==> Cadence.Run(st.chunk, Timings(l, refs), l.every, l.reporter) == Ok((res.value.chunk, res.value.reports[|st.reports|..]))
  {
    if |refs| == 0 {
      assert st.reports[|st.reports|..] == [];
      assert |Timings(l, refs)| == 0;
    } else {
      var init := refs[..|refs| - 1];
      var last := refs[|refs| - 1];
      InitInWords(src, refs);
      PagesReport(l, src, st, init);
      var res := Pages(l, src, st, refs);
      if res.Ok? {
        var mid := Pages(l, src, st, init).value;
        assert res == Step(l, src, mid, last);
        var ts := Timings(l, refs);
        assert ts[..|ts| - 1] == Timings(l, init) && ts[|ts| - 1] == l.clock(last);
        RunSnoc(st.chunk, ts, l.every, l.reporter, |st.reports|, mid.chunk, mid.reports, res.value.chunk, res.value.reports);
      }
    }
  }

  /** One more page of the cadence run, with the reports collected after `n` earlier ones. */
  lemma RunSnoc(c: Chunk, ts: seq<seq<Record>>, every: Option<int>, reporter: bool, n: nat,
                midChunk: Chunk, before: seq<Report>, afterChunk: Chunk, after: seq<Report>)
    requires |ts| > 0 && n <= |before|
    requires Cadence.Run(c, ts[..|ts| - 1], every, reporter) == Ok((midChunk, before[n..]))
    requires var a := AfterPage(midChunk, ts[|ts| - 1], every, reporter);
      a.Ok? && afterChunk == a.value.0 && after == before + (if a.value.1.Some? then [a.value.1.value] else [])
    ensures Cadence.Run(c, ts, every, reporter) == Ok((afterChunk, after[n..]))
  {
    var a := AfterPage(midChunk, ts[|ts| - 1], every, reporter);
    var extra := if a.value.1.Some? then [a.value.1.value] else [];
    assert after[n..] == before[n..] + extra;
  }

  /** The page a successful step inserts is laid out for its page. */
  lemma StepLaidOut(l: Loop, src: Sources, st: State, r: PageRef)
    requires Valid(st.scratch) && ValidSettings(l.cfg) && ValidSources(src) && r.hocr < |src.words|
    ensures var res := Step(l, src, st, r);
      res.Ok? ==> LaidOut(l, src, r, res.value.pages[|st.pages|])
  {
    if InBounds(l, src, r) {
      ProcessPageLayout(l.k, l.run, st.scratch, l.cfg, src.images[ImageIndex(src, r)], src.words[r.hocr], l.hq[r.pdf], st.errors);
    }
  }

  /**
   `insert_images_mrc`: the loop over the selected pages, then the final
   report of the unfinished chunk.
   */
  function InsertImagesMrc(l: Loop, src: Sources, s: Scratch, skip: set<int>, stop: Option<int>, errors: set<Code>)
    : Result<(State, Option<Report>)>
    requires Valid(s) && ValidSettings(l.cfg) && ValidSources(src)
  {
    var refs := SelectPages(|src.words|, skip, stop);
    SelectedPages(|src.words|, skip, stop);
    match Pages(l, src, State(s, Start, [], errors, []), refs)
    case Err(f) => Err(f)
    case Ok(st) =>
      match FinalReport(st.chunk, l.reporter)
      case Err(f) => Err(f)
      case Ok(last) => Ok((st, last))
  }

  /**
   The whole of `insert_images_mrc`: on success the temporary files are as
   before, one PDF page per selected page is inserted into, each laid out
   for its page, and the reports are those of the report cadence over the
   pages' timing records, followed by the final one.
   */
  lemma InsertImagesMrcCharacterised(l: Loop, src: Sources, s: Scratch, skip: set<int>, stop: Option<int>, errors: set<Code>)
    requires Valid(s) && ValidSettings(l.cfg) && ValidSources(src)
    ensures var refs := SelectPages(|src.words|, skip, stop);
      var res := InsertImagesMrc(l, src, s, skip, stop, errors);
      res.Ok? ==>
      var st := res.value.0;
      && InWords(src, refs)
      && Valid(st.scratch) && st.scratch.files == s.files
      && |st.pages| == |refs|
      && AllLaidOut(l, src, refs, st.pages, 0)
      && Cadence.Run(Start, Timings(l, refs), l.every, l.reporter) == Ok((st.chunk, st.reports))
      && FinalReport(st.chunk, l.reporter) == Ok(res.value.1)
  {
    var refs := SelectPages(|src.words|, skip, stop);
    SelectedPages(|src.words|, skip, stop);
    var st0 := State(s, Start, [], errors, []);
    PagesLaidOut(l, src, st0, refs);
    PagesReport(l, src, st0, refs);
    var res := Pages(l, src, st0, refs);
    if res.Ok? {
      assert res.value.reports[0..] == res.value.reports;
    }
  }

  /**
   When the inputs agree (the text-only PDF was built under the same skip
   and stop, so it has a page per selected hOCR page, the HQ vector has an
   entry per PDF page, and the image source has an image per page it is
   indexed by) no selected page fails the index checks.
   */
  lemma SelectedPagesInBounds(l: Loop, src: Sources, skip: set<int>, stop: Option<int>)
    requires src.pdfPages == |SelectPages(|src.words|, skip, stop)| && |l.hq| == src.pdfPages
    requires src.from == FromPdf ==> |src.images| >= src.pdfPages
    requires src.from == FromFiles ==> |src.images| >= |src.words|
    ensures var refs := SelectPages(|src.words|, skip, stop);
      forall j :: 0 <= j < |refs| ==> InBounds(l, src, refs[j])
  {
    var n := |src.words|;
    SelectPagesCharacterised(n, skip, stop);
    SelectedPages(n, skip, stop);
  }

  /** With HQ pages parsed from a list, the HQ vector is long enough. */
  lemma HqVectorInBounds(l: Loop, src: Sources, skip: set<int>, stop: Option<int>, ns: seq<int>)
    requires src.pdfPages == |SelectPages(|src.words|, skip, stop)| && l.hq == HqPages.HqVector(src.pdfPages, ns)
    requires src.from == FromPdf ==> |src.images| >= src.pdfPages
    requires src.from == FromFiles ==> |src.images| >= |src.words|
    ensures var refs := SelectPages(|src.words|, skip, stop);
      forall j :: 0 <= j < |refs| ==>
        InBounds(l, src, refs[j]) && (l.hq[refs[j].pdf] <==> HqPages.Requested(refs[j].pdf, src.pdfPages, ns))
  {
    SelectedPagesInBounds(l, src, skip, stop);
    var refs := SelectPages(|src.words|, skip, stop);
    forall j | 0 <= j < |refs|
      ensures l.hq[refs[j].pdf] <==> HqPages.Requested(refs[j].pdf, src.pdfPages, ns)
    {
      HqPages.HqVectorCharacterised(src.pdfPages, ns, refs[j].pdf);
    }
  }
}

=== FILE: page_process.dfy ===
/**
 The body of the page loop of `insert_images_mrc` for one loaded page: the
 per-page choice of slopes and background downsample, the bypass for
 bilevel pages, and for every other page the decomposition, the encode and
 the insertion of the background, then the foreground under the mask. The
 temporary files are removed after insertion.
 */
module PageProcess {
  import opened Base
  import opened Masks
  import opened Kernels
  import opened HocrMask
  import opened Components
  import opened Encoder

  /** The arguments of `insert_images_mrc` that every page shares. */
  datatype Settings = Settings(
    bgSlope: Option<int>, fgSlope: Option<int>,
    hqBgSlope: Option<int>, hqFgSlope: Option<int>,
    downsample: Option<int>, bgDownsample: Option<int>,
    denoise: bool, jbig2: bool, codec: Codec, dir: string)

  /** Settings the word pass can scale boxes with: a `downsample` other than 0. */
  predicate ValidSettings(cfg: Settings) {
    ValidDownsample(cfg.downsample)
  }

  /** The slopes and background downsample one page is encoded with. */
  datatype Profile = Profile(bgSlope: Option<int>, fgSlope: Option<int>, bgDownsample: Option<int>)

  function PageProfile(cfg: Settings, hq: bool): Profile {
    if hq then Profile(cfg.hqBgSlope, cfg.hqFgSlope, None)
    else Profile(cfg.bgSlope, cfg.fgSlope, cfg.bgDownsample)
  }

  /** The background of a page that is not HQ is downsampled: a factor is given, it is not 0, and the page is not too small. */
  predicate Shrinks(cfg: Settings, hq: bool, w: nat, h: nat) {
    !hq && cfg.bgDownsample.Some? && cfg.bgDownsample.value != 0 && !TooSmall(w, h, cfg.bgDownsample.value)
  }

  /** The background of a page that is not HQ is too small to downsample, which adds `TOO_SMALL_TO_DOWNSAMPLE`. */
  predicate Warns(cfg: Settings, hq: bool, w: nat, h: nat) {
    !hq && cfg.bgDownsample.Some? && cfg.bgDownsample.value != 0 && TooSmall(w, h, cfg.bgDownsample.value)
  }

  /** One `page.insert_image` call: the stream, the mask stream, `overlay`, and the declared size. */
  datatype Insertion = Insertion(stream: Content, mask: Option<Content>, overlay: bool, width: nat, height: nat)

  /** What one page contributes: its insertions in order, and the error set afterwards. */
  datatype PageOut = PageOut(inserts: seq<Insertion>, errors: set<Code>)

  /** `np.array(image)` of a mode '1' image: set where the pixel is white. */
  function BilevelMask(p: Page): (m: Mask)
    requires WellFormedPage(p) && p.mode == Bilevel
    ensures SameShape(p.pixels, m)
  {
    seq(|p.pixels|, y requires 0 <= y < |p.pixels| =>
      seq(|p.pixels[y]|, x requires 0 <= x < |p.pixels[y]| => p.pixels[y][x][0] != 0))
  }

  /** Adding two fresh files and removing both leaves the files as they were. */
  lemma AddTwoRemoveTwo(m: map<Path, Content>, a: Path, ca: Content, b: Path, cb: Content)
    requires a !in m && b !in m && a != b
    ensures m[a := ca][b := cb] - {b} - {a} == m
  {
  }

  lemma AddThreeRemoveThree(m: map<Path, Content>, a: Path, ca: Content, b: Path, cb: Content, c: Path, cc: Content)
    requires a !in m && b !in m && c !in m && a != b && a != c && b != c
    ensures m[a := ca][b := cb][c := cc] - {a} - {c} - {b} == m
  {
  }

  /** What the bilevel bypass inserts: the JBIG2 output with `jbig2`, the PNG of the page otherwise. */
  function BilevelStream(s: Scratch, cfg: Settings, p: Page): Content
    requires WellFormedPage(p) && p.mode == Bilevel
  {
    if cfg.jbig2 then ProgramOutput(Jbig2Argv(MaskPng(s, cfg.dir))) else MaskFile(BilevelMask(p))
  }

  /**
   A mode '1' page is not decomposed: only the mask encode runs, on the page
   itself; the inserted stream is the JBIG2 file with `jbig2` and the PNG
   otherwise; both files are removed, so none is left behind.
   */
  function BilevelPage(run: Runner, s: Scratch, cfg: Settings, p: Page, errors: set<Code>): (r: Outcome<PageOut>)
    requires Valid(s) && WellFormedPage(p) && p.mode == Bilevel
    ensures Valid(r.scratch)
    ensures r.scratch.calls == EncodeMask(run, s, cfg.dir, BilevelMask(p), cfg.jbig2).scratch.calls
    ensures r.result.Ok? <==> !cfg.jbig2 || run(Jbig2Argv(MaskPng(s, cfg.dir))) == 0
    ensures r.result.Ok? ==> r.scratch.files == s.files
    ensures r.result.Ok? ==>
      r.result.value == PageOut([Insertion(BilevelStream(s, cfg, p), None, true, Width(p.pixels), |p.pixels|)], errors)
  {
    var mask := BilevelMask(p);
    var m := EncodeMask(run, s, cfg.dir, mask, cfg.jbig2);
    if m.result.Err? then Outcome(m.scratch, Err(m.result.fault))
    else
      var png := m.result.value.1;
      assert png == MaskPng(s, cfg.dir) && png !in s.files;
      var size := (Width(p.pixels), |p.pixels|);
      if cfg.jbig2 then
        var jb := m.result.value.0.value;
        var contents := m.scratch.files[jb];
        assert jb == MaskJbig2(s, cfg.dir) && jb !in s.files && jb != png;
        assert contents == BilevelStream(s, cfg, p);
        Outcome(RemoveTwo(m.scratch, s.files, png, MaskFile(mask), jb, contents),
                Ok(PageOut([Insertion(contents, None, true, size.0, size.1)], errors)))
      else
        var contents := m.scratch.files[png];
        assert contents == BilevelStream(s, cfg, p);
        AddThenRemove(s.files, png, contents);
        Outcome(Remove(m.scratch, png), Ok(PageOut([Insertion(contents, None, true, size.0, size.1)], errors)))
  }

  /** Removing the two files a step added restores the files from before it. */
  function RemoveTwo(t: Scratch, before: map<Path, Content>, a: Path, ca: Content, b: Path, cb: Content): (r: Scratch)
    requires Valid(t) && t.files == before[a := ca][b := cb]
    requires a !in before && b !in before && a != b
    ensures Valid(r) && r.files == before && r.calls == t.calls
  {
    AddTwoRemoveTwo(before, a, ca, b, cb);
    Remove(Remove(t, b), a)
  }

  /** The three layers of a non-bilevel page under its profile. */
  function PageComponents(k: Kernels, cfg: Settings, p: Page, paras: seq<Paragraph>, hq: bool, errors: set<Code>): Components
    requires WellFormedPage(p) && ValidSettings(cfg)
  {
    MrcComponents(k, p, paras, cfg.downsample, PageProfile(cfg, hq).bgDownsample, cfg.denoise, errors)
  }

  /**
   The two insertions of an MRC page: the background codec output, not as
   overlay and without mask, at the background's size; then the foreground
   codec output as overlay under the mask file, at the foreground's size.
   */
  function LayerInserts(s: Scratch, dir: string, mask: Mask, fg: Image, bg: Image,
                        bgSlope: Option<int>, fgSlope: Option<int>, jbig2: bool, codec: Codec): seq<Insertion>
  {
    var maskC := if jbig2 then ProgramOutput(Jbig2Argv(MaskPng(s, dir))) else MaskFile(mask);
    [Insertion(ProgramOutput(BackgroundArgv(s, dir, jbig2, codec, bgSlope)), None, false, Width(bg), |bg|),
     Insertion(ProgramOutput(ForegroundArgv(s, dir, jbig2, codec, fgSlope)), Some(maskC), true, Width(fg), |fg|)]
  }

  /**
   After the encode: insert the background without mask and not as overlay,
   then the foreground with the mask as overlay, then remove the three files
   the encode left, restoring the files from before it.
   */
  function RemoveEncoded(t: Scratch, v: Encoded, before: map<Path, Content>,
                         maskC: Content, fgC: Content, bgC: Content, errors: set<Code>): (r: Outcome<PageOut>)
    requires Valid(t) && t.files == before[v.mask := maskC][v.fg := fgC][v.bg := bgC]
    requires v.mask !in before && v.fg !in before && v.bg !in before
    requires v.mask != v.fg && v.mask != v.bg && v.fg != v.bg
    ensures Valid(r.scratch) && r.scratch.calls == t.calls && r.scratch.files == before
    ensures r.result == Ok(PageOut([Insertion(bgC, None, false, v.bgSize.0, v.bgSize.1),
                                    Insertion(fgC, Some(maskC), true, v.fgSize.0, v.fgSize.1)], errors))
  {
    AddThreeRemoveThree(before, v.mask, maskC, v.fg, fgC, v.bg, bgC);
    var inserts := [Insertion(t.files[v.bg], None, false, v.bgSize.0, v.bgSize.1),
                    Insertion(t.files[v.fg], Some(t.files[v.mask]), true, v.fgSize.0, v.fgSize.1)];
    var s1 := Remove(t, v.mask);
    var s2 := Remove(s1, v.bg);
    Outcome(Remove(s2, v.fg), Ok(PageOut(inserts, errors)))
  }

  /**
   Encode the three layers, insert the background without mask and not as
   overlay, then the foreground with the mask as overlay, then remove the
   three files.
   */
  function InsertLayers(run: Runner, s: Scratch, dir: string, mask: Mask, fg: Image, bg: Image,
                        bgSlope: Option<int>, fgSlope: Option<int>, jbig2: bool, codec: Codec,
                        errors: set<Code>): (r: Outcome<PageOut>)
    requires Valid(s)
    ensures Valid(r.scratch)
    ensures r.scratch.calls == EncodeImages(run, s, dir, mask, fg, bg, bgSlope, fgSlope, jbig2, codec).scratch.calls
    ensures r.result.Ok? <==> EncodeImages(run, s, dir, mask, fg, bg, bgSlope, fgSlope, jbig2, codec).result.Ok?
    ensures r.result.Ok? ==> r.scratch.files == s.files
    ensures r.result.Ok? ==> r.result.value == PageOut(LayerInserts(s, dir, mask, fg, bg, bgSlope, fgSlope, jbig2, codec), errors)
  {
    var e := EncodeImages(run, s, dir, mask, fg, bg, bgSlope, fgSlope, jbig2, codec);
    if e.result.Err? then Outcome(e.scratch, Err(e.result.fault))
    else
      var v := e.result.value;
      var fgC := ProgramOutput(ForegroundArgv(s, dir, jbig2, codec, fgSlope));
      var bgC := ProgramOutput(BackgroundArgv(s, dir, jbig2, codec, bgSlope));
      var maskC := if jbig2 then ProgramOutput(Jbig2Argv(MaskPng(s, dir))) else MaskFile(mask);
      EncodedPaths(run, s, dir, mask, fg, bg, bgSlope, fgSlope, jbig2, codec);
      EncodedFiles(run, s, dir, mask, fg, bg, bgSlope, fgSlope, jbig2, codec);
      assert v.mask.id < v.fg.id < v.bg.id && s.next <= v.mask.id;
      RemoveEncoded(e.scratch, v, s.files, maskC, fgC, bgC, errors)
  }

  /**
   A page of any other mode: decompose under the page's profile, then encode
   and insert the layers. A background downsample of 0 on a page that is
   not HQ raises once the background is asked for, after the mask and the
   foreground are encoded.
   */
  function MrcPage(k: Kernels, run: Runner, s: Scratch, cfg: Settings, p: Page, paras: seq<Paragraph>,
                   hq: bool, errors: set<Code>): (r: Outcome<PageOut>)
    requires Valid(s) && WellFormedPage(p) && ValidSettings(cfg)
    ensures Valid(r.scratch)
    ensures r.result.Ok? ==> r.scratch.files == s.files
    ensures !hq && ZeroFactor(cfg.bgDownsample) ==> r.result.Err?
  {
    var c := PageComponents(k, cfg, p, paras, hq, errors);
    var prof := PageProfile(cfg, hq);
    if c.fault.Some? then
      var e := EncodeImagesBackgroundRaises(run, s, cfg.dir, c.layers[0].mask, c.layers[1].pixels,
                                            prof.fgSlope, cfg.jbig2, cfg.codec);
      Outcome(e.scratch, Err(e.result.fault))
    else
      InsertLayers(run, s, cfg.dir, c.layers[0].mask, c.layers[1].pixels, c.layers[2].pixels,
                   prof.bgSlope, prof.fgSlope, cfg.jbig2, cfg.codec, c.errors)
  }

  /**
   A page that is not HQ, under a background downsample of 0: the mask and
   the foreground are encoded as `encode_mrc_images` would, and the page
   then fails with `ZeroDivisionError` unless a program failed first; the
   files of those encodes are left behind.
   */
  lemma ZeroFactorPage(k: Kernels, run: Runner, s: Scratch, cfg: Settings, p: Page, paras: seq<Paragraph>,
                       errors: set<Code>)
    requires Valid(s) && WellFormedPage(p) && ValidSettings(cfg) && p.mode != Bilevel && ZeroFactor(cfg.bgDownsample)
    ensures var r := ProcessPage(k, run, s, cfg, p, paras, false, errors);
      var final := FinalMask(k, p, paras, cfg.downsample, cfg.denoise);
      var fg := FillLayer(k, p.mode == Luminance, final, p.pixels, ForegroundRadius);
      var e := EncodeImagesBackgroundRaises(run, s, cfg.dir, final, fg, cfg.fgSlope, cfg.jbig2, cfg.codec);
      && r.scratch == e.scratch && r.result.Err? && r.result.fault == e.result.fault
      && (r.result.fault == ZeroDivision <==>
           (!cfg.jbig2 || run(Jbig2Argv(MaskPng(s, cfg.dir))) == 0)
           && run(ForegroundArgv(s, cfg.dir, cfg.jbig2, cfg.codec, cfg.fgSlope)) == 0)
  {
    var final := FinalMask(k, p, paras, cfg.downsample, cfg.denoise);
    var fg := FillLayer(k, p.mode == Luminance, final, p.pixels, ForegroundRadius);
    var c := PageComponents(k, cfg, p, paras, false, errors);
    assert c.fault.Some? && c.layers[0].mask == final && c.layers[1].pixels == fg;
    BackgroundRaisesWhen(run, s, cfg.dir, final, fg, cfg.fgSlope, cfg.jbig2, cfg.codec);
    BackgroundRaisesFiles(run, s, cfg.dir, final, fg, cfg.fgSlope, cfg.jbig2, cfg.codec);
  }

  /**
   An MRC page under its profile. An HQ page's layers are encoded with the
   HQ slopes and its background keeps the page size, so it never adds
   `TOO_SMALL_TO_DOWNSAMPLE`; any other page uses the normal slopes and the
   background downsample. The mask stream is the final mask (or its JBIG2
   encode) and the foreground has the page size.
   */
  lemma MrcPageInserts(k: Kernels, run: Runner, s: Scratch, cfg: Settings, p: Page, paras: seq<Paragraph>,
                       hq: bool, errors: set<Code>)
    requires Valid(s) && WellFormedPage(p) && ValidSettings(cfg)
    ensures var r := MrcPage(k, run, s, cfg, p, paras, hq, errors);
      var w := Width(p.pixels);
      var h := |p.pixels|;
      var bgSlope := if hq then cfg.hqBgSlope else cfg.bgSlope;
      var fgSlope := if hq then cfg.hqFgSlope else cfg.fgSlope;
      var final := FinalMask(k, p, paras, cfg.downsample, cfg.denoise);
      var shrink := Shrinks(cfg, hq, w, h);
      r.result.Ok? ==>
      && |r.result.value.inserts| == 2
      && r.result.value.inserts[0] == Insertion(ProgramOutput(BackgroundArgv(s, cfg.dir, cfg.jbig2, cfg.codec, bgSlope)), None, false,
           if shrink then TruncDiv(w, cfg.bgDownsample.value) else w,
           if shrink then TruncDiv(h, cfg.bgDownsample.value) else h)
      && r.result.value.inserts[1] == Insertion(ProgramOutput(ForegroundArgv(s, cfg.dir, cfg.jbig2, cfg.codec, fgSlope)),
           Some(if cfg.jbig2 then ProgramOutput(Jbig2Argv(MaskPng(s, cfg.dir))) else MaskFile(final)), true, w, h)
      && r.result.value.errors == (if Warns(cfg, hq, w, h) then errors + {TooSmallToDownsample} else errors)
  {
    var c := PageComponents(k, cfg, p, paras, hq, errors);
    var prof := PageProfile(cfg, hq);
    var r := MrcPage(k, run, s, cfg, p, paras, hq, errors);
    LayerSizes(k, cfg, p, paras, hq, errors);
    if c.fault.None? {
      assert r == InsertLayers(run, s, cfg.dir, c.layers[0].mask, c.layers[1].pixels, c.layers[2].pixels,
                               prof.bgSlope, prof.fgSlope, cfg.jbig2, cfg.codec, c.errors);
    }
  }

  /**
   The yielded layers under the page's profile: the mask and the foreground
   at the page size; then, unless a page that is not HQ has a background
   downsample of 0 (which raises instead), the background at the page size
   or downsampled.
   */
  lemma LayerSizes(k: Kernels, cfg: Settings, p: Page, paras: seq<Paragraph>, hq: bool, errors: set<Code>)
    requires WellFormedPage(p) && ValidSettings(cfg)
    ensures var c := PageComponents(k, cfg, p, paras, hq, errors);
      var w := Width(p.pixels);
      var h := |p.pixels|;
      var shrink := Shrinks(cfg, hq, w, h);
      && |c.layers| >= 2
      && c.layers[0].MaskLayer? && c.layers[1].ForegroundLayer?
      && c.layers[0].mask == FinalMask(k, p, paras, cfg.downsample, cfg.denoise)
      && Width(c.layers[1].pixels) == w && |c.layers[1].pixels| == h
      && (c.fault.Some? <==> !hq && ZeroFactor(cfg.bgDownsample))
      && (c.fault.Some? ==> c.fault == Some(ZeroDivision) && |c.layers| == 2 && c.errors == errors)
      && (c.fault.None? ==>
           && |c.layers| == 3 && c.layers[2].BackgroundLayer?
           && Width(c.layers[2].pixels) == (if shrink then TruncDiv(w, cfg.bgDownsample.value) else w)
           && |c.layers[2].pixels| == (if shrink then TruncDiv(h, cfg.bgDownsample.value) else h)
           && c.errors == (if Warns(cfg, hq, w, h) then errors + {TooSmallToDownsample} else errors))
  {
    var c := PageComponents(k, cfg, p, paras, hq, errors);
    assert SameShape(p.pixels, c.layers[1].pixels);
    var prof := PageProfile(cfg, hq);
    if prof.bgDownsample.None? || (!ZeroFactor(prof.bgDownsample) && TooSmall(Width(p.pixels), |p.pixels|, prof.bgDownsample.value)) {
      assert SameShape(p.pixels, c.layers[2].pixels);
    }
  }

  /**
   The programs an MRC page runs, in order: the JBIG2 encoder (with
   `jbig2`), then the foreground and the background encodes with the
   slopes of the page's profile.
   */
  lemma MrcPageCalls(k: Kernels, run: Runner, s: Scratch, cfg: Settings, p: Page, paras: seq<Paragraph>,
                     hq: bool, errors: set<Code>)
    requires Valid(s) && WellFormedPage(p) && ValidSettings(cfg)
    ensures var r := MrcPage(k, run, s, cfg, p, paras, hq, errors);
      var bgSlope := if hq then cfg.hqBgSlope else cfg.bgSlope;
      var fgSlope := if hq then cfg.hqFgSlope else cfg.fgSlope;
      r.result.Ok? ==>
      && |r.scratch.calls| >= |s.calls| && r.scratch.calls[..|s.calls|] == s.calls
      && Argvs(r.scratch.calls[|s.calls|..])
         == (if cfg.jbig2 then [Jbig2Argv(MaskPng(s, cfg.dir))] else [])
            + [ForegroundArgv(s, cfg.dir, cfg.jbig2, cfg.codec, fgSlope), BackgroundArgv(s, cfg.dir, cfg.jbig2, cfg.codec, bgSlope)]
  {
    var c := PageComponents(k, cfg, p, paras, hq, errors);
    var prof := PageProfile(cfg, hq);
    if c.fault.None? {
      EncodedCalls(run, s, cfg.dir, c.layers[0].mask, c.layers[1].pixels, c.layers[2].pixels,
                   prof.bgSlope, prof.fgSlope, cfg.jbig2, cfg.codec);
    }
  }

  /** The page body: the bilevel bypass for mode '1', the MRC path otherwise. */
  function ProcessPage(k: Kernels, run: Runner, s: Scratch, cfg: Settings, p: Page, paras: seq<Paragraph>,
                       hq: bool, errors: set<Code>): (r: Outcome<PageOut>)
    requires Valid(s) && WellFormedPage(p) && ValidSettings(cfg)
    ensures Valid(r.scratch)
    ensures r.result.Ok? ==> r.scratch.files == s.files
  {
    if p.mode == Bilevel then BilevelPage(run, s, cfg, p, errors)
    else MrcPage(k, run, s, cfg, p, paras, hq, errors)
  }

  /**
   What a processed page inserts, whatever the temporary files are called:
   a mode '1' page is one overlay of its own size, carrying the page itself
   when not JBIG2-encoded; any other page is the background (no mask, not
   an overlay, downsampled when asked and not too small), then the
   foreground of the page's size under the final mask.
   */
  predicate Layout(k: Kernels, cfg: Settings, p: Page, paras: seq<Paragraph>, hq: bool, inserts: seq<Insertion>)
    requires WellFormedPage(p) && ValidSettings(cfg)
  {
    var w := Width(p.pixels);
    var h := |p.pixels|;
    if p.mode == Bilevel then
      && |inserts| == 1
      && inserts[0].mask.None? && inserts[0].overlay && inserts[0].width == w && inserts[0].height == h
      && (!cfg.jbig2 ==> inserts[0].stream == MaskFile(BilevelMask(p)))
    else
      var shrink := Shrinks(cfg, hq, w, h);
      && |inserts| == 2
      && inserts[0].mask.None? && !inserts[0].overlay
      && inserts[0].width == (if shrink then TruncDiv(w, cfg.bgDownsample.value) else w)
      && inserts[0].height == (if shrink then TruncDiv(h, cfg.bgDownsample.value) else h)
      && inserts[1].mask.Some? && inserts[1].overlay && inserts[1].width == w && inserts[1].height == h
      && (!cfg.jbig2 ==> inserts[1].mask.value == MaskFile(FinalMask(k, p, paras, cfg.downsample, cfg.denoise)))
  }

  /** Every successful page body inserts the layout of its page. */
  lemma ProcessPageLayout(k: Kernels, run: Runner, s: Scratch, cfg: Settings, p: Page, paras: seq<Paragraph>,
                          hq: bool, errors: set<Code>)
    requires Valid(s) && WellFormedPage(p) && ValidSettings(cfg)
    ensures var r := ProcessPage(k, run, s, cfg, p, paras, hq, errors);
      r.result.Ok? ==> Layout(k, cfg, p, paras, hq, r.result.value.inserts)
  {
    if p.mode != Bilevel {
      MrcPageInserts(k, run, s, cfg, p, paras, hq, errors);
    }
  }
}

=== FILE: page_select.dfy ===
/**
 Which pages the page loops of recode.py process. The loops walk the hOCR
 pages in order, skip the pages scandata marks as skipped, number the
 remaining ones consecutively as PDF pages, take the image file at the
 unadjusted hOCR index, and stop at the first PDF index that reaches
 `stop_after`. `recode` hands both loops `stop_after - 1`.
 */
module PageSelect {
  import opened Base

  /** One processed page: its hOCR index, its PDF page index and its image file index. */
  datatype PageRef = PageRef(hocr: nat, pdf: nat, image: nat)

  /**
   The loop from hOCR index `i` on, `skipped` pages having been skipped
   before it, over `n` hOCR pages.
   */
  function SelectFrom(i: nat, skipped: nat, n: nat, skip: set<int>, stop: Option<int>): seq<PageRef>
    requires skipped <= i
    decreases n - i
  {
    if i >= n then []
    else if i in skip then SelectFrom(i + 1, skipped + 1, n, skip, stop)
    else
      var idx := i - skipped;
      if stop.Some? && idx >= stop.value then []
      else [PageRef(i, idx, idx + skipped)] + SelectFrom(i + 1, skipped, n, skip, stop)
  }

  /** The pages the loop over `n` hOCR pages processes. */
  function SelectPages(n: nat, skip: set<int>, stop: Option<int>): seq<PageRef> {
    SelectFrom(0, 0, n, skip, stop)
  }

  /** Reference definition: the hOCR indices below `n` that are not skipped, in increasing order. */
  function Kept(n: nat, skip: set<int>): seq<nat> {
    if n == 0 then [] else Kept(n - 1, skip) + (if n - 1 in skip then [] else [n - 1])
  }

  /** How many of `m` candidate pages a stop bound lets through. */
  function Limit(stop: Option<int>, m: nat): nat {
    if stop.None? then m
    else if stop.value <= 0 then 0
    else if stop.value < m then stop.value
    else m
  }

  /** `stop = stop_after; if stop is not None: stop -= 1` in `recode`. */
  function RecodeStop(stopAfter: Option<int>): Option<int> {
    match stopAfter
    case None => None
    case Some(s) => Some(s - 1)
  }

  /** The kept indices are exactly the non-skipped indices below `n`, strictly increasing. */
  lemma {:induction false} KeptMembers(n: nat, skip: set<int>)
    ensures forall i :: i in Kept(n, skip) <==> 0 <= i < n && i !in skip
    ensures forall a, b :: 0 <= a < b < |Kept(n, skip)| ==> Kept(n, skip)[a] < Kept(n, skip)[b]
    ensures |Kept(n, skip)| <= n
  {
    if n > 0 {
      KeptMembers(n - 1, skip);
      var ks := Kept(n, skip);
      var init := Kept(n - 1, skip);
      assert ks[..|init|] == init;
      forall i ensures i in ks <==> 0 <= i < n && i !in skip {
        if i in init {
          assert i in ks;
        }
      }
      forall a, b | 0 <= a < b < |ks| ensures ks[a] < ks[b] {
        assert ks[a] == init[a] || a >= |init|;
        if b >= |init| {
          assert ks[b] == n - 1;
          assert a < |init| && ks[a] == init[a] && init[a] in init;
        } else {
          assert ks[b] == init[b];
        }
      }
    }
  }

  /** The kept indices below `i` are a prefix of those below `m`. */
  lemma {:induction false} KeptPrefix(i: nat, m: nat, skip: set<int>)
    requires i <= m
    ensures |Kept(i, skip)| <= |Kept(m, skip)|
    ensures Kept(m, skip)[..|Kept(i, skip)|] == Kept(i, skip)
  {
    if i < m {
      KeptPrefix(i, m - 1, skip);
      var km := Kept(m, skip);
      assert km[..|Kept(m - 1, skip)|] == Kept(m - 1, skip);
    }
  }

  lemma {:induction false} KeptLength(n: nat, skip: set<int>)
    ensures |Kept(n, skip)| <= n
  {
    if n > 0 {
      KeptLength(n - 1, skip);
    }
  }

  /** Positions `lo` up to `hi` of the kept indices as processed pages. */
  function Refs(ks: seq<nat>, lo: nat, hi: nat): seq<PageRef>
    requires hi <= |ks|
    decreases hi - lo
  {
    if lo >= hi then [] else [PageRef(ks[lo], lo, ks[lo])] + Refs(ks, lo + 1, hi)
  }

  lemma {:induction false} RefsElements(ks: seq<nat>, lo: nat, hi: nat)
    requires hi <= |ks|
    ensures |Refs(ks, lo, hi)| == if lo <= hi then hi - lo else 0
    ensures forall j :: 0 <= j < |Refs(ks, lo, hi)| ==>
      Refs(ks, lo, hi)[j] == PageRef(ks[lo + j], lo + j, ks[lo + j])
    decreases hi - lo
  {
    if lo < hi {
      RefsElements(ks, lo + 1, hi);
      var r := Refs(ks, lo, hi);
      var rest := Refs(ks, lo + 1, hi);
      forall j | 0 <= j < |r| ensures r[j] == PageRef(ks[lo + j], lo + j, ks[lo + j]) {
        if j > 0 {
          assert r[j] == rest[j - 1];
        }
      }
    }
  }

  /**
   The loop from `i` on, with the count of skipped pages the loop has at
   `i`, processes the kept pages from position `|Kept(i)|` up to the limit.
   */
  lemma {:induction false} SelectFromKept(i: nat, n: nat, skip: set<int>, stop: Option<int>)
    requires i <= n
    ensures |Kept(i, skip)| <= i
    ensures var c := |Kept(i, skip)|;
      var ks := Kept(n, skip);
      SelectFrom(i, i - c, n, skip, stop) == Refs(ks, c, Limit(stop, |ks|))
    decreases n - i
  {
    KeptLength(i, skip);
    KeptPrefix(i, n, skip);
    var c := |Kept(i, skip)|;
    var ks := Kept(n, skip);
    var lim := Limit(stop, |ks|);
    var r := SelectFrom(i, i - c, n, skip, stop);
    if i == n {
      assert r == [] && lim <= c;
    } else if i in skip {
      assert Kept(i + 1, skip) == Kept(i, skip);
      SelectFromKept(i + 1, n, skip, stop);
      assert r == SelectFrom(i + 1, i + 1 - c, n, skip, stop);
    } else {
      assert Kept(i + 1, skip) == Kept(i, skip) + [i];
      KeptPrefix(i + 1, n, skip);
      assert c < |ks| && ks[c] == i by {
        assert ks[..c + 1] == Kept(i, skip) + [i];
        assert ks[..c + 1][c] == i;
      }
      if stop.Some? && c >= stop.value {
        assert r == [] && lim <= c;
      } else {
        SelectFromKept(i + 1, n, skip, stop);
        assert r == [PageRef(i, c, i)] + SelectFrom(i + 1, i - c, n, skip, stop);
        assert lim > c;
      }
    }
  }

  /**
   The page loop processes, in order, the first `Limit(stop)` non-skipped
   hOCR pages: the `k`-th of them becomes PDF page `k`, and its image file
   is the one at its hOCR index.
   */
  lemma SelectPagesCharacterised(n: nat, skip: set<int>, stop: Option<int>)
    ensures var r := SelectPages(n, skip, stop);
      var ks := Kept(n, skip);
      && |r| == Limit(stop, |ks|)
      && forall k :: 0 <= k < |r| ==> r[k] == PageRef(ks[k], k, ks[k])
  {
    SelectFromKept(0, n, skip, stop);
    KeptLength(n, skip);
    RefsElements(Kept(n, skip), 0, Limit(stop, |Kept(n, skip)|));
  }

  /**
   Consequences for the pages processed: a skipped index never appears,
   PDF indices run consecutively from 0, the image index is the hOCR index,
   and the hOCR indices increase.
   */
  lemma SelectedPages(n: nat, skip: set<int>, stop: Option<int>)
    ensures var r := SelectPages(n, skip, stop);
      && (forall k :: 0 <= k < |r| ==> r[k].hocr < n && r[k].hocr !in skip)
      && (forall k :: 0 <= k < |r| ==> r[k].pdf == k && r[k].image == r[k].hocr)
      && (forall a, b :: 0 <= a < b < |r| ==> r[a].hocr < r[b].hocr)
      && (stop.Some? ==> |r| <= if stop.value < 0 then 0 else stop.value)
  {
    SelectPagesCharacterised(n, skip, stop);
    KeptMembers(n, skip);
    var r := SelectPages(n, skip, stop);
    var ks := Kept(n, skip);
    forall k | 0 <= k < |r| ensures r[k].hocr < n && r[k].hocr !in skip {
      assert r[k].hocr == ks[k] && ks[k] in ks;
    }
  }

  /**
   With `recode`'s adjustment, asking for `s` pages processes `s - 1` of
   them when there are enough, and none when `s <= 1`.
   */
  lemma RecodeStopsOnePageEarly(n: nat, skip: set<int>, s: int)
    ensures var r := SelectPages(n, skip, RecodeStop(Some(s)));
      && (1 <= s <= |Kept(n, skip)| + 1 ==> |r| == s - 1)
      && (s <= 1 ==> |r| == 0)
  {
    SelectPagesCharacterised(n, skip, RecodeStop(Some(s)));
  }

  /** Without a stop bound every non-skipped page is processed. */
  lemma NoStopProcessesAllKept(n: nat, skip: set<int>)
    ensures var r := SelectPages(n, skip, None);
      |r| == |Kept(n, skip)| && forall i :: 0 <= i < n && i !in skip ==> exists k :: 0 <= k < |r| && r[k].hocr == i
  {
    SelectPagesCharacterised(n, skip, None);
    KeptMembers(n, skip);
    var r := SelectPages(n, skip, None);
    var ks := Kept(n, skip);
    forall i | 0 <= i < n && i !in skip ensures exists k :: 0 <= k < |r| && r[k].hocr == i {
      assert i in ks;
      var k :| 0 <= k < |ks| && ks[k] == i;
      assert r[k].hocr == i;
    }
  }
}

=== FILE: report_cadence.dfy ===
/**
 The progress reports of `insert_images_mrc`. After every page the chunk
 counter grows by one; when it is a multiple of `report_every` the timing
 records of the chunk are summarised and cleared, and, only when a reporter
 is configured, a report is sent and the counter starts over. After the last
 page a reporter receives the pages of the unfinished chunk.
 */
module Cadence {
  import opened Base
  import opened Timing

  /** `reporting_page_count` and `timing_data` between pages. */
  datatype Chunk = Chunk(count: nat, timing: seq<Record>)

  /** What a reporter receives: the pages of the chunk and the per-page breakdown. */
  datatype Report = Report(count: nat, breakdown: map<string, int>)

  /** The state of the loop before its first page. */
  const Start: Chunk := Chunk(0, [])

  /** Whether the page that brings the counter to `count` is a report point; `% 0` raises ZeroDivisionError. */
  function IsReportPoint(count: nat, every: Option<int>): Result<bool> {
    match every
    case None => Ok(false)
    case Some(e) => if e == 0 then Err(ZeroDivision) else Ok(count % e == 0)
  }

  /** The end of one page: `page` holds the timing records the page added. */
  function AfterPage(c: Chunk, page: seq<Record>, every: Option<int>, reporter: bool): (r: Result<(Chunk, Option<Report>)>)
    ensures every == Some(0) <==> r.Err? && r.fault == ZeroDivision && IsReportPoint(c.count + 1, every).Err?
    ensures r.Ok? ==> IsReportPoint(c.count + 1, every).Ok?
    ensures r.Ok? && !IsReportPoint(c.count + 1, every).value ==>
      r.value == (Chunk(c.count + 1, c.timing + page), None)
    ensures r.Ok? && IsReportPoint(c.count + 1, every).value ==>
      // the chunk's records are cleared at every report point
      && r.value.0.timing == []
      && Summary(c.timing + page).Ok?
      // the counter starts over and a report goes out only with a reporter
      && (reporter ==> r.value == (Chunk(0, []), Some(Report(c.count + 1, Summary(c.timing + page).value))))
      && (!reporter ==> r.value == (Chunk(c.count + 1, []), None))
  {
    var count := c.count + 1;
    var timing := c.timing + page;
    match IsReportPoint(count, every)
    case Err(f) => Err(f)
    case Ok(fire) =>
      if !fire then Ok((Chunk(count, timing), None))
      else
        match Summary(timing)
        case Err(f) => Err(f)
        case Ok(sum) =>
          if reporter then Ok((Chunk(0, []), Some(Report(count, sum))))
          else Ok((Chunk(count, []), None))
  }

  /** The last report, sent only with a reporter and only when the final chunk is not empty. */
  function FinalReport(c: Chunk, reporter: bool): (r: Result<Option<Report>>)
    ensures r.Ok? && r.value.Some? <==> reporter && c.count != 0 && Summary(c.timing).Ok?
    ensures r.Ok? && r.value.Some? ==> r.value.value == Report(c.count, Summary(c.timing).value)
    ensures r.Err? ==> reporter && c.count != 0
  {
    if reporter && c.count != 0 then
      match Summary(c.timing)
      case Err(f) => Err(f)
      case Ok(sum) => Ok(Some(Report(c.count, sum)))
    else Ok(None)
  }

  /** The chunk state and the reports sent after a run of pages; `pages[i]` is the i-th page's records. */
  function Run(c: Chunk, pages: seq<seq<Record>>, every: Option<int>, reporter: bool): (r: Result<(Chunk, seq<Report>)>)
    ensures r.Ok? ==> |r.value.1| <= |pages|
    ensures r.Ok? && !reporter ==> r.value.1 == []
    ensures every.None? ==> r.Ok? && r.value.1 == [] && r.value.0.count == c.count + |pages|
    ensures every == Some(0) && |pages| > 0 ==> r == Err(ZeroDivision)
  {
    if |pages| == 0 then Ok((c, []))
    else
      match Run(c, pages[..|pages| - 1], every, reporter)
      case Err(f) => Err(f)
      case Ok(prev) =>
        match AfterPage(prev.0, pages[|pages| - 1], every, reporter)
        case Err(f) => Err(f)
        case Ok(next) => Ok((next.0, prev.1 + (if next.1.Some? then [next.1.value] else [])))
  }

  /** The magnitude of `report_every`: Python's `count % e == 0` holds exactly at the multiples of `|e|`. */
  function Period(e: int): nat {
    if e < 0 then -e else e
  }

  lemma ModPeriod(count: nat, e: int)
    requires e != 0
    ensures (count % e == 0) <==> (count % Period(e) == 0)
  {
    if e < 0 {
      var q := count / e;
      var r := count % e;
      assert count == e * q + r;
      assert count == (-e) * (-q) + r;
      ModUnique(count, -e, -q, r);
    }
  }

  lemma MulAtLeast(p: int, d: int)
    requires p > 0 && d >= 1
    ensures p * d >= p
  {
    if d > 1 {
      MulAtLeast(p, d - 1);
      assert p * d == p * (d - 1) + p;
    }
  }

  /** Quotient and remainder are unique. */
  lemma ModUnique(a: int, p: int, q: int, r: int)
    requires p > 0 && 0 <= r < p && a == p * q + r
    ensures a % p == r && a / p == q
  {
    var d := a / p - q;
    assert p * d == r - a % p by {
      assert p * (a / p) - p * q == p * d;
    }
    if d >= 1 {
      MulAtLeast(p, d);
    } else if d <= -1 {
      MulAtLeast(p, -d);
    }
  }

  /**
   One page keeps the two loops in step: with a reporter the counter is the
   count without one, taken modulo `|report_every|`; the records are equal
   and both reach a report point on the same page.
   */
  lemma AfterPageInStep(with: Chunk, without: Chunk, page: seq<Record>, e: int)
    requires e != 0
    requires with.timing == without.timing && with.count == without.count % Period(e)
    ensures var a := AfterPage(with, page, Some(e), true);
      var b := AfterPage(without, page, Some(e), false);
      && (a.Ok? <==> b.Ok?)
      && (a.Ok? ==>
           && a.value.0.timing == b.value.0.timing
           && a.value.0.count == b.value.0.count % Period(e)
           && (a.value.1.Some? <==> IsReportPoint(without.count + 1, Some(e)).value)
           && (a.value.1.Some? ==> a.value.1.value.count == Period(e)))
  {
    var p := Period(e);
    var n := with.count + 1;
    ModPeriod(n, e);
    ModPeriod(without.count + 1, e);
    ModSucc(without.count, p);
    assert with.count < p;
    if n % p == 0 {
      assert n == p by {
        if n < p {
          ModUnique(n, p, 0, n);
        }
      }
    } else {
      assert n < p;
      ModUnique(n, p, 0, n);
      assert (without.count + 1) % p == n;
    }
  }

  lemma ModSucc(n: nat, p: nat)
    requires p > 0
    ensures (n % p + 1) % p == (n + 1) % p
    ensures (n + 1) / p == n / p + (if (n + 1) % p == 0 then 1 else 0)
  {
    var q := n / p;
    var r := n % p;
    assert n == p * q + r;
    if r + 1 < p {
      ModUnique(n + 1, p, q, r + 1);
      ModUnique(r + 1, p, 0, r + 1);
    } else {
      assert n + 1 == p * (q + 1) + 0;
      ModUnique(n + 1, p, q + 1, 0);
      ModUnique(r + 1, p, 1, 0);
    }
  }

  /**
   The report cadence does not depend on the reporter: over any run of
   pages the loops with and without one fail alike, hold the same records,
   and every report covers exactly `|report_every|` pages.
   */
  lemma {:induction false} CadenceIndependentOfReporter(pages: seq<seq<Record>>, e: int)
    requires e != 0
    ensures var a := Run(Start, pages, Some(e), true);
      var b := Run(Start, pages, Some(e), false);
      && (a.Ok? <==> b.Ok?)
      && (a.Ok? ==>
           && a.value.0.timing == b.value.0.timing
           && a.value.0.count == b.value.0.count % Period(e)
           && b.value.0.count == |pages|
           && |a.value.1| == |pages| / Period(e)
           && forall i :: 0 <= i < |a.value.1| ==> a.value.1[i].count == Period(e))
  {
    if |pages| > 0 {
      var init := pages[..|pages| - 1];
      CadenceIndependentOfReporter(init, e);
      var a := Run(Start, init, Some(e), true);
      var b := Run(Start, init, Some(e), false);
      if a.Ok? {
        AfterPageInStep(a.value.0, b.value.0, pages[|pages| - 1], e);
        ModPeriod(|pages|, e);
        ModSucc(|init|, Period(e));
      }
    }
  }
}

=== FILE: threshold.dfy ===
/**
 The thresholding engine of mrc.py: `threshold_image` (local or Otsu cut-off,
 normal or reversed polarity), `threshold_image2` (the word-level AND of the
 two), `threshold_image3` (the page-level Sauvola pass, inverted) and
 `denoise_bregman`.
 */
module Threshold {
  import opened Base
  import opened Masks
  import opened Kernels

  /** `threshold_image`'s default block size. */
  const LocalBlockSize: nat := 9

  /** Parameters `threshold_image3` passes to `binarise_sauvola`. */
  const SauvolaWindow: nat := 51
  const SauvolaK: real := 0.3
  const SauvolaR: int := 128

  /** `denoise_bregman`'s TV weight and rebinarisation cut-off. */
  const TvWeight: real := 1.0
  const TvCutoff: real := 0.4

  /** The strict comparison of `threshold_image`: `img < t`, or `img > t` when reversed. */
  predicate Beyond(v: int, t: real, rev: bool) {
    if rev then v as real > t else (v as real) < t
  }

  /**
   The Otsu cut-off. When `threshold_otsu` raises ValueError the source compares
   against an array of zeros, which is the cut-off 0.
   */
  function OtsuLevel(k: Kernels, img: Gray): real {
    match k.otsu(img)
    case Some(t) => t
    case None => 0.0
  }

  /** The cut-off `threshold_image` compares pixel `(y, x)` against. */
  function Level(k: Kernels, img: Gray, otsu: bool, blockSize: nat, y: nat, x: nat): real {
    if otsu then OtsuLevel(k, img) else k.localThreshold(img, blockSize, y, x)
  }

  /** `threshold_image(img, rev, otsu, block_size)`. */
  function ThresholdImage(k: Kernels, img: Gray, rev: bool, otsu: bool, blockSize: nat): (r: Mask)
    requires Rect(img)
    ensures SameShape(img, r)
    ensures forall y, x {:trigger r[y][x]} :: 0 <= y < |img| && 0 <= x < Width(img) ==>
      r[y][x] == Beyond(img[y][x], Level(k, img, otsu, blockSize, y, x), rev)
  {
    seq(|img|, y requires 0 <= y < |img| =>
      seq(|img[y]|, x requires 0 <= x < |img[y]| =>
        Beyond(img[y][x], Level(k, img, otsu, blockSize, y, x), rev)))
  }

  /**
   `rev` only flips the strict comparison against the same cut-off: no pixel
   is marked by both polarities, and a pixel is marked by one of them exactly
   when it differs from the cut-off.
   */
  lemma ReversalFlipsComparison(k: Kernels, img: Gray, otsu: bool, blockSize: nat)
    requires Rect(img)
    ensures forall y, x :: 0 <= y < |img| && 0 <= x < Width(img) ==>
      var normal := ThresholdImage(k, img, false, otsu, blockSize)[y][x];
      var reversed := ThresholdImage(k, img, true, otsu, blockSize)[y][x];
      !(normal && reversed) &&
      ((normal || reversed) <==> img[y][x] as real != Level(k, img, otsu, blockSize, y, x))
  {
  }

  /**
   When Otsu is undefined (a uniform crop) the cut-off is zero: the normal
   polarity marks no pixel of an 8-bit image, the reversed one marks exactly
   the pixels above zero.
   */
  lemma OtsuFailureMarksNothing(k: Kernels, img: Gray, blockSize: nat)
    requires ByteImage(img) && k.otsu(img).None?
    ensures forall y, x :: 0 <= y < |img| && 0 <= x < Width(img) ==>
      !ThresholdImage(k, img, false, true, blockSize)[y][x]
    ensures forall y, x :: 0 <= y < |img| && 0 <= x < Width(img) ==>
      (ThresholdImage(k, img, true, true, blockSize)[y][x] <==> img[y][x] > 0)
  {
  }

  /**
   `threshold_image2`: the word-level threshold is the intersection of the
   local and the Otsu results on the same crop, both in normal polarity.
   */
  function ThresholdImage2(k: Kernels, img: Gray): (r: Mask)
    requires Rect(img)
    ensures SameShape(img, r)
    ensures forall y, x {:trigger r[y][x]} :: 0 <= y < |img| && 0 <= x < Width(img) ==>
      (r[y][x] <==> (img[y][x] as real) < k.localThreshold(img, LocalBlockSize, y, x)
                    && (img[y][x] as real) < OtsuLevel(k, img))
  {
    And(ThresholdImage(k, img, false, false, LocalBlockSize), ThresholdImage(k, img, false, true, LocalBlockSize))
  }

  /** The word-level threshold never marks more than either of its two parts. */
  lemma ThresholdImage2WithinParts(k: Kernels, img: Gray)
    requires Rect(img)
    ensures Subset(ThresholdImage2(k, img), ThresholdImage(k, img, false, false, LocalBlockSize))
    ensures Subset(ThresholdImage2(k, img), ThresholdImage(k, img, false, true, LocalBlockSize))
  {
  }

  /** The raw output of `binarise_sauvola(img, 51, 51, 0.3, 128)`. */
  function SauvolaMask(k: Kernels, img: Gray): (r: Mask)
    requires Rect(img)
    ensures SameShape(img, r)
    ensures forall y, x {:trigger r[y][x]} :: 0 <= y < |img| && 0 <= x < Width(img) ==>
      r[y][x] == k.sauvola(img, SauvolaWindow, SauvolaK, SauvolaR, y, x)
  {
    seq(|img|, y requires 0 <= y < |img| =>
      seq(|img[y]|, x requires 0 <= x < |img[y]| => k.sauvola(img, SauvolaWindow, SauvolaK, SauvolaR, y, x)))
  }

  /** `threshold_image3`: the page pass is the complement of the Sauvola output. */
  function ThresholdImage3(k: Kernels, img: Gray): (r: Mask)
    requires Rect(img)
    ensures SameShape(img, r)
    ensures forall y, x {:trigger r[y][x]} :: 0 <= y < |img| && 0 <= x < Width(img) ==>
      (r[y][x] <==> !k.sauvola(img, SauvolaWindow, SauvolaK, SauvolaR, y, x))
  {
    Not(SauvolaMask(k, img))
  }

  /** `denoise_bregman`: TV-Bregman with weight 1 on the mask as floats, kept where above 0.4. */
  function DenoiseBregman(k: Kernels, m: Mask): (r: Mask)
    requires Rect(m)
    ensures SameShape(m, r)
    ensures forall y, x {:trigger r[y][x]} :: 0 <= y < |m| && 0 <= x < Width(m) ==>
      (r[y][x] <==> k.tvBregman(m, TvWeight, y, x) > TvCutoff)
  {
    seq(|m|, y requires 0 <= y < |m| =>
      seq(|m[y]|, x requires 0 <= x < |m[y]| => k.tvBregman(m, TvWeight, y, x) > TvCutoff))
  }

  /** `np.invert` of a uint8 image: every value `v` becomes `255 - v`. */
  function InvertGray(img: Gray): (r: Gray)
    requires Rect(img)
    ensures SameShape(img, r)
    ensures forall y, x {:trigger r[y][x]} :: 0 <= y < |img| && 0 <= x < Width(img) ==> r[y][x] + img[y][x] == 255
  {
    seq(|img|, y requires 0 <= y < |img| =>
      seq(|img[y]|, x requires 0 <= x < |img[y]| => 255 - img[y][x]))
  }

  /** Inverting twice restores the crop, and inversion keeps values in the byte range. */
  lemma InvertGrayInvolutive(img: Gray)
    requires ByteImage(img)
    ensures ByteImage(InvertGray(img))
    ensures InvertGray(InvertGray(img)) == img
  {
    var r := InvertGray(InvertGray(img));
    forall y | 0 <= y < |img|
      ensures r[y] == img[y]
    {
      assert |r[y]| == |img[y]| == Width(img);
    }
  }
}

=== FILE: threshold_mask.dfy ===
/**
 `create_threshold_mask` of mrc.py: the coarse page-level pass. The page is
 blurred only when its noise estimate exceeds 1.0, thresholded by the
 inverted Sauvola pass, optionally TV-denoised, and then ORed into the
 word-level mask, so the pass can only add pixels.
 */
module ThresholdMask {
  import opened Base
  import opened Masks
  import opened Kernels
  import opened Threshold

  /** Above this page noise estimate the page is blurred before thresholding. */
  const BlurFloor: real := 1.0
  /** The blur's sigma is this fraction of the page noise estimate. */
  const BlurScale: real := 0.1
  /** Above this noise estimate of the thresholded page the optional denoise runs. */
  const DenoiseFloor: real := 0.1

  /** `np.array(img, dtype=np.float32)` of an 8-bit image. */
  function ToFloat(g: Gray): (f: FloatGray)
    requires Rect(g)
    ensures SameShape(g, f)
    ensures forall y, x :: 0 <= y < |g| && 0 <= x < Width(g) ==> f[y][x] == g[y][x] as real
  {
    seq(|g|, y requires 0 <= y < |g| => seq(|g[y]|, x requires 0 <= x < |g[y]| => g[y][x] as real))
  }

  /** `ndimage.filters.gaussian_filter(f, sigma)`. */
  function Blur(k: Kernels, f: FloatGray, sigma: real): (r: FloatGray)
    requires Rect(f)
    ensures SameShape(f, r)
  {
    seq(|f|, y requires 0 <= y < |f| => seq(|f[y]|, x requires 0 <= x < |f[y]| => k.gaussian(f, sigma, y, x)))
  }

  /** numpy's float-to-uint8 cast: truncation toward zero, then wrap-around modulo 256. */
  function ByteCast(r: real): (v: int)
    ensures IsByte(v)
    ensures 0.0 <= r < 256.0 ==> v == r.Floor
  {
    TruncReal(r) % 256
  }

  /** `f.astype(np.uint8)`. */
  function ToUint8(f: FloatGray): (g: Gray)
    requires Rect(f)
    ensures SameShape(f, g) && ByteImage(g)
    ensures forall y, x :: 0 <= y < |f| && 0 <= x < Width(f) ==> g[y][x] == ByteCast(f[y][x])
  {
    seq(|f|, y requires 0 <= y < |f| => seq(|f[y]|, x requires 0 <= x < |f[y]| => ByteCast(f[y][x])))
  }

  /** The page after the conditional pre-threshold blur. */
  function Smoothed(k: Kernels, f: FloatGray): (r: FloatGray)
    requires Rect(f)
    ensures SameShape(f, r)
  {
    var sigma := k.graySigma(f);
    if sigma > BlurFloor then Blur(k, f, sigma * BlurScale) else f
  }

  /** The inverted Sauvola pass over the (possibly blurred) page. */
  function RawPass(k: Kernels, f: FloatGray): (r: Mask)
    requires Rect(f)
    ensures SameShape(f, r)
  {
    ThresholdImage3(k, ToUint8(Smoothed(k, f)))
  }

  /** The page pass and the timing stages it logs, in order. */
  datatype Pass = Pass(bits: Mask, stages: seq<string>)

  /** `thres_arr` of `create_threshold_mask`, before it is ORed into the mask. */
  function PagePass(k: Kernels, f: FloatGray, denoise: bool): (p: Pass)
    requires Rect(f)
    ensures SameShape(f, p.bits)
    ensures "blur_1" in p.stages <==> k.graySigma(f) > BlurFloor
    ensures "est_3" in p.stages <==> denoise
    ensures "denoise" in p.stages <==> denoise && k.maskSigma(RawPass(k, f)) > DenoiseFloor
    ensures "denoise" !in p.stages ==>
      forall y, x :: 0 <= y < |f| && 0 <= x < Width(f) ==>
        (p.bits[y][x] <==> !k.sauvola(ToUint8(Smoothed(k, f)), SauvolaWindow, SauvolaK, SauvolaR, y, x))
    ensures "denoise" in p.stages ==>
      forall y, x :: 0 <= y < |f| && 0 <= x < Width(f) ==>
        (p.bits[y][x] <==> k.tvBregman(RawPass(k, f), TvWeight, y, x) > TvCutoff)
  {
    var sigma := k.graySigma(f);
    var blurStages := if sigma > BlurFloor then ["blur_1"] else [];
    var raw := RawPass(k, f);
    if denoise then
      var sigma3 := k.maskSigma(raw);
      if sigma3 > DenoiseFloor then
        Pass(DenoiseBregman(k, raw), ["est_1"] + blurStages + ["threshold", "est_3", "denoise"])
      else
        Pass(raw, ["est_1"] + blurStages + ["threshold", "est_3"])
    else
      Pass(raw, ["est_1"] + blurStages + ["threshold"])
  }

  /** `create_threshold_mask(mask_arr, imgf, denoise_mask)`: the new mask and the logged stages. */
  function CreateThresholdMask(k: Kernels, m: Mask, f: FloatGray, denoise: bool): (r: Pass)
    requires SameShape(f, m)
    ensures SameShape(f, r.bits)
    ensures Subset(m, r.bits)
    ensures Subset(PagePass(k, f, denoise).bits, r.bits)
    ensures forall y, x :: 0 <= y < |f| && 0 <= x < Width(f) ==>
      (r.bits[y][x] <==> m[y][x] || PagePass(k, f, denoise).bits[y][x])
    ensures r.stages == PagePass(k, f, denoise).stages
  {
    var p := PagePass(k, f, denoise);
    Pass(Or(m, p.bits), p.stages)
  }
}

=== FILE: timing.dfy ===
/**
 `get_timing_summary` of recode.py: the per-stage timing records of a chunk
 of pages are summed by stage name, divided by the number of `image_load`
 records (one per page) and reported in whole milliseconds.
 */
module Timing {
  import opened Base

  /** One `(stage, seconds)` entry of `timing_data`. */
  datatype Record = Record(stage: string, seconds: real)

  /** The stage that is recorded once per page. */
  const ImageLoad: string := "image_load"

  /** The stage names that occur in `data`. */
  function Names(data: seq<Record>): set<string> {
    set i | 0 <= i < |data| :: data[i].stage
  }

  /** The total time recorded under `stage`. */
  function Total(data: seq<Record>, stage: string): real {
    if |data| == 0 then 0.0
    else Total(data[..|data| - 1], stage) + (if data[|data| - 1].stage == stage then data[|data| - 1].seconds else 0.0)
  }

  /** How many records carry `stage`. */
  function Occurrences(data: seq<Record>, stage: string): nat {
    if |data| == 0 then 0
    else Occurrences(data[..|data| - 1], stage) + (if data[|data| - 1].stage == stage then 1 else 0)
  }

  /** The per-page milliseconds of one stage: `int(total / pages * 1000)`. */
  function PerPageMillis(total: real, pages: nat): int
    requires pages > 0
  {
    TruncReal(total / pages as real * 1000.0)
  }

  /**
   What `get_timing_summary` returns: for every stage that occurs, its total
   divided by the number of pages, in milliseconds. Nothing is divided when
   there are no records; otherwise a chunk without `image_load` records
   divides by zero.
   */
  function Summary(data: seq<Record>): Result<map<string, int>> {
    if |data| == 0 then Ok(map[])
    else if Occurrences(data, ImageLoad) == 0 then Err(ZeroDivision)
    else Ok(map k | k in Names(data) :: PerPageMillis(Total(data, k), Occurrences(data, ImageLoad)))
  }

  lemma NamesOfSnoc(data: seq<Record>, r: Record)
    ensures Names(data + [r]) == Names(data) + {r.stage}
  {
    var d := data + [r];
    assert forall i :: 0 <= i < |data| ==> d[i] == data[i];
    assert d[|data|] == r;
  }

  lemma NoNamesWithoutRecords(data: seq<Record>)
    ensures |Names(data)| == 0 <==> |data| == 0
  {
    if |data| > 0 {
      assert data[0].stage in Names(data);
    }
  }

  /** A stage that was never recorded has total zero. */
  lemma {:induction false} AbsentStageTotalsZero(data: seq<Record>, stage: string)
    requires stage !in Names(data)
    ensures Total(data, stage) == 0.0
  {
    if |data| > 0 {
      var init := data[..|data| - 1];
      assert Names(init) <= Names(data) by {
        forall s | s in Names(init) ensures s in Names(data) {
          var i :| 0 <= i < |init| && init[i].stage == s;
          assert data[i] == init[i];
        }
      }
      assert data[|data| - 1].stage in Names(data);
      AbsentStageTotalsZero(init, stage);
    }
  }

  /** `sums[key] += val` after `sums.setdefault(key, 0.)`. */
  function Accumulate(sums: map<string, real>, r: Record): map<string, real> {
    sums[r.stage := (if r.stage in sums then sums[r.stage] else 0.0) + r.seconds]
  }

  /** One record folded into sums that are the totals of the records before it. */
  lemma AccumulateStep(data: seq<Record>, r: Record, sums: map<string, real>)
    requires sums.Keys == Names(data)
    requires forall k :: k in sums ==> sums[k] == Total(data, k)
    ensures Accumulate(sums, r).Keys == Names(data + [r])
    ensures forall k :: k in Accumulate(sums, r) ==> Accumulate(sums, r)[k] == Total(data + [r], k)
    ensures Occurrences(data + [r], ImageLoad) == Occurrences(data, ImageLoad) + (if r.stage == ImageLoad then 1 else 0)
  {
    var d := data + [r];
    assert d[..|d| - 1] == data;
    NamesOfSnoc(data, r);
    if r.stage !in sums {
      AbsentStageTotalsZero(data, r.stage);
    }
  }

  /**
   The loop of `get_timing_summary`: one pass accumulates the sums per stage
   and counts the `image_load` records; the sums are then divided and
   converted to milliseconds.
   */
  method GetTimingSummary(data: seq<Record>) returns (r: Result<map<string, int>>)
    ensures r == Summary(data)
    ensures |data| == 0 ==> r == Ok(map[])
    ensures |data| > 0 && Occurrences(data, ImageLoad) == 0 ==> r == Err(ZeroDivision)
    ensures r.Ok? ==> r.value.Keys == Names(data)
    ensures r.Ok? && |data| > 0 ==>
      forall k :: k in r.value ==> r.value[k] == PerPageMillis(Total(data, k), Occurrences(data, ImageLoad))
  {
    var sums: map<string, real> := map[];
    var loads := 0;
    var i := 0;
    while i < |data|
      invariant 0 <= i <= |data|
      invariant sums.Keys == Names(data[..i])
      invariant forall k :: k in sums ==> sums[k] == Total(data[..i], k)
      invariant loads == Occurrences(data[..i], ImageLoad)
    {
      var key := data[i].stage;
      var val := data[i].seconds;
      ghost var before := sums;
      AccumulateStep(data[..i], data[i], sums);
      assert data[..i + 1] == data[..i] + [data[i]];
      if key == ImageLoad {
        loads := loads + 1;
      }
      if key !in sums {
        sums := sums[key := 0.0];
      }
      sums := sums[key := sums[key] + val];
      assert sums == Accumulate(before, data[i]);
      i := i + 1;
    }
    assert data[..i] == data;
    NoNamesWithoutRecords(data);
    if |sums| == 0 {
      // the division loop never runs
      r := Ok(map[]);
    } else if loads == 0 {
      r := Err(ZeroDivision);
    } else {
      r := Ok(map k | k in sums :: PerPageMillis(sums[k], loads));
      SummaryOfSums(data, sums, loads);
    }
  }

  lemma SummaryOfSums(data: seq<Record>, sums: map<string, real>, loads: nat)
    requires |data| > 0 && loads > 0 && loads == Occurrences(data, ImageLoad)
    requires sums.Keys == Names(data)
    requires forall k :: k in sums ==> sums[k] == Total(data, k)
    ensures Summary(data) == Ok(map k | k in sums :: PerPageMillis(sums[k], loads))
  {
    var m := map k | k in sums :: PerPageMillis(sums[k], loads);
    var n := map k | k in Names(data) :: PerPageMillis(Total(data, k), Occurrences(data, ImageLoad));
    assert m.Keys == n.Keys;
    assert forall k :: k in m ==> m[k] == n[k];
    assert m == n;
  }

  /** Every page's `image_load` record counts: the divisor is the number of pages in the chunk. */
  lemma {:induction false} PagesDivide(pages: seq<seq<Record>>, data: seq<Record>)
    requires forall p :: 0 <= p < |pages| ==> Occurrences(pages[p], ImageLoad) == 1
    requires data == Flatten(pages)
    ensures Occurrences(data, ImageLoad) == |pages|
  {
    if |pages| > 0 {
      var init := pages[..|pages| - 1];
      assert forall p :: 0 <= p < |init| ==> init[p] == pages[p];
      PagesDivide(init, Flatten(init));
      OccurrencesOfConcat(Flatten(init), pages[|pages| - 1], ImageLoad);
    }
  }

  /** The records of several pages, in order. */
  function Flatten(pages: seq<seq<Record>>): seq<Record> {
    if |pages| == 0 then [] else Flatten(pages[..|pages| - 1]) + pages[|pages| - 1]
  }

  lemma {:induction false} OccurrencesOfConcat(a: seq<Record>, b: seq<Record>, stage: string)
    ensures Occurrences(a + b, stage) == Occurrences(a, stage) + Occurrences(b, stage)
  {
    if |b| > 0 {
      assert (a + b)[..|a + b| - 1] == a + b[..|b| - 1];
      OccurrencesOfConcat(a, b[..|b| - 1], stage);
    } else {
      assert a + b == a;
    }
  }
}
